=== FILE: README.md ===
# Scene graph: a Dafny model

This project models the core of a small Java/OpenGL scene-graph library. It
covers five parts:

- **The scene graph.** Plain `PartialScene` nodes hold a list of children. Six payload node kinds carry a transform, material, light, camera, shape or texture. A `Scene` owns a root node and a background colour.
- **The camera.** It holds requested and actual view limits and a view (eye, centre, up). The trackball rotation (`applyTransvection`) reflects the view frame twice.
- **The renderer.** It is modelled as a class over an abstract OpenGL state: the three matrix stacks, the current matrix mode, the enabled light ids, the viewport and a log of the calls it issued. It also holds the `animationRequired` flag and the `frameNumber` counter.
- **The transforms.** There are six kinds; each `apply` hands the transform to one renderer operation.
- **The 4×4 matrix utilities.**

## What the model contains

**Modules and files.** Each module is one file:

- `Vectors` (vectors.dfy): 3-vector algebra.
- `Cameras` (cameras.dfy): the `Camera` class.
- `Rendering` (rendering.dfy): the GL state, one step function per renderer call, the `Renderer` class and `TrackballMouser`.
- `Transformations` (transformations.dfy): the `Transform` class.
- `Traversal` (traversal.dfy): the meaning of `draw` on a tree of nodes, and its lemmas.
- `Nodes` (nodes.dfy): the `Node` and `Scene` classes.
- `Frames` (frames.dfy): `display`.
- `Matrices` (matrices.dfy): `MatrixOperations`.

**How `draw` is specified.** Each renderer method is proved against a step function on the render context (`Rendering.Context`). A node graph is read as a tree (`Traversal.Tree`); a node shared by several parents appears once under each. `Traversal.Run` gives `draw` its meaning. `Node.Draw` loops over the live `children` field and is proved to do exactly what `Run` says. Its frame shows that drawing writes the renderer and the cameras, never a node's child list. `Traversal.Applied` lists the cameras a draw applies, in order. `Node.Draw` also states the renderer's camera afterwards, which is the one the trackball turns, and the actual limits of every camera in the tree (`Nodes.Actuals`, `Nodes.LimitsAfter`).

## Model

| member | source | states |
|---|---|---|
| Nodes.Node.constructor | src/nodes/PartialScene.java:17-19 | a new plain node has no children |
| Nodes.Node.AddChild | src/nodes/PartialScene.java:29-31 | the child is appended at the end and nothing else changes; the same node may be appended twice |
| Nodes.Node.RemoveChild | src/nodes/PartialScene.java:40-42 | the list loses exactly the first occurrence of that object (`Without`), and is unchanged if it is absent |
| Nodes.WithoutAbsent | src/nodes/PartialScene.java:40-42 | removing an absent node leaves the list as it was |
| Nodes.WithoutAt | src/nodes/PartialScene.java:40-42 | removal deletes the element at the first index holding the node and keeps everything before and after it in order |
| Nodes.WithoutMultiset | src/nodes/PartialScene.java:40-42 | removal takes away one copy of the node and nothing else |
| Nodes.AddThenRemove | src/nodes/PartialScene.java:29-42 | adding a node that was not a child and then removing it restores the list |
| Nodes.Node.Draw | src/nodes/PartialScene.java:53-59 | drawing a node changes the render context exactly as `Run` on its tree says and writes no node; it reports whether it ran to the end; the renderer's camera is then the last camera the draw applied (`Latest` of `Applied`), a failing one included, each applied camera holds its actual limits for the viewport, and every other camera keeps its limits |
| Nodes.Node.DrawChildren | src/nodes/PartialScene.java:53-59 | a plain node saves, draws its children, and restores only if every child drew; the cameras its children applied set the renderer's camera and their limits, and no other camera changes |
| Nodes.Node.DrawAll | src/nodes/PartialScene.java:55-57 | the children are drawn once each in list order, stopping at the first that fails (`RunAll`); the renderer's camera is the last one they applied (`AppliedAll`), and exactly those cameras get new actual limits |
| Nodes.Node.DrawChild | src/nodes/PartialScene.java:55-57 | after child i the context is the first i+1 children's run, and the renderer's camera and the cameras' limits are those the first i+1 children applied; a failing child ends the whole list's run |
| Nodes.Node.DrawPayload | src/nodes/TransformNode.java:51-53 | a payload node makes one renderer call for its payload: no save, no restore, no child visited; only a camera node changes the renderer's camera or a camera's limits |
| Nodes.Node.DrawEffect | src/nodes/TransformNode.java:51-53 | a transform, material, light, shape or texture node cannot fail, applies no camera and leaves the renderer's camera as it was |
| Nodes.Node.DrawCamera | src/nodes/CameraNode.java:51-53 | a camera node is exactly one `applyCamera` of its camera: it becomes the renderer's camera, gets its actual limits for the viewport even when its view distance fails, and no other camera changes |
| Nodes.Node.TransformNode | src/nodes/TransformNode.java:19-22 | stores the transform, no children |
| Nodes.Node.MaterialNode | src/nodes/MaterialNode.java:19-22 | stores the material, no children |
| Nodes.Node.LightNode | src/nodes/LightNode.java:19-22 | stores the light, no children |
| Nodes.Node.CameraNode | src/nodes/CameraNode.java:19-22 | stores the camera, no children |
| Nodes.Node.ShapeNode | src/nodes/ShapeNode.java:19-22 | stores the shape, no children |
| Nodes.Node.TextureNode | src/nodes/TextureNode.java:19-22 | stores the texture, no children |
| Nodes.Node.SetTransform | src/nodes/TransformNode.java:39-41 | the payload is the new transform; children unchanged |
| Nodes.Node.SetMaterial | src/nodes/MaterialNode.java:39-41 | the payload is the new material; children unchanged |
| Nodes.Node.SetLight | src/nodes/LightNode.java:39-41 | the payload is the new light; children unchanged |
| Nodes.Node.SetCamera | src/nodes/CameraNode.java:39-41 | the payload is the new camera; children unchanged |
| Nodes.Node.SetShape | src/nodes/ShapeNode.java:39-41 | the payload is the new shape; children unchanged |
| Nodes.Node.SetTexture | src/nodes/TextureNode.java:39-41 | the payload is the new texture; children unchanged |
| Nodes.Scene.constructor | src/nodes/Scene.java:26-29 | a fresh empty plain root, and the colour stored as [r, g, b, a] without clamping |
| Nodes.Scene.Add | src/nodes/Scene.java:37-39 | the root's children change exactly as `addChild` changes them |
| Nodes.Scene.Remove | src/nodes/Scene.java:47-49 | the root's children change exactly as `removeChild` changes them |
| Nodes.Scene.Draw | src/nodes/Scene.java:78-80 | drawing the scene is drawing its root node, with the same renderer camera and camera limits afterwards |
| Traversal.Run | src/nodes/PartialScene.java:53-59 | no draw undoes the viewport, enabled lights, frame number, set animation flag or log written so far |
| Traversal.RunAll | src/nodes/PartialScene.java:55-57 | the same for a list of siblings |
| Traversal.RunAllAppend | src/nodes/PartialScene.java:55-57 | drawing siblings a ++ b is drawing a, then b from where a stopped, and nothing of b after a failure |
| Traversal.RunPair | src/nodes/PartialScene.java:55-57 | of two siblings the second is drawn from where the first stopped, and only if the first finished |
| Traversal.FailureSkipsSiblings | src/nodes/PartialScene.java:53-59 | once a child fails, the later siblings are not drawn and apply no camera |
| Traversal.RunAllPrefix | src/nodes/PartialScene.java:55-57 | the first i+1 children are drawn, and apply cameras, as the first i and then child i from where they stopped, and child i not at all after a failure |
| Traversal.FailedDrawAppliedCamera | src/main/Renderer.java:428-467 | a draw fails only at a camera that has already been applied, so after a failed draw the trackball turns the camera that failed |
| Nodes.AppliedInTree | src/nodes/PartialScene.java:53-59 | a draw applies only cameras of its own tree |
| Nodes.LimitsAfterAppend | src/main/Renderer.java:428-459 | writing the limits of two batches of cameras in turn is writing those of both, the later batch winning |
| Traversal.PayloadIgnoresChildren | src/nodes/TransformNode.java:51-53 | a payload node's children, whatever they are, do not affect its draw |
| Traversal.TransformReachesNextSibling | src/nodes/TransformNode.java:51-53 | a transform node's operation stays on the modelview top for the sibling drawn after it |
| Traversal.RunDisciplined | src/nodes/PartialScene.java:53-59 | every draw keeps the stack discipline: the modelview stack below the top is untouched, the appended log never restores more than it saved, and a plain node that finishes gives back the modelview stack it found |
| Traversal.GroupDisciplined | src/nodes/PartialScene.java:53-59 | a plain node that finishes logs a balanced save…restore bracket and restores the modelview stack; one whose child fails leaves the stack deeper (no `finally`) |
| Traversal.GroupFinished | src/nodes/PartialScene.java:53-59 | when every child drew, the restore closes a balanced bracket and gives back the modelview stack the node found |
| Traversal.GroupAborted | src/nodes/PartialScene.java:53-59 | when a child failed, the save stays open and the modelview stack is one or more levels deeper |
| Traversal.LeafDisciplined | src/nodes/TransformNode.java:51-53 | a payload node keeps the stack discipline and appends exactly one event, none for a camera, and never a save or a restore |
| Traversal.RunAllDisciplined | src/nodes/PartialScene.java:55-57 | a list of siblings keeps the same discipline |
| Traversal.DisciplinedCompose | src/nodes/PartialScene.java:55-57 | the discipline of two draws in sequence follows from each |
| Traversal.NetAppend | src/main/Renderer.java:71-82 | the saves-minus-restores count of two logs adds up |
| Traversal.BalancedWrap | src/main/Renderer.java:71-82 | a balanced log between a save and a restore is balanced |
| Traversal.RunQuiet | src/nodes/PartialScene.java:53-59 | drawing a tree never clears or flushes the window |
| Frames.Display | src/main/Renderer.java:797-809 | one frame: clear to the background colour, identity on the modelview top, draw the scene, then advance the counter and flush only if the draw finished; afterwards the renderer's camera is the last camera the scene applied and exactly those cameras hold new actual limits |
| Frames.FrameIsBracketed | src/main/Renderer.java:797-809 | a finished frame logs the clear, a balanced stretch, the flush; the modelview stack is as `display` set it; the counter moves (wrapping at 32 bits) exactly when animation was requested |
| Frames.FailedFrameLeaks | src/main/Renderer.java:797-809 | a frame whose camera fails leaves no flush, no new frame number, and a deeper modelview stack |
| Rendering.Renderer.constructor | src/main/Renderer.java:53-64 | a new renderer: no animation requested, frame 0, no camera, one identity on each stack |
| Rendering.Renderer.SaveTransform | src/main/Renderer.java:71-75 | pushes a copy of the current matrix |
| Rendering.Renderer.RestoreTransform | src/main/Renderer.java:80-82 | pops the current matrix |
| Rendering.SaveRestoreRoundTrip | src/main/Renderer.java:71-82 | a restore right after a save gives back the state, the log aside |
| Rendering.RestorePopsOnlyModelView | src/main/Renderer.java:80-82 | in modelview mode a restore pops the modelview stack and touches no other stack, light or mode |
| Rendering.ModelTransformIsScoped | src/main/Renderer.java:539-550 | a transform without the tex flag between a save and a restore is undone |
| Rendering.TextureTransformSurvivesRestore | src/main/Renderer.java:541-545 | a tex-flagged transform resets the texture matrix to the identity before multiplying, and a restore does not undo it |
| Rendering.LightSurvivesRestore | src/main/Renderer.java:344-353 | an enabled light stays enabled after the restore |
| Rendering.Renderer.Translate | src/main/Renderer.java:539-550 | one translation on the current matrix, or on a freshly reset texture matrix when tex is set |
| Rendering.Renderer.Rotate | src/main/Renderer.java:559-570 | the same for a rotation |
| Rendering.Renderer.Scale | src/main/Renderer.java:579-590 | the same for a scale |
| Rendering.Renderer.AnimateTranslate | src/main/Renderer.java:599-625 | sets the animation flag and translates by the frame-dependent offsets |
| Rendering.Renderer.AnimateRotate | src/main/Renderer.java:634-645 | sets the animation flag and rotates by the frame-dependent angle |
| Rendering.Renderer.AnimateScale | src/main/Renderer.java:654-679 | sets the animation flag and scales by the frame-dependent factors |
| Rendering.AnimatedAngleRange | src/main/Renderer.java:634-645 | from a non-negative frame number, the animated angle is in [0, angle) for a positive angle, in (angle, 0] for a negative one, and 0 for 0 |
| Rendering.AnimatedAngleNegativeFrames | src/main/Renderer.java:634-645 | from a negative (wrapped) frame number the signs flip, except that `-(frameNumber)` at the most negative `int` stays negative, so a negative angle then still gives a value in (angle, 0] |
| Rendering.AnimatedOffsetSigns | src/main/Renderer.java:599-625 | from a non-negative frame number and with a negative smallest amplitude, a negative x offsets in (x, 0] while a negative y or z offsets in [0, −y); a zero amplitude never moves |
| Rendering.OffsetsAreRems | src/main/Renderer.java:599-679 | a negative x uses the `int` negation of the frame number (which leaves the most negative `int` unchanged), y and z use +frameNumber, and the scale factor is that remainder plus 1 |
| Rendering.AnimatedFactorRange | src/main/Renderer.java:654-679 | a zero amplitude gives factor 1; from a non-negative frame number, a positive amplitude with a positive smallest amplitude gives a factor in [1, 1 + x) |
| Rendering.RemBounds | src/main/Renderer.java:604-645 | Java's truncating remainder has the sign of the dividend and is smaller than the divisor |
| Rendering.AnimationFlagSet | src/main/Renderer.java:599-679 | the animated rotation (for every angle and axis) and the animated translation and scale (wherever they are defined) each set the flag and leave the frame number alone |
| Rendering.FrameCounter | src/main/Renderer.java:801-806 | the counter moves by one exactly when animation was requested, from 0x7fff_ffff to −0x8000_0000, stays within the `int` range, and the flag is never reset |
| Rendering.Renderer.ClearDisplay | src/main/Renderer.java:709-713 | logs a clear to the given colour and changes nothing else |
| Rendering.Renderer.BeginFrame | src/main/Renderer.java:800-801 | switches to modelview mode and loads the identity into its top |
| Rendering.Renderer.FinishFrame | src/main/Renderer.java:803-806 | advances the counter of an animated scene and flushes |
| Rendering.Renderer.Setup | src/main/Renderer.java:685-695 | enables light 0 |
| Rendering.Renderer.ApplyMaterial | src/main/Renderer.java:323-334 | one material upload, no matrix change |
| Rendering.Renderer.ApplyLight | src/main/Renderer.java:344-397 | the light's id joins the enabled set, which nothing ever shrinks |
| Rendering.Renderer.ApplyTexture | src/main/Renderer.java:407-417 | one texture bind; a file that does not load is caught and changes nothing else |
| Rendering.Renderer.DrawShape | src/main/Renderer.java:91-210 | one primitive drawn in the style its status selects |
| Rendering.ToUpperIdempotent | src/main/Renderer.java:91-101 | upper-casing twice is upper-casing once |
| Rendering.DrawingIgnoresCase | src/main/Renderer.java:91-210 | the drawing depends only on the upper-cased status |
| Rendering.StandardStyleCases | src/main/Renderer.java:91-101 | TEXTURE gives textured, WIRE gives wire, anything else gives solid, case-insensitively |
| Rendering.TeapotIsUntexturedCube | src/main/Renderer.java:202-210 | a teapot is drawn as a cube and never textured |
| Rendering.ComplexShapeMesh | src/main/Renderer.java:306-312 | a complex shape uses the mesh exactly for SMOOTH, and is textured exactly for TEXTURE |
| Rendering.Renderer.ApplyCamera | src/main/Renderer.java:428-499 | records the camera as the one the trackball turns, writes its actual limits for the viewport, leaves its view and requested limits alone, and changes the context as the camera step says |
| Rendering.Renderer.WriteActualLimits | src/main/Renderer.java:433-459 | the actual limits become the requested ones, widened for the viewport when aspect is preserved |
| Rendering.WidenMatchesViewport | src/main/Renderer.java:437-459 | widening changes at most one axis, keeps the centre, makes the height-to-width ratio equal the viewport's, and changes nothing when the ratios are already equal |
| Rendering.WidenWider | src/main/Renderer.java:445-451 | when the window is relatively taller than the viewport, only x is widened |
| Rendering.WidenTaller | src/main/Renderer.java:452-458 | when the viewport is relatively taller than the window, only y is widened |
| Rendering.WidenNeverNarrows | src/main/Renderer.java:437-459 | for a window of positive width and height, neither axis shrinks |
| Rendering.ActualIsRequestedWithoutAspect | src/main/Renderer.java:433-436 | without aspect preservation the actual limits are the requested ones |
| Rendering.ProjectionDepths | src/main/Renderer.java:460-491 | orthographic near/far are distance − zmax and distance − zmin; the perspective near is the larger of 0.1 and distance − zmax, and the frustum is the actual window about its centre scaled by near / distance |
| Rendering.CameraStepFails | src/main/Renderer.java:428-499 | applying a camera fails exactly when eye and centre coincide, and then stays in projection mode; otherwise it ends in modelview mode with the look-at on top |
| Rendering.Renderer.Flatten | src/main/Renderer.java:718-773 | the output is the rows concatenated in row-major order, and the input is unchanged |
| Rendering.FlatLength | src/main/Renderer.java:718-733 | the output length is the sum of the row lengths |
| Rendering.FlatIndex | src/main/Renderer.java:718-733 | element j of row i lands at the sum of the earlier row lengths plus j |
| Rendering.TrackballMouser.constructor | src/main/Renderer.java:824-825 | not dragging, no previous ray |
| Rendering.TrackballMouser.MousePressed | src/main/Renderer.java:834-839 | starts a drag and records the ray, unless already dragging |
| Rendering.TrackballMouser.MouseReleased | src/main/Renderer.java:848-852 | ends the drag |
| Rendering.TrackballMouser.MouseDragged | src/main/Renderer.java:861-867 | while dragging with a camera, the camera's view is rotated from the previous ray to the new one, and the new ray is kept only when that succeeds; a move while not dragging leaves the camera as it was, and no move changes the camera's actual limits |
| Cameras.Camera.constructor | src/main/Camera.java:22-32 | eye (0,0,30), centre 0, up (0,1,0), limits ±5 and −10..10, perspective, aspect preserved, actual limits 0 |
| Cameras.Camera.GetOrthographic | src/main/Camera.java:34-36 | reports the flag |
| Cameras.Camera.SetOrthographic | src/main/Camera.java:46-48 | the getter then returns the new flag; nothing else changes |
| Cameras.Camera.GetPreserveAspect | src/main/Camera.java:50-52 | reports the flag |
| Cameras.Camera.SetPreserveAspect | src/main/Camera.java:58-60 | the getter then returns the new flag; nothing else changes |
| Cameras.Camera.SetLimits | src/main/Camera.java:77-85 | `getLimits` returns the six values and `getActualXYLimits` the first four; the view is unchanged |
| Cameras.Camera.SetScale | src/main/Camera.java:91-93 | the same as setting the limits to (−l, l, −l, l, −2l, 2l) |
| Cameras.Camera.GetLimits | src/main/Camera.java:101-104 | the requested limits, never the widened ones |
| Cameras.Camera.GetActualXYLimits | src/main/Camera.java:113-115 | the actual x and y limits |
| Cameras.Camera.LookAt | src/main/Camera.java:122-135 | `getViewParameters` then returns the nine values in order; the limits are unchanged |
| Cameras.Camera.GetViewParameters | src/main/Camera.java:140-142 | eye, centre and up in order |
| Cameras.Camera.Norm | src/main/Camera.java:165-170 | fails exactly for the zero vector; otherwise a positive length whose square is the squared length |
| Cameras.Camera.Normalize | src/main/Camera.java:177-182 | divides the vector by its length in place, and fails leaving it unchanged for the zero vector |
| Cameras.Camera.ReflectInAxis | src/main/Camera.java:237-244 | the destination holds the reflection of the source in the axis, even when the arrays alias |
| Cameras.DotViewCoords | src/main/Camera.java:255-262 | the frame coordinates change is linear |
| Cameras.ViewCoordsPreserveDot | src/main/Camera.java:255-262 | in an orthonormal frame it preserves dot products |
| Cameras.ReflectFixesAxis | src/main/Camera.java:237-244 | a unit axis reflects to itself |
| Cameras.ReflectInvolution | src/main/Camera.java:237-244 | reflecting twice in a unit axis gives back the source |
| Cameras.ReflectPreservesDot | src/main/Camera.java:237-244 | reflection in a unit axis preserves dot products |
| Cameras.Camera.ApplyTransvection | src/main/Camera.java:190-228 | succeeds exactly when the frame and the bisector can be normalized; on failure nothing changes; on success eye = centre + distance·z′ and up = up length·y′; the centre, limits and ray arrays are never written |
| Cameras.Camera.ViewFrameOf | src/main/Camera.java:192-210 | builds the view frame in fresh arrays, or reports the failure of a normalization before any field is written |
| Cameras.Camera.RotateInFrame | src/main/Camera.java:211-221 | the frame arrays end up holding `RotateFrame` of the old frame and the two rays, and the call fails, writing nothing, exactly when the bisector cannot be normalized |
| Cameras.Camera.SetView | src/main/Camera.java:222-227 | the last six writes set eye and up only |
| Cameras.TransvectionSteps | src/main/Camera.java:190-228 | when the frame and the rotation are defined, the new view is the rotated frame put back about the centre |
| Cameras.TransvectionFails | src/main/Camera.java:190-228 | when either step is undefined, the transvection fails |
| Cameras.ViewFrameIsOrthonormal | src/main/Camera.java:192-210 | the frame built from eye, centre and up is orthonormal |
| Cameras.ViewFrameDefinedIff | src/main/Camera.java:192-210 | the frame exists exactly when eye and centre differ and up is not a multiple of the line of sight |
| Cameras.RotateFrameIsOrthonormal | src/main/Camera.java:211-221 | the double reflection keeps the frame orthonormal |
| Cameras.TransvectionKeepsDistances | src/main/Camera.java:222-227 | the eye stays at the same distance from the centre and up keeps its length |
| Cameras.BisectorReflectionSwaps | src/main/Camera.java:213-214 | reflection in the normalized bisector swaps two unit vectors, and the second reflection fixes the first, so the double reflection takes the second to the first |
| Cameras.ReflectViewCoords | src/main/Camera.java:237-262 | reflecting the vector with given frame coordinates is the same as reflecting the frame |
| Cameras.RotateFrameCarriesRay | src/main/Camera.java:190-221 | for unit rays in an orthonormal frame, the direction with coordinates e2 in the turned frame is the direction with coordinates e1 in the old one: the drag carries ray e1 onto e2 |
| Cameras.TransvectionCarriesRay | src/main/Camera.java:190-228 | a successful transvection turns the view frame so that ray e1 is carried onto e2, and puts the eye at its old distance along the turned line of sight and up at its old length along the turned y axis |
| Cameras.RotateFrameSameRay | src/main/Camera.java:211-221 | rotating a ray onto itself leaves the frame as it was |
| Cameras.TransvectionSameRayKeepsEye | src/main/Camera.java:190-228 | dragging a ray onto itself keeps the eye |
| Cameras.TransvectionSameRayKeepsUp | src/main/Camera.java:190-228 | and, with up orthogonal to the line of sight, keeps up |
| Transformations.Transform.Translation | src/transformations/Translation.java:21-24 | stores x, y, z and tex exactly |
| Transformations.Transform.Rotation | src/transformations/Rotation.java:26-29 | stores the angle, the axis and tex exactly |
| Transformations.Transform.Scale | src/transformations/Scale.java:23-26 | stores x, y, z and tex exactly |
| Transformations.Transform.AnimatedTranslation | src/transformations/AnimatedTranslation.java:19-22 | stores the amplitudes and tex exactly |
| Transformations.Transform.AnimatedRotation | src/transformations/AnimatedRotation.java:21-24 | stores the angle, the axis and tex exactly |
| Transformations.Transform.AnimatedScale | src/transformations/AnimatedScale.java:18-21 | stores the amplitudes and tex exactly |
| Transformations.Transform.SetX | src/transformations/Transform.java:41-43 | changes x and nothing else |
| Transformations.Transform.SetY | src/transformations/Transform.java:51-53 | changes y and nothing else |
| Transformations.Transform.SetZ | src/transformations/Transform.java:61-63 | changes z and nothing else |
| Transformations.Transform.SetTex | src/transformations/Transform.java:71-73 | changes the tex flag and nothing else |
| Transformations.Transform.SetAngle | src/transformations/Rotation.java:45-47 | changes the angle and nothing else |
| Transformations.Transform.Apply | src/transformations/Translation.java:31-34 | exactly one renderer call, chosen by the kind; the transform's own fields are not written |
| Transformations.ApplyStep | src/transformations/Transform.java:118 | one transformation event; only the matrix tops change; nothing a draw cannot undo is lost |
| Transformations.ApplyCallsRenderer | src/transformations/Rotation.java:55-57 | each kind's apply is its own renderer operation: translate, rotate, scale or their animated forms |
| Transformations.ApplyDispatch | src/transformations/AnimatedScale.java:27-30 | each kind multiplies an operation of its own family; plain kinds pass their values through; only animated kinds set the flag |
| Transformations.AnimationStartsAtRest | src/main/Renderer.java:599-679 | at frame 0 an animated transform is the identity: no offset, no angle, unit factors |
| Matrices.MatrixOperations.constructor | src/main/MatrixOperations.java:10-12 | a fresh 4×4 matrix of zeros |
| Matrices.MatrixOperations.SetIdentity | src/main/MatrixOperations.java:15-21 | 1 on the diagonal, 0 elsewhere |
| Matrices.MatrixOperations.Multiply | src/main/MatrixOperations.java:24-34 | a fresh matrix whose entry [i][j] is the sum over k of this[i][k]·other[k][j]; both operands unchanged |
| Matrices.MatrixOperations.AccumulateEntry | src/main/MatrixOperations.java:27-31 | the inner loop adds up one row-by-column sum and writes no other entry |
| Matrices.IdentityIsUnit | src/main/MatrixOperations.java:24-34 | the identity is a unit on both sides of the product |
| Matrices.ProductActsInOrder | src/main/MatrixOperations.java:24-43 | the product applied to a point is the second factor then the first |
| Matrices.MatrixOperations.MultiplyVector | src/main/MatrixOperations.java:36-43 | component i is row i dotted with (x, y, z, w) |
| Matrices.IdentityFixesPoints | src/main/MatrixOperations.java:36-43 | the identity fixes every point |
| Matrices.MatrixOperations.MultiplyVertices | src/main/MatrixOperations.java:45-82 | one row per vertex, each the first three components of the matrix times (v0, v1, v2, 1), no divide by w |
| Matrices.MatrixOperations.LiftAll | src/main/MatrixOperations.java:46-50 | every vertex becomes the point (v0, v1, v2, 1); further components are ignored |
| Matrices.MatrixOperations.TransformAll | src/main/MatrixOperations.java:51-53 | every point is replaced by its product with the matrix |
| Matrices.MatrixOperations.FirstThree | src/main/MatrixOperations.java:54-61 | every output row is the first three components of its point |
| Matrices.MatrixOperations.CreateShearX | src/main/MatrixOperations.java:84-90 | the identity except entries [1][0] and [2][0] |
| Matrices.MatrixOperations.CreateShearY | src/main/MatrixOperations.java:92-98 | the identity except entries [0][1] and [2][1] |
| Matrices.MatrixOperations.CreateShearZ | src/main/MatrixOperations.java:100-106 | the identity except entries [0][2] and [1][2] |
| Matrices.ShearXKeepsX | src/main/MatrixOperations.java:84-90 | an x-shear keeps x and adds multiples of x to y and z |
| Matrices.ShearYKeepsY | src/main/MatrixOperations.java:92-98 | a y-shear keeps y |
| Matrices.ShearZKeepsZ | src/main/MatrixOperations.java:100-106 | a z-shear keeps z |
| Matrices.MatrixOperations.ToFloatArray | src/main/MatrixOperations.java:109-115 | sixteen entries with result[4i + j] = matrix[i][j] |

## Left out

- **OpenGL, GLU, GLUT and JOGL calls.** Each becomes an event in the context's log. Stack depth limits, tessellation, and material and light parameter upload are not modelled. `drawPolyhedron`, `drawPolyMesh` and texture loading through `TextureIO` are foreign code.
- **Whether a texture file loads.** This is the parameter `loaded`.
- **Floating point.** Floats and doubles are modelled as reals, so rounding, NaN and infinity are not represented.
  - Where the source would divide by zero, a precondition excludes it:
    - the animated translation and scale require a nonzero smallest amplitude unless all three amplitudes are zero;
    - `applyCamera` requires a nonzero requested window and viewport (`CameraDefined`).
  - The double to float narrowing of the double vertex overload is not modelled. `Matrices.MatrixOperations.MultiplyVertices` models both overloads.
- **`Math.sqrt`.** It is a parameter of subset type: positive on positive inputs. The square-root law is a hypothesis of the lemmas that need it (`IsSqrt`).
- **`norm` and the ray arrays.** `norm` throws on a NaN or infinite squared length; over the reals that cannot happen, so `Cameras.Camera.Norm` fails only for the zero vector. Its array argument is modelled as a value.
- **Exceptions.** `norm` and `normalize` throw `NumberFormatException`, which propagates out of `draw`. In the model it is a `false` result that ends the traversal, and the frame after it is not finished. A drag before any camera has been applied throws `NullPointerException` at `camera_.applyTransvection`; `Rendering.TrackballMouser.MouseDragged` models it the same way, as a `false` result that keeps the previous ray.
- **`toUpperCase`.** It is modelled for ASCII letters only.
- **Getters.** These are field reads: the `Scene` root and colour array, a node's payload, a transform's values, and `Camera` getters other than the ones listed.
- **Delegations folded into direct renderer calls.** The one-line `Material.apply`, `Tex.apply`, the light `apply` methods, `Shape.draw` and `Camera.apply` are not separate members.
- **Shapes and lights.** They are opaque values: a shape is a kind and a status, a light a kind and an id.
- **The node graph as a tree.** It is given to `draw` as a ghost `Tree` whose nodes match the live objects. A shared child appears once per parent. A cyclic graph, on which `draw` does not terminate, has no such tree.
- **Camera settings during a draw.** `applyCamera` writes only a camera's actual limits, so the settings are supplied as a ghost map `cfg` that the draw keeps true.
- **`display`.** It is `Frames.Display`, taking the scene as a parameter: the renderer's `draw` calls `scene.draw`, and the module structure keeps the renderer from depending on the scene classes.
- **Trackball plumbing.** Listener registration (`installTrackball`), `mousePointToRay`, `repaint`, `FPSAnimator` (`animate`), `color`, and the GL event callbacks other than `display` and `init`.
- **`MatrixOperations.toString` and diagnostic stack traces.** These are diagnostics only.
- **Other source.** `FileManager`, the example programs, the data-holder classes under shapes/, lights/, `Material` and `Tex`, and the camera preset arrays are not part of this model.
- Rendering.AnimatedOffsetSigns: stated for a negative smallest amplitude. The sign of each offset for a positive one follows from `Rendering.OffsetsAreRems` and `Rendering.RemBounds`.
- Rendering.AnimatedFactorRange: stated for positive amplitudes and a positive smallest amplitude. The `< 0` branch of the scale is not reachable (the amplitude is tested against zero first), and it is left out of the definition rather than written as dead code.
- Rendering.FrameCounter: requires a frame number within 32-bit range, as every value the counter can hold is.
- Rendering.WidenNeverNarrows: stated for windows of positive width and height. `setLimits` also accepts inverted limits, and on those the widening can shrink an axis; that case is not stated.
- Rendering.AnimatedAngleRange, Rendering.AnimatedOffsetSigns and Rendering.AnimatedFactorRange: stated from a non-negative frame number. Once the counter wraps, the frame number is negative and the signs flip; for the angle that case is `Rendering.AnimatedAngleNegativeFrames`, and for the offsets and factors it is left to `Rendering.OffsetsAreRems` and `Rendering.RemBounds`.
- Rendering.Renderer.AnimateTranslate and Rendering.Renderer.AnimateScale: they require `AmplitudesDefined`, a nonzero smallest amplitude unless all three are zero. This excludes single-axis animations such as `AnimatedTranslation(5, 0, 0)`. There the smallest amplitude is 0, and Java's `x / smallest` gives an infinite quotient and a NaN offset or factor, which the real numbers cannot represent. All-zero amplitudes divide nothing and are modelled: they give `Translate(0, 0, 0)` and `Scale(1, 1, 1)`.
- Matrices.MatrixOperations.MultiplyVertices and Matrices.MatrixOperations.LiftAll: require every vertex row to have at least three entries. On a shorter row the Java code throws `ArrayIndexOutOfBoundsException`, and that exception is not modelled.

=== FILE: cameras.dfy ===
/**
 * The camera: a viewing transform (eye, view centre, up vector), the
 * requested view-volume limits, the aspect-adjusted "actual" xy limits that
 * the renderer writes back, and the trackball rotation `applyTransvection`.
 */
module Cameras {
  import opened Vectors
  import opened Wrappers

  /** The six numbers `setLimits` takes and `getLimits` returns, in that order. */
  datatype Limits = Limits(xmin: real, xmax: real, ymin: real, ymax: real, zmin: real, zmax: real)

  /** The four actual xy limits. */
  datatype Window = Window(xmin: real, xmax: real, ymin: real, ymax: real)

  /** Everything a camera holds except its actual limits. */
  datatype CameraConfig = CameraConfig(
    eye: Vec3, center: Vec3, up: Vec3,
    requested: Limits,
    orthographic: bool, preserveAspect: bool)

  /** The view a new camera has: from (0,0,30) towards the origin, y up, perspective. */
  const DefaultConfig := CameraConfig(
    Vec3(0.0, 0.0, 30.0), Zero, Vec3(0.0, 1.0, 0.0),
    Limits(-5.0, 5.0, -5.0, 5.0, -10.0, 10.0),
    false, true)

  /** The reflection `reflectInAxis` computes: twice the projection on `axis`, minus `source`. */
  function Reflect(axis: Vec3, source: Vec3): Vec3 {
    Sub(Scale(2.0 * Dot(axis, source), axis), source)
  }

  /** What a successful transvection writes: a new eye and a new up vector. */
  datatype View = View(eye: Vec3, up: Vec3)

  /**
   * The camera's own frame: `z` from the view centre towards the eye, `y` the
   * part of up orthogonal to it, `x` completing the frame, with the two
   * lengths the transvection restores.
   */
  datatype Frame = Frame(x: Vec3, y: Vec3, z: Vec3, viewDistance: real, upLength: real)

  /** The first half of `applyTransvection`; `None` where one of its norms throws. */
  function ViewFrame(c: CameraConfig, sqrt: SqrtFn): Option<Frame> {
    var d := Sub(c.eye, c.center);
    var viewDistance := Camera.Norm(d, sqrt);
    if viewDistance.None? then None
    else
      var z := Div(d, viewDistance.value);
      var upLength := Camera.Norm(c.up, sqrt);
      if upLength.None? then None
      else
        var yRaw := Sub(c.up, Scale(Dot(c.up, z), z));
        var yLength := Camera.Norm(yRaw, sqrt);
        if yLength.None? then None
        else
          var y := Div(yRaw, yLength.value);
          Some(Frame(Cross(y, z), y, z, viewDistance.value, upLength.value))
  }

  /**
   * The second half: express both rays in the frame, and reflect each axis
   * first in their bisector `e`, then in the first ray.  The lengths are kept.
   */
  function RotateFrame(f: Frame, e1: Vec3, e2: Vec3, sqrt: SqrtFn): Option<Frame> {
    var v1 := Camera.TransformToViewCoords(e1, f.x, f.y, f.z);
    var v2 := Camera.TransformToViewCoords(e2, f.x, f.y, f.z);
    var eLength := Camera.Norm(Add(v1, v2), sqrt);
    if eLength.None? then None
    else
      var e := Div(Add(v1, v2), eLength.value);
      Some(f.(x := Reflect(v1, Reflect(e, f.x)),
              y := Reflect(v1, Reflect(e, f.y)),
              z := Reflect(v1, Reflect(e, f.z))))
  }

  /**
   * The value-level meaning of `applyTransvection`: rotate the view about the
   * view centre so that the ray `e1` is carried onto the ray `e2`.  `None`
   * where one of the norms throws.
   */
  function Transvection(c: CameraConfig, e1: Vec3, e2: Vec3, sqrt: SqrtFn): Option<View> {
    match ViewFrame(c, sqrt)
    case None => None
    case Some(f) =>
      match RotateFrame(f, e1, e2, sqrt)
      case None => None
      case Some(g) => Some(Restored(c.center, g))
  }

  /** The eye back at its distance along the turned `z` axis, and up at its length along `y`. */
  function Restored(center: Vec3, g: Frame): View {
    View(Add(center, Scale(g.viewDistance, g.z)), Scale(g.upLength, g.y))
  }

  /** `Transvection` in terms of its two halves. */
  lemma TransvectionSteps(c: CameraConfig, e1: Vec3, e2: Vec3, sqrt: SqrtFn, f: Frame, g: Frame)
    requires ViewFrame(c, sqrt) == Some(f) && RotateFrame(f, e1, e2, sqrt) == Some(g)
    ensures Transvection(c, e1, e2, sqrt) == Some(Restored(c.center, g))
  {
  }

  /** `Transvection` fails exactly where one of its halves does. */
  lemma TransvectionFails(c: CameraConfig, e1: Vec3, e2: Vec3, sqrt: SqrtFn)
    requires ViewFrame(c, sqrt).None? || RotateFrame(ViewFrame(c, sqrt).value, e1, e2, sqrt).None?
    ensures Transvection(c, e1, e2, sqrt).None?
  {
  }

  /** The vector held by a three-element array. */
  function AsVec(a: array<real>): Vec3
    requires a.Length == 3
    reads a
  {
    Vec3(a[0], a[1], a[2])
  }

  class Camera {
    var eye: Vec3
    var center: Vec3
    var up: Vec3
    var requested: Limits
    var orthographic: bool
    var preserveAspect: bool
    var xminActual: real
    var xmaxActual: real
    var yminActual: real
    var ymaxActual: real

    function Config(): CameraConfig
      reads this
    {
      CameraConfig(eye, center, up, requested, orthographic, preserveAspect)
    }

    function Actual(): Window
      reads this
    {
      Window(xminActual, xmaxActual, yminActual, ymaxActual)
    }

    /** The default camera; the actual limits start at zero. */
    constructor ()
      ensures Config() == DefaultConfig
      ensures Actual() == Window(0.0, 0.0, 0.0, 0.0)
    {
      eye, center, up := Vec3(0.0, 0.0, 30.0), Zero, Vec3(0.0, 1.0, 0.0);
      requested := Limits(-5.0, 5.0, -5.0, 5.0, -10.0, 10.0);
      orthographic, preserveAspect := false, true;
      xminActual, xmaxActual, yminActual, ymaxActual := 0.0, 0.0, 0.0, 0.0;
    }

    function GetOrthographic(): (b: bool)
      reads this
      ensures b == Config().orthographic
    {
      orthographic
    }

    method SetOrthographic(b: bool)
      modifies this
      ensures GetOrthographic() == b
      ensures Config() == old(Config()).(orthographic := b)
      ensures Actual() == old(Actual())
    {
      orthographic := b;
    }

    function GetPreserveAspect(): (b: bool)
      reads this
      ensures b == Config().preserveAspect
    {
      preserveAspect
    }

    method SetPreserveAspect(b: bool)
      modifies this
      ensures GetPreserveAspect() == b
      ensures Config() == old(Config()).(preserveAspect := b)
      ensures Actual() == old(Actual())
    {
      preserveAspect := b;
    }

    /** Sets the requested limits and, until the next apply, the actual ones too. */
    method SetLimits(xmin: real, xmax: real, ymin: real, ymax: real, zmin: real, zmax: real)
      modifies this
      ensures GetLimits() == [xmin, xmax, ymin, ymax, zmin, zmax]
      ensures GetActualXYLimits() == [xmin, xmax, ymin, ymax]
      ensures Config() == old(Config()).(requested := Limits(xmin, xmax, ymin, ymax, zmin, zmax))
    {
      requested := Limits(xmin, xmax, ymin, ymax, zmin, zmax);
      xminActual, xmaxActual, yminActual, ymaxActual := xmin, xmax, ymin, ymax;
    }

    /** A cube of half-side `limit`, twice as deep. */
    method SetScale(limit: real)
      modifies this
      ensures GetLimits() == [-limit, limit, -limit, limit, -2.0 * limit, 2.0 * limit]
      ensures GetActualXYLimits() == [-limit, limit, -limit, limit]
      ensures Config() == old(Config()).(requested := Limits(-limit, limit, -limit, limit, -2.0 * limit, 2.0 * limit))
    {
      SetLimits(-limit, limit, -limit, limit, -2.0 * limit, 2.0 * limit);
    }

    /** Overwrites the four actual limits, as the renderer does. */
    method SetActual(w: Window)
      modifies this
      ensures Actual() == w && Config() == old(Config())
    {
      xminActual, xmaxActual, yminActual, ymaxActual := w.xmin, w.xmax, w.ymin, w.ymax;
    }

    /** The requested limits, never the aspect-adjusted ones. */
    function GetLimits(): (r: seq<real>)
      reads this
      ensures |r| == 6
      ensures r[0] == Config().requested.xmin && r[1] == Config().requested.xmax
      ensures r[2] == Config().requested.ymin && r[3] == Config().requested.ymax
      ensures r[4] == Config().requested.zmin && r[5] == Config().requested.zmax
    {
      [requested.xmin, requested.xmax, requested.ymin, requested.ymax, requested.zmin, requested.zmax]
    }

    function GetActualXYLimits(): (r: seq<real>)
      reads this
      ensures |r| == 4
      ensures r[0] == Actual().xmin && r[1] == Actual().xmax
      ensures r[2] == Actual().ymin && r[3] == Actual().ymax
    {
      [xminActual, xmaxActual, yminActual, ymaxActual]
    }

    method LookAt(eyeX: real, eyeY: real, eyeZ: real,
                  centerX: real, centerY: real, centerZ: real,
                  upX: real, upY: real, upZ: real)
      modifies this
      ensures GetViewParameters() == [eyeX, eyeY, eyeZ, centerX, centerY, centerZ, upX, upY, upZ]
      ensures Config() == old(Config()).(eye := Vec3(eyeX, eyeY, eyeZ),
                                         center := Vec3(centerX, centerY, centerZ),
                                         up := Vec3(upX, upY, upZ))
      ensures Actual() == old(Actual())
    {
      eye := Vec3(eyeX, eyeY, eyeZ);
      center := Vec3(centerX, centerY, centerZ);
      up := Vec3(upX, upY, upZ);
    }

    /** The nine `lookAt` parameters: eye, view centre, up. */
    function GetViewParameters(): (r: seq<real>)
      reads this
      ensures |r| == 9
      ensures Vec3(r[0], r[1], r[2]) == Config().eye
      ensures Vec3(r[3], r[4], r[5]) == Config().center
      ensures Vec3(r[6], r[7], r[8]) == Config().up
    {
      [eye.x, eye.y, eye.z, center.x, center.y, center.z, up.x, up.y, up.z]
    }

    /**
     * The length of `v`, or `None` where the source throws: over the reals a
     * squared length is never NaN nor infinite, and it is zero exactly for the
     * zero vector, so the test is made on the vector itself.
     */
    static function Norm(v: Vec3, sqrt: SqrtFn): (r: Option<real>)
      ensures r.None? <==> v == Zero
      ensures r.Some? ==> 0.0 < r.value
      ensures r.Some? && IsSqrt(sqrt) ==> Sq(r.value) == Len2(v)
    {
      if v == Zero then None
      else
        var norm2 := Len2(v);
        Len2Positive(v);
        Some(sqrt(norm2))
    }

    /** Divides `v` by its length in place; fails, leaving `v` alone, on the zero vector. */
    static method Normalize(v: array<real>, sqrt: SqrtFn) returns (ok: bool)
      requires v.Length == 3
      modifies v
      ensures ok <==> old(AsVec(v)) != Zero
      ensures ok ==> AsVec(v) == Div(old(AsVec(v)), Norm(old(AsVec(v)), sqrt).value)
      ensures !ok ==> AsVec(v) == old(AsVec(v))
    {
      var norm := Norm(AsVec(v), sqrt);
      if norm.None? {
        return false;
      }
      v[0] := v[0] / norm.value;
      v[1] := v[1] / norm.value;
      v[2] := v[2] / norm.value;
      return true;
    }

    /** The vector whose coordinates in the frame `x`, `y`, `z` are `v`. */
    static function TransformToViewCoords(v: Vec3, x: Vec3, y: Vec3, z: Vec3): Vec3 {
      Vec3(v.x * x.x + v.y * y.x + v.z * z.x,
           v.x * x.y + v.y * y.y + v.z * z.y,
           v.x * x.z + v.y * y.z + v.z * z.z)
    }

    /**
     * Writes the reflection of `source` in `axis` into `destination`.  Each
     * entry is read before it is overwritten, so the arrays may alias.
     */
    static method ReflectInAxis(axis: array<real>, source: array<real>, destination: array<real>)
      requires axis.Length == 3 && source.Length == 3 && destination.Length == 3
      modifies destination
      ensures AsVec(destination) == Reflect(old(AsVec(axis)), old(AsVec(source)))
    {
      var s := 2.0 * Dot(AsVec(axis), AsVec(source));
      ghost var r := Reflect(AsVec(axis), AsVec(source));
      assert r == Vec3(s * axis[0] - source[0], s * axis[1] - source[1], s * axis[2] - source[2]);
      destination[0] := s * axis[0] - source[0];
      destination[1] := s * axis[1] - source[1];
      destination[2] := s * axis[2] - source[2];
    }

    static method NewVector(v: Vec3) returns (a: array<real>)
      ensures fresh(a) && a.Length == 3 && AsVec(a) == v
    {
      a := new real[3];
      a[0], a[1], a[2] := v.x, v.y, v.z;
    }

    static method Store(a: array<real>, v: Vec3)
      requires a.Length == 3
      modifies a
      ensures AsVec(a) == v
    {
      a[0], a[1], a[2] := v.x, v.y, v.z;
    }

    /**
     * Rotates the view about the view centre so that the ray `e1` is carried
     * onto the ray `e2`.  Every step that can fail comes before the first field
     * write, so a failure changes nothing; the view centre, the limits and the
     * caller's arrays are never written.
     */
    method ApplyTransvection(e1: array<real>, e2: array<real>, sqrt: SqrtFn) returns (ok: bool)
      requires e1.Length == 3 && e2.Length == 3
      modifies this
      ensures ok <==> Transvection(old(Config()), AsVec(e1), AsVec(e2), sqrt).Some?
      ensures ok ==> var v := Transvection(old(Config()), AsVec(e1), AsVec(e2), sqrt).value;
                     Config() == old(Config()).(eye := v.eye, up := v.up)
      ensures !ok ==> Config() == old(Config())
      ensures Actual() == old(Actual())
    {
      var xDirection, yDirection, zDirection, viewDistance, upLength;
      ok, xDirection, yDirection, zDirection, viewDistance, upLength := ViewFrameOf(sqrt);
      if !ok {
        TransvectionFails(Config(), AsVec(e1), AsVec(e2), sqrt);
        return;
      }
      ghost var c := Config();
      ghost var f := Frame(AsVec(xDirection), AsVec(yDirection), AsVec(zDirection), viewDistance, upLength);
      ghost var e1Old, e2Old := AsVec(e1), AsVec(e2);
      ok := RotateInFrame(xDirection, yDirection, zDirection, e1, e2, sqrt, viewDistance, upLength);
      if !ok {
        TransvectionFails(c, e1Old, e2Old, sqrt);
        return;
      }
      var g := Frame(AsVec(xDirection), AsVec(yDirection), AsVec(zDirection), viewDistance, upLength);
      TransvectionSteps(c, e1Old, e2Old, sqrt, f, g);
      SetView(Restored(center, g));
    }

    /** Writes the eye and up vectors back, as the last six assignments of `applyTransvection`. */
    method SetView(v: View)
      modifies this
      ensures Config() == old(Config()).(eye := v.eye, up := v.up)
      ensures Actual() == old(Actual())
    {
      eye, up := v.eye, v.up;
    }

    /** The frame `applyTransvection` builds before it rotates, in fresh arrays. */
    method ViewFrameOf(sqrt: SqrtFn)
      returns (ok: bool, xDirection: array?<real>, yDirection: array?<real>, zDirection: array?<real>,
               viewDistance: real, upLength: real)
      ensures ok <==> ViewFrame(Config(), sqrt).Some?
      ensures ok ==> xDirection != null && yDirection != null && zDirection != null
      ensures ok ==> fresh(xDirection) && fresh(yDirection) && fresh(zDirection)
      ensures ok ==> xDirection.Length == 3 && yDirection.Length == 3 && zDirection.Length == 3
      ensures ok ==> xDirection != yDirection && yDirection != zDirection && xDirection != zDirection
      ensures ok ==> ViewFrame(Config(), sqrt)
                     == Some(Frame(AsVec(xDirection), AsVec(yDirection), AsVec(zDirection), viewDistance, upLength))
    {
      xDirection, yDirection, zDirection, viewDistance, upLength := null, null, null, 0.0, 0.0;
      var z := NewVector(Sub(eye, center));
      var distance := Norm(AsVec(z), sqrt);
      if distance.None? {
        return false, null, null, null, 0.0, 0.0;
      }
      var _ := Normalize(z, sqrt);
      var y := NewVector(up);
      var length := Norm(AsVec(y), sqrt);
      if length.None? {
        return false, null, null, null, 0.0, 0.0;
      }
      var proj := Dot(AsVec(y), AsVec(z));
      Store(y, Sub(AsVec(y), Scale(proj, AsVec(z))));
      ok := Normalize(y, sqrt);
      if !ok {
        return;
      }
      var x := NewVector(Cross(AsVec(y), AsVec(z)));
      return true, x, y, z, distance.value, length.value;
    }

    /** Turns the frame held in `x`, `y`, `z` so that the ray `e1` goes to `e2`. */
    method RotateInFrame(x: array<real>, y: array<real>, z: array<real>,
                         e1: array<real>, e2: array<real>, sqrt: SqrtFn,
                         ghost viewDistance: real, ghost upLength: real) returns (ok: bool)
      requires x.Length == 3 && y.Length == 3 && z.Length == 3 && e1.Length == 3 && e2.Length == 3
      requires x != y && y != z && x != z
      modifies x, y, z
      ensures var f := Frame(old(AsVec(x)), old(AsVec(y)), old(AsVec(z)), viewDistance, upLength);
              var r := RotateFrame(f, old(AsVec(e1)), old(AsVec(e2)), sqrt);
              (ok <==> r.Some?) && (ok ==> r.value == Frame(AsVec(x), AsVec(y), AsVec(z), viewDistance, upLength))
    ensures !ok ==> AsVec(x) == old(AsVec(x)) && AsVec(y) == old(AsVec(y)) && AsVec(z) == old(AsVec(z))
    {
      var v1 := NewVector(TransformToViewCoords(AsVec(e1), AsVec(x), AsVec(y), AsVec(z)));
      var v2 := NewVector(TransformToViewCoords(AsVec(e2), AsVec(x), AsVec(y), AsVec(z)));
      var e := NewVector(Add(AsVec(v1), AsVec(v2)));
      ok := Normalize(e, sqrt);
      if !ok {
        return;
      }
      ghost var f := Frame(AsVec(x), AsVec(y), AsVec(z), viewDistance, upLength);
      ghost var ray, bisector := AsVec(v1), AsVec(e);
      assert RotateFrame(f, AsVec(e1), AsVec(e2), sqrt)
          == Some(Frame(Reflect(ray, Reflect(bisector, f.x)), Reflect(ray, Reflect(bisector, f.y)),
                        Reflect(ray, Reflect(bisector, f.z)), viewDistance, upLength));
      var temp := new real[3];
      ReflectTwice(e, v1, z, temp);
      ReflectTwice(e, v1, x, temp);
      ReflectTwice(e, v1, y, temp);
    }

    /** One axis of the rotation: reflect it in `e` into `temp`, then in `v1` back into place. */
    static method ReflectTwice(e: array<real>, v1: array<real>, axis: array<real>, temp: array<real>)
      requires e.Length == 3 && v1.Length == 3 && axis.Length == 3 && temp.Length == 3
      requires temp != e && temp != v1 && axis != e && axis != v1 && axis != temp
      modifies axis, temp
      ensures AsVec(axis) == Reflect(AsVec(v1), Reflect(AsVec(e), old(AsVec(axis))))
    {
      ReflectInAxis(e, axis, temp);
      ReflectInAxis(v1, temp, axis);
    }
  }

  /** `transformToViewCoords` is linear: a dot product with its result splits over the frame. */
  lemma DotViewCoords(v: Vec3, x: Vec3, y: Vec3, z: Vec3, u: Vec3)
    ensures Dot(Camera.TransformToViewCoords(v, x, y, z), u) == v.x * Dot(x, u) + v.y * Dot(y, u) + v.z * Dot(z, u)
  {
  }

  /** Coordinates in an orthonormal frame keep dot products, hence lengths. */
  lemma ViewCoordsPreserveDot(v: Vec3, w: Vec3, x: Vec3, y: Vec3, z: Vec3)
    requires Orthonormal(x, y, z)
    ensures Dot(Camera.TransformToViewCoords(v, x, y, z), Camera.TransformToViewCoords(w, x, y, z)) == Dot(v, w)
  {
    var cw := Camera.TransformToViewCoords(w, x, y, z);
    DotViewCoords(v, x, y, z, cw);
    DotViewCoords(w, x, y, z, x);
    DotViewCoords(w, x, y, z, y);
    DotViewCoords(w, x, y, z, z);
    DotSymmetric(x, cw);
    DotSymmetric(y, cw);
    DotSymmetric(z, cw);
    assert Dot(x, cw) == w.x;
    assert Dot(y, cw) == w.y;
    assert Dot(z, cw) == w.z;
  }

  /** Reflecting in a unit axis leaves the axis where it is. */
  lemma ReflectFixesAxis(a: Vec3)
    requires Unit(a)
    ensures Reflect(a, a) == a
  {
  }

  /** Reflecting twice in the same unit axis gives back the source. */
  lemma ReflectInvolution(a: Vec3, s: Vec3)
    requires Unit(a)
    ensures Reflect(a, Reflect(a, s)) == s
  {
    ReflectKeepsAxisComponent(a, s);
  }

  /** A reflection in a unit axis keeps the component along the axis. */
  lemma ReflectKeepsAxisComponent(a: Vec3, s: Vec3)
    requires Unit(a)
    ensures Dot(a, Reflect(a, s)) == Dot(a, s)
  {
    ReflectedComponent(a.x, a.y, a.z, s.x, s.y, s.z, Dot(a, s));
  }

  /** The identity behind the lemma above, over plain numbers. */
  lemma ReflectedComponent(a1: real, a2: real, a3: real, s1: real, s2: real, s3: real, p: real)
    requires a1 * a1 + a2 * a2 + a3 * a3 == 1.0 && p == a1 * s1 + a2 * s2 + a3 * s3
    ensures a1 * (2.0 * p * a1 - s1) + a2 * (2.0 * p * a2 - s2) + a3 * (2.0 * p * a3 - s3) == p
  {
  }

  /** A reflection in a unit axis is an isometry: it keeps dot products. */
  lemma ReflectPreservesDot(a: Vec3, s: Vec3, t: Vec3)
    requires Unit(a)
    ensures Dot(Reflect(a, s), Reflect(a, t)) == Dot(s, t)
  {
    var p, q := Dot(a, s), Dot(a, t);
    assert Dot(Reflect(a, s), Reflect(a, t))
        == 4.0 * p * q * Dot(a, a) - 2.0 * p * q - 2.0 * q * p + Dot(s, t);
  }

  /** A normalized nonzero vector has length one, given an exact square root. */
  lemma NormalizedIsUnit(a: Vec3, sqrt: SqrtFn)
    requires IsSqrt(sqrt) && a != Zero
    ensures Unit(Div(a, Camera.Norm(a, sqrt).value))
  {
    DivByLengthIsUnit(a, Camera.Norm(a, sqrt).value);
  }

  lemma Len2Scale(k: real, a: Vec3)
    ensures Len2(Scale(k, a)) == Sq(k) * Len2(a)
  {
  }

  /** Where the frame is defined it is orthonormal. */
  lemma ViewFrameIsOrthonormal(c: CameraConfig, sqrt: SqrtFn)
    requires IsSqrt(sqrt) && ViewFrame(c, sqrt).Some?
    ensures var f := ViewFrame(c, sqrt).value; Orthonormal(f.x, f.y, f.z)
  {
    var d := Sub(c.eye, c.center);
    var z := Div(d, Camera.Norm(d, sqrt).value);
    NormalizedIsUnit(d, sqrt);
    var yRaw := Sub(c.up, Scale(Dot(c.up, z), z));
    GramSchmidtStep(c.up, z, sqrt);
    CrossOfOrthonormal(Div(yRaw, Camera.Norm(yRaw, sqrt).value), z);
  }

  /** Normalizing what is left of `u` after removing its part along `z` gives a unit vector orthogonal to `z`. */
  lemma GramSchmidtStep(u: Vec3, z: Vec3, sqrt: SqrtFn)
    requires IsSqrt(sqrt) && Unit(z) && Sub(u, Scale(Dot(u, z), z)) != Zero
    ensures var yRaw := Sub(u, Scale(Dot(u, z), z));
            var y := Div(yRaw, Camera.Norm(yRaw, sqrt).value);
            Unit(y) && Dot(y, z) == 0.0
  {
    var yRaw := Sub(u, Scale(Dot(u, z), z));
    NormalizedIsUnit(yRaw, sqrt);
    ProjectionRemoved(u, z);
    DotDiv(z, yRaw, Camera.Norm(yRaw, sqrt).value);
  }

  /** The frame records the eye's distance and the up vector's length, and reproduces the eye. */
  lemma ViewFrameLengths(c: CameraConfig, sqrt: SqrtFn)
    requires IsSqrt(sqrt) && ViewFrame(c, sqrt).Some?
    ensures var f := ViewFrame(c, sqrt).value;
            Sq(f.viewDistance) == Len2(Sub(c.eye, c.center)) && Sq(f.upLength) == Len2(c.up)
            && Add(c.center, Scale(f.viewDistance, f.z)) == c.eye
  {
    var d := Sub(c.eye, c.center);
    var vd := Camera.Norm(d, sqrt).value;
    ScaleDiv(d, vd);
  }

  /** Subtracting the projection on a unit vector leaves a vector orthogonal to it. */
  lemma ProjectionRemoved(u: Vec3, z: Vec3)
    requires Unit(z)
    ensures Dot(z, Sub(u, Scale(Dot(u, z), z))) == 0.0
  {
    var k := Dot(u, z);
    assert Dot(z, Sub(u, Scale(k, z))) == Dot(z, u) - k * Dot(z, z);
  }

  /** Reflecting in a unit axis `e` and then in a unit axis `v` keeps dot products. */
  lemma TwoReflectionsPreserveDot(v: Vec3, e: Vec3, a: Vec3, b: Vec3)
    requires Unit(v) && Unit(e)
    ensures Dot(Reflect(v, Reflect(e, a)), Reflect(v, Reflect(e, b))) == Dot(a, b)
  {
    ReflectPreservesDot(e, a, b);
    ReflectPreservesDot(v, Reflect(e, a), Reflect(e, b));
  }

  /** The rotation keeps an orthonormal frame orthonormal, and keeps both lengths. */
  lemma RotateFrameIsOrthonormal(f: Frame, e1: Vec3, e2: Vec3, sqrt: SqrtFn)
    requires IsSqrt(sqrt) && Orthonormal(f.x, f.y, f.z) && Unit(e1)
    requires RotateFrame(f, e1, e2, sqrt).Some?
    ensures var g := RotateFrame(f, e1, e2, sqrt).value;
            Orthonormal(g.x, g.y, g.z) && g.viewDistance == f.viewDistance && g.upLength == f.upLength
  {
    var v1 := Camera.TransformToViewCoords(e1, f.x, f.y, f.z);
    var v2 := Camera.TransformToViewCoords(e2, f.x, f.y, f.z);
    ViewCoordsPreserveDot(e1, e1, f.x, f.y, f.z);
    NormalizedIsUnit(Add(v1, v2), sqrt);
    var e := Div(Add(v1, v2), Camera.Norm(Add(v1, v2), sqrt).value);
    TwoReflectionsPreserveDot(v1, e, f.x, f.x);
    TwoReflectionsPreserveDot(v1, e, f.y, f.y);
    TwoReflectionsPreserveDot(v1, e, f.z, f.z);
    TwoReflectionsPreserveDot(v1, e, f.x, f.y);
    TwoReflectionsPreserveDot(v1, e, f.y, f.z);
    TwoReflectionsPreserveDot(v1, e, f.x, f.z);
  }

  /**
   * The rotation carries the ray `e1` onto `e2`: the direction with
   * coordinates `e2` in the turned frame is the direction that had
   * coordinates `e1` in the old one.  So after a drag, what the camera saw
   * along `e1` it sees along `e2`.
   */
  lemma RotateFrameCarriesRay(f: Frame, e1: Vec3, e2: Vec3, sqrt: SqrtFn)
    requires IsSqrt(sqrt) && Orthonormal(f.x, f.y, f.z) && Unit(e1) && Unit(e2)
    requires RotateFrame(f, e1, e2, sqrt).Some?
    ensures var g := RotateFrame(f, e1, e2, sqrt).value;
            Camera.TransformToViewCoords(e2, g.x, g.y, g.z) == Camera.TransformToViewCoords(e1, f.x, f.y, f.z)
  {
    var v1 := Camera.TransformToViewCoords(e1, f.x, f.y, f.z);
    var v2 := Camera.TransformToViewCoords(e2, f.x, f.y, f.z);
    ViewCoordsPreserveDot(e1, e1, f.x, f.y, f.z);
    ViewCoordsPreserveDot(e2, e2, f.x, f.y, f.z);
    var n := Camera.Norm(Add(v1, v2), sqrt).value;
    var e := Div(Add(v1, v2), n);
    BisectorSwaps(v1, v2, n);
    ReflectViewCoords(e, e2, f.x, f.y, f.z);
    ReflectViewCoords(v1, e2, Reflect(e, f.x), Reflect(e, f.y), Reflect(e, f.z));
  }

  /** Reflection commutes with building a vector from its frame coordinates. */
  lemma ReflectViewCoords(a: Vec3, c: Vec3, x: Vec3, y: Vec3, z: Vec3)
    ensures Reflect(a, Camera.TransformToViewCoords(c, x, y, z))
         == Camera.TransformToViewCoords(c, Reflect(a, x), Reflect(a, y), Reflect(a, z))
  {
    var t := Camera.TransformToViewCoords(c, x, y, z);
    var kx, ky, kz := 2.0 * Dot(a, x), 2.0 * Dot(a, y), 2.0 * Dot(a, z);
    ReflectFactorLinear(a, c, x, y, z);
    ScaleByEqual(2.0 * Dot(a, t), c.x * kx + c.y * ky + c.z * kz, a);
    ViewCoordsLinear(c, a, x, y, z, kx, ky, kz);
  }

  /** The reflection factor `2 (a . v)` is linear in the frame coordinates of `v`. */
  lemma ReflectFactorLinear(a: Vec3, c: Vec3, x: Vec3, y: Vec3, z: Vec3)
    ensures 2.0 * Dot(a, Camera.TransformToViewCoords(c, x, y, z))
         == c.x * (2.0 * Dot(a, x)) + c.y * (2.0 * Dot(a, y)) + c.z * (2.0 * Dot(a, z))
  {
    var t := Camera.TransformToViewCoords(c, x, y, z);
    DotViewCoords(c, x, y, z, a);
    DotSymmetric(a, t);
    DotSymmetric(a, x);
    DotSymmetric(a, y);
    DotSymmetric(a, z);
  }

  /**
   * The vector with frame coordinates `c` in the frame `kx a - x`,
   * `ky a - y`, `kz a - z` (the shape of three reflections in `a`) is a
   * multiple of `a` minus the vector with those coordinates in `x`, `y`, `z`.
   */
  lemma ViewCoordsLinear(c: Vec3, a: Vec3, x: Vec3, y: Vec3, z: Vec3, kx: real, ky: real, kz: real)
    ensures Camera.TransformToViewCoords(c, Sub(Scale(kx, a), x), Sub(Scale(ky, a), y), Sub(Scale(kz, a), z))
         == Sub(Scale(c.x * kx + c.y * ky + c.z * kz, a), Camera.TransformToViewCoords(c, x, y, z))
  {
  }

  lemma ScaleByEqual(k: real, m: real, a: Vec3)
    requires k == m
    ensures Scale(k, a) == Scale(m, a)
  {
  }

  /**
   * The rotation lifted to the camera: a drag turns the view frame so that
   * the ray `e1` is carried onto `e2`, and puts the eye back at its distance
   * along the turned line of sight and up at its length along the turned `y`.
   */
  lemma TransvectionCarriesRay(c: CameraConfig, e1: Vec3, e2: Vec3, sqrt: SqrtFn)
    requires IsSqrt(sqrt) && Unit(e1) && Unit(e2)
    requires Transvection(c, e1, e2, sqrt).Some?
    ensures ViewFrame(c, sqrt).Some? && RotateFrame(ViewFrame(c, sqrt).value, e1, e2, sqrt).Some?
    ensures var f := ViewFrame(c, sqrt).value;
            var g := RotateFrame(f, e1, e2, sqrt).value;
            var v := Transvection(c, e1, e2, sqrt).value;
            Camera.TransformToViewCoords(e2, g.x, g.y, g.z) == Camera.TransformToViewCoords(e1, f.x, f.y, f.z)
            && v.eye == Add(c.center, Scale(f.viewDistance, g.z)) && v.up == Scale(f.upLength, g.y)
  {
    ViewFrameIsOrthonormal(c, sqrt);
    var f := ViewFrame(c, sqrt).value;
    RotateFrameCarriesRay(f, e1, e2, sqrt);
  }

  /**
   * A drag moves the eye over the sphere about the view centre and keeps the
   * length of the up vector: both are rebuilt from the lengths measured first.
   */
  lemma TransvectionKeepsDistances(c: CameraConfig, e1: Vec3, e2: Vec3, sqrt: SqrtFn)
    requires IsSqrt(sqrt) && Unit(e1)
    requires Transvection(c, e1, e2, sqrt).Some?
    ensures var v := Transvection(c, e1, e2, sqrt).value;
            Len2(Sub(v.eye, c.center)) == Len2(Sub(c.eye, c.center)) && Len2(v.up) == Len2(c.up)
  {
    var f := ViewFrame(c, sqrt).value;
    ViewFrameIsOrthonormal(c, sqrt);
    ViewFrameLengths(c, sqrt);
    RotateFrameIsOrthonormal(f, e1, e2, sqrt);
    var g := RotateFrame(f, e1, e2, sqrt).value;
    assert Sub(Add(c.center, Scale(g.viewDistance, g.z)), c.center) == Scale(g.viewDistance, g.z);
    Len2Scale(g.viewDistance, g.z);
    Len2Scale(g.upLength, g.y);
  }

  /**
   * Reflecting in the normalized bisector of two unit vectors swaps them,
   * and the second reflection then fixes the first: the double reflection
   * `applyTransvection` applies takes `b` to `a`.  `RotateFrameCarriesRay`
   * says what this means for the frame.
   */
  lemma BisectorReflectionSwaps(a: Vec3, b: Vec3, sqrt: SqrtFn)
    requires IsSqrt(sqrt) && Unit(a) && Unit(b) && Add(a, b) != Zero
    ensures var e := Div(Add(a, b), Camera.Norm(Add(a, b), sqrt).value);
            Reflect(e, b) == a && Reflect(a, Reflect(e, b)) == a
  {
    BisectorSwaps(a, b, Camera.Norm(Add(a, b), sqrt).value);
  }

  /** The lemma above for any exact length `n` of the sum. */
  lemma BisectorSwaps(a: Vec3, b: Vec3, n: real)
    requires Unit(a) && Unit(b) && n != 0.0 && Sq(n) == Len2(Add(a, b))
    ensures var e := Div(Add(a, b), n);
            Reflect(e, b) == a && Reflect(a, Reflect(e, b)) == a
  {
    var s := Dot(a, b) + 1.0;
    UnitSum(a.x, a.y, a.z, b.x, b.y, b.z);
    var e := Div(Add(a, b), n);
    DotDiv(b, Add(a, b), n);
    assert Dot(b, Add(a, b)) == s;
    assert Dot(e, b) == s / n;
    BisectorScale(Add(a, b), n, s);
    assert Scale(2.0 * Dot(e, b), e) == Add(a, b);
    assert Reflect(e, b) == Sub(Add(a, b), b);
    ReflectFixesAxis(a);
  }

  /** The sum of two unit vectors, over plain numbers. */
  lemma UnitSum(a1: real, a2: real, a3: real, b1: real, b2: real, b3: real)
    requires a1 * a1 + a2 * a2 + a3 * a3 == 1.0 && b1 * b1 + b2 * b2 + b3 * b3 == 1.0
    ensures (a1 + b1) * (a1 + b1) + (a2 + b2) * (a2 + b2) + (a3 + b3) * (a3 + b3)
         == 2.0 * (a1 * b1 + a2 * b2 + a3 * b3 + 1.0)
    ensures b1 * (a1 + b1) + b2 * (a2 + b2) + b3 * (a3 + b3) == a1 * b1 + a2 * b2 + a3 * b3 + 1.0
  {
  }

  lemma BisectorScale(w: Vec3, n: real, s: real)
    requires n != 0.0 && Sq(n) == 2.0 * s
    ensures Scale(2.0 * (s / n), Div(w, n)) == w
  {
    assert s == Mul(n, n) / 2.0;
    assert 2.0 * (s / n) == n;
    ScaleDiv(w, n);
  }

  /** Reflection in a unit axis does not depend on the axis's sign. */
  lemma ReflectScaledAxis(k: real, a: Vec3, w: Vec3)
    requires Unit(a) && Unit(Scale(k, a))
    ensures Reflect(Scale(k, a), w) == Reflect(a, w)
  {
    Len2Scale(k, a);
    assert Sq(k) == 1.0;
    var p := Dot(a, w);
    assert Dot(Scale(k, a), w) == k * p;
    assert Scale(2.0 * (k * p), Scale(k, a)) == Scale(2.0 * Sq(k) * p, a);
  }

  /** A drag that ends on the ray it started from turns the frame by nothing. */
  lemma RotateFrameSameRay(f: Frame, e1: Vec3, sqrt: SqrtFn)
    requires IsSqrt(sqrt) && Orthonormal(f.x, f.y, f.z) && Unit(e1)
    ensures RotateFrame(f, e1, e1, sqrt) == Some(f)
  {
    var v1 := Camera.TransformToViewCoords(e1, f.x, f.y, f.z);
    ViewCoordsPreserveDot(e1, e1, f.x, f.y, f.z);
    DoubledRayNonzero(v1);
    var n := Camera.Norm(Add(v1, v1), sqrt).value;
    NormalizedIsUnit(Add(v1, v1), sqrt);
    DoubledRayBisector(v1, n);
    var k := 2.0 / n;
    ReflectScaledAxis(k, v1, f.x);
    ReflectScaledAxis(k, v1, f.y);
    ReflectScaledAxis(k, v1, f.z);
    ReflectInvolution(v1, f.x);
    ReflectInvolution(v1, f.y);
    ReflectInvolution(v1, f.z);
  }

  /** A unit vector added to itself is not the zero vector. */
  lemma DoubledRayNonzero(v: Vec3)
    requires Unit(v)
    ensures Add(v, v) != Zero
  {
    Len2Positive(v);
    assert Add(v, v) == Scale(2.0, v);
    ScaleZero(2.0, v);
  }

  /** A unit vector added to itself and divided by a length is a multiple of it. */
  lemma DoubledRayBisector(v: Vec3, n: real)
    requires n != 0.0
    ensures Div(Add(v, v), n) == Scale(2.0 / n, v)
  {
  }

  /** A drag that ends where it started leaves the eye where it was. */
  lemma TransvectionSameRayKeepsEye(c: CameraConfig, e1: Vec3, sqrt: SqrtFn)
    requires IsSqrt(sqrt) && Unit(e1) && Transvection(c, e1, e1, sqrt).Some?
    ensures Transvection(c, e1, e1, sqrt).value.eye == c.eye
  {
    ViewFrameIsOrthonormal(c, sqrt);
    ViewFrameLengths(c, sqrt);
    RotateFrameSameRay(ViewFrame(c, sqrt).value, e1, sqrt);
  }

  /**
   * After a drag that ends where it started, the up vector comes back
   * unchanged when it was orthogonal to the line of sight.  (Otherwise it is
   * replaced by its orthogonal part, rescaled to the old length.)
   */
  lemma TransvectionSameRayKeepsUp(c: CameraConfig, e1: Vec3, sqrt: SqrtFn)
    requires IsSqrt(sqrt) && Unit(e1) && Transvection(c, e1, e1, sqrt).Some?
    requires Dot(c.up, Sub(c.eye, c.center)) == 0.0
    ensures Transvection(c, e1, e1, sqrt).value.up == c.up
  {
    var f := ViewFrame(c, sqrt).value;
    ViewFrameIsOrthonormal(c, sqrt);
    RotateFrameSameRay(f, e1, sqrt);
    UpOrthogonalToSight(c.up, Sub(c.eye, c.center), f.viewDistance);
    ScaleDiv(c.up, Camera.Norm(c.up, sqrt).value);
  }

  /** An up vector orthogonal to the line of sight survives the Gram-Schmidt step unchanged. */
  lemma UpOrthogonalToSight(up: Vec3, d: Vec3, vd: real)
    requires vd != 0.0 && Dot(up, d) == 0.0
    ensures var z := Div(d, vd); Sub(up, Scale(Dot(up, z), z)) == up
  {
    DotDiv(up, d, vd);
    assert Scale(0.0, Div(d, vd)) == Zero;
  }

  /**
   * The frame exists exactly when the eye is away from the view centre and
   * the up vector is not a multiple of the line of sight (the zero vector
   * is one).
   */
  lemma ViewFrameDefinedIff(c: CameraConfig, sqrt: SqrtFn)
    requires IsSqrt(sqrt)
    ensures ViewFrame(c, sqrt).Some?
        <==> c.eye != c.center && forall k: real :: c.up != Scale(k, Sub(c.eye, c.center))
  {
    var d := Sub(c.eye, c.center);
    if d != Zero {
      var vd := Camera.Norm(d, sqrt).value;
      NormalizedIsUnit(d, sqrt);
      ViewFrameCases(c, sqrt);
      if c.up == Zero {
        assert c.up == Scale(0.0, d);
      } else if ViewFrame(c, sqrt).None? {
        CollapsedUpIsMultiple(c.up, d, vd);
      } else {
        forall k: real ensures c.up != Scale(k, d) {
          if c.up == Scale(k, d) {
            MultipleUpCollapses(c.up, d, vd, k);
            assert false;
          }
        }
      }
    }
  }

  /** When the sight line is defined, the frame fails exactly at the zero up vector or the Gram-Schmidt step. */
  lemma ViewFrameCases(c: CameraConfig, sqrt: SqrtFn)
    requires c.eye != c.center
    ensures var d := Sub(c.eye, c.center);
            var z := Div(d, Camera.Norm(d, sqrt).value);
            ViewFrame(c, sqrt).Some? <==> c.up != Zero && Sub(c.up, Scale(Dot(c.up, z), z)) != Zero
  {
  }

  /** An up vector with nothing left after the Gram-Schmidt step is a multiple of the sight line. */
  lemma CollapsedUpIsMultiple(up: Vec3, d: Vec3, vd: real)
    requires vd != 0.0
    requires var z := Div(d, vd); Sub(up, Scale(Dot(up, z), z)) == Zero
    ensures up == Scale(Dot(up, Div(d, vd)) / vd, d)
  {
    var z := Div(d, vd);
    ScaleDiv(d, vd);
    ScaleScale(Dot(up, z) / vd, vd, z);
    assert up == Scale(Dot(up, z), z);
  }

  /** A multiple of the sight line has nothing left after the Gram-Schmidt step. */
  lemma MultipleUpCollapses(up: Vec3, d: Vec3, vd: real, k: real)
    requires vd != 0.0 && Unit(Div(d, vd)) && up == Scale(k, d)
    ensures var z := Div(d, vd); Sub(up, Scale(Dot(up, z), z)) == Zero
  {
    var z := Div(d, vd);
    ScaleDiv(d, vd);
    ScaleScale(k, vd, z);
    ParallelUpCollapses(up, z, k * vd);
  }

  /** A multiple of a unit `z` loses everything when its part along `z` is removed. */
  lemma ParallelUpCollapses(up: Vec3, z: Vec3, m: real)
    requires Unit(z) && up == Scale(m, z)
    ensures Sub(up, Scale(Dot(up, z), z)) == Zero
  {
    DotScale(z, m, z);
    assert Dot(up, z) == m;
  }
}

=== FILE: frames.dfy ===
/**
 * One frame: `display` clears the window to the scene's background colour,
 * loads the identity into the modelview matrix, draws the scene and, when
 * the draw returns, advances the frame counter of an animated scene and
 * flushes.  A camera that fails stops the frame before the counter and the
 * flush.
 */
module Frames {
  import opened Vectors
  import opened Cameras
  import opened Rendering
  import opened Traversal
  import opened Nodes

  /** The context `display` hands to the scene: cleared, in modelview mode, identity on top. */
  function FrameStart(c: Context, bg: seq<real>): Context {
    var d := Log(c, Cleared(bg));
    d.(gl := d.gl.(mode := ModelView, modelview := LoadTop(d.gl.modelview)))
  }

  /** `display` on the render context, the scene being the tree `t`. */
  function DisplayStep(c: Context, bg: seq<real>, t: Tree<Node>, sqrt: SqrtFn, loaded: string -> bool,
                       cfg: Camera -> CameraConfig): Outcome
    requires Defined(t, c.gl.viewport, cfg)
  {
    var o := Run(t, FrameStart(c, bg), sqrt, loaded, cfg);
    if o.ok then Outcome(FinishStep(o.ctx), true) else o
  }

  /**
   * `display`.  The renderer is given the scene it draws; the scene's root
   * is `t.node`.
   */
  method Display(r: Renderer, scene: Scene, ghost t: Tree<Node>, sqrt: SqrtFn, loaded: string -> bool,
                 ghost cfg: Camera -> CameraConfig)
    returns (ok: bool)
    requires scene.bgColors.Length == 4
    requires t.node == scene.rootNode && Models(t) && Agree(t, cfg)
    requires Defined(t, r.gl.viewport, cfg)
    modifies r, CamerasOf(t)
    ensures Outcome(r.Ctx(), ok) == DisplayStep(old(r.Ctx()), old(scene.bgColors[..]), t, sqrt, loaded, cfg)
    ensures Agree(t, cfg)
    ensures r.camera == Latest(Applied(t, FrameStart(old(r.Ctx()), old(scene.bgColors[..])), sqrt, loaded, cfg), old(r.camera))
    ensures Actuals(t) == LimitsAfter(old(Actuals(t)), Applied(t, FrameStart(old(r.Ctx()), old(scene.bgColors[..])), sqrt, loaded, cfg),
                                      old(r.gl.viewport), cfg)
  {
    Allocated(t);
    ghost var bg := scene.bgColors[..];
    assert scene.bgColors[..4] == bg;
    r.ClearDisplay(scene.bgColors);
    r.BeginFrame();
    CamerasKept(t);
    ok := scene.Draw(r, t, sqrt, loaded, cfg);
    if ok {
      label Drawn:
      r.FinishFrame();
      CamerasKept@Drawn(t);
    }
  }

  /**
   * A frame whose scene is drawn to the end: the log gains the clear, a
   * balanced stretch and the flush; the modelview stack keeps its depth and
   * everything below the top, which is the identity; and the frame counter
   * moves on (wrapping at 32 bits) exactly when some animated transform has
   * asked for it.
   */
  lemma FrameIsBracketed(c: Context, bg: seq<real>, t: Tree<Node>, sqrt: SqrtFn, loaded: string -> bool,
                         cfg: Camera -> CameraConfig)
    requires t.leaf.Group? && Defined(t, c.gl.viewport, cfg)
    requires DisplayStep(c, bg, t, sqrt, loaded, cfg).ok
    ensures var d := DisplayStep(c, bg, t, sqrt, loaded, cfg).ctx;
            var n := |c.gl.log|;
            n + 2 <= |d.gl.log| &&
            d.gl.log[..n + 1] == c.gl.log + [Cleared(bg)] &&
            d.gl.log[|d.gl.log| - 1] == Flushed &&
            Balanced(d.gl.log[n + 1..|d.gl.log| - 1]) &&
            d.gl.mode == ModelView && d.gl.modelview == LoadTop(c.gl.modelview) &&
            d.frameNumber == (if d.animationRequired then Inc32(c.frameNumber) else c.frameNumber)
  {
    var s := FrameStart(c, bg);
    var o := Run(t, s, sqrt, loaded, cfg);
    GroupDisciplined(t, s, sqrt, loaded, cfg);
    FinishedFrame(c, bg, s, o.ctx);
  }

  /** The log and the stacks of a frame whose scene, drawn from `s`, ended in `e`. */
  lemma FinishedFrame(c: Context, bg: seq<real>, s: Context, e: Context)
    requires s == FrameStart(c, bg) && Progress(s, e)
    requires Disciplined(s, Outcome(e, true)) && e.gl.modelview == s.gl.modelview
    ensures var d := FinishStep(e);
            var n := |c.gl.log|;
            n + 2 <= |d.gl.log| &&
            d.gl.log[..n + 1] == c.gl.log + [Cleared(bg)] &&
            d.gl.log[|d.gl.log| - 1] == Flushed &&
            Balanced(d.gl.log[n + 1..|d.gl.log| - 1]) &&
            d.gl.mode == ModelView && d.gl.modelview == LoadTop(c.gl.modelview) &&
            d.frameNumber == (if d.animationRequired then Inc32(c.frameNumber) else c.frameNumber)
  {
    var d := FinishStep(e);
    var n := |c.gl.log|;
    assert s.gl.log == c.gl.log + [Cleared(bg)];
    assert e.gl.log == s.gl.log + Segment(s, e);
    assert d.gl.log == e.gl.log + [Flushed];
    assert d.gl.log[n + 1..|d.gl.log| - 1] == Segment(s, e);
  }

  /**
   * A frame whose camera fails: no flush and no new frame number, and the
   * modelview stack is left deeper than it was, since the restores of the
   * plain nodes around the camera are skipped.
   */
  lemma FailedFrameLeaks(c: Context, bg: seq<real>, t: Tree<Node>, sqrt: SqrtFn, loaded: string -> bool,
                         cfg: Camera -> CameraConfig)
    requires t.leaf.Group? && Defined(t, c.gl.viewport, cfg)
    requires !DisplayStep(c, bg, t, sqrt, loaded, cfg).ok
    ensures var d := DisplayStep(c, bg, t, sqrt, loaded, cfg).ctx;
            d.frameNumber == c.frameNumber &&
            (d.gl.log == [] || d.gl.log[|d.gl.log| - 1] != Flushed) &&
            |d.gl.modelview| > |c.gl.modelview|
  {
    var s := FrameStart(c, bg);
    var o := Run(t, s, sqrt, loaded, cfg);
    GroupDisciplined(t, s, sqrt, loaded, cfg);
    RunQuiet(t, s, sqrt, loaded, cfg);
    assert o.ctx.gl.log == c.gl.log + [Cleared(bg)] + Segment(s, o.ctx);
    if Segment(s, o.ctx) != [] {
      assert o.ctx.gl.log[|o.ctx.gl.log| - 1] in Segment(s, o.ctx);
    }
  }
}

=== FILE: matrices.dfy ===
/**
 * The 4x4 matrix helper: a matrix object over a 4x4 array, identity,
 * product, matrix-vector product, the batch vertex transform, the three
 * shear factories and the row-major export.
 */
module Matrices {

  /** A homogeneous point (the helper's inner class, with its four public fields). */
  datatype Vector4 = Vector4(x: real, y: real, z: real, w: real)

  predicate Is4x4(a: array2<real>) {
    a.Length0 == 4 && a.Length1 == 4
  }

  /** The entry of the identity matrix at (i, j). */
  function IdentityEntry(i: int, j: int): real {
    if i == j then 1.0 else 0.0
  }

  predicate IsIdentity(a: array2<real>)
    requires Is4x4(a)
    reads a
  {
    forall i, j | 0 <= i < 4 && 0 <= j < 4 :: a[i, j] == IdentityEntry(i, j)
  }

  /** The sum over the first `n` terms of row `i` of `a` times column `j` of `b`. */
  function RowCol(a: array2<real>, b: array2<real>, i: nat, j: nat, n: nat): real
    requires Is4x4(a) && Is4x4(b) && i < 4 && j < 4 && n <= 4
    reads a, b
  {
    if n == 0 then 0.0 else RowCol(a, b, i, j, n - 1) + Term(a, b, i, n - 1, j)
  }

  /** One term of that sum. */
  function Term(a: array2<real>, b: array2<real>, i: nat, k: nat, j: nat): real
    requires Is4x4(a) && Is4x4(b) && i < 4 && k < 4 && j < 4
    reads a, b
  {
    a[i, k] * b[k, j]
  }

  /** `RowCol` over all four terms, written out. */
  lemma RowColFour(a: array2<real>, b: array2<real>, i: nat, j: nat)
    requires Is4x4(a) && Is4x4(b) && i < 4 && j < 4
    ensures RowCol(a, b, i, j, 4) == 0.0 + Term(a, b, i, 0, j) + Term(a, b, i, 1, j) + Term(a, b, i, 2, j) + Term(a, b, i, 3, j)
  {
    assert RowCol(a, b, i, j, 1) == 0.0 + Term(a, b, i, 0, j);
    assert RowCol(a, b, i, j, 2) == RowCol(a, b, i, j, 1) + Term(a, b, i, 1, j);
    assert RowCol(a, b, i, j, 3) == RowCol(a, b, i, j, 2) + Term(a, b, i, 2, j);
  }

  /** Row `i` of `a` dotted with `v`. */
  function RowDot(a: array2<real>, i: nat, v: Vector4): real
    requires Is4x4(a) && i < 4
    reads a
  {
    a[i, 0] * v.x + a[i, 1] * v.y + a[i, 2] * v.z + a[i, 3] * v.w
  }

  /** The matrix applied to a homogeneous point. */
  function Apply(a: array2<real>, v: Vector4): Vector4
    requires Is4x4(a)
    reads a
  {
    Vector4(RowDot(a, 0, v), RowDot(a, 1, v), RowDot(a, 2, v), RowDot(a, 3, v))
  }

  /** A vertex row as a homogeneous point with w = 1; components past the third are ignored. */
  function Lift(v: array<real>): Vector4
    requires 3 <= v.Length
    reads v
  {
    Vector4(v[0], v[1], v[2], 1.0)
  }

  /**
   * The identity except for two entries, (r1, c1) holding k1 and (r2, c2)
   * holding k2: the shape the shear factories build.
   */
  predicate IsShear(a: array2<real>, r1: int, c1: int, k1: real, r2: int, c2: int, k2: real)
    requires Is4x4(a)
    reads a
  {
    forall i, j | 0 <= i < 4 && 0 <= j < 4 ::
      a[i, j] == (if i == r1 && j == c1 then k1 else if i == r2 && j == c2 then k2 else IdentityEntry(i, j))
  }

  class MatrixOperations {
    var matrix: array2<real>

    predicate Valid()
      reads this
    {
      Is4x4(matrix)
    }

    /** A new 4x4 matrix of zeros. */
    constructor ()
      ensures Valid() && fresh(matrix)
      ensures forall i, j | 0 <= i < 4 && 0 <= j < 4 :: matrix[i, j] == 0.0
    {
      matrix := new real[4, 4]((i, j) => 0.0);
    }

    /** Overwrites every entry: ones on the diagonal, zeros elsewhere. */
    method SetIdentity()
      requires Valid()
      modifies matrix
      ensures IsIdentity(matrix)
    {
      for i := 0 to 4
        invariant forall r, c | 0 <= r < i && 0 <= c < 4 :: matrix[r, c] == IdentityEntry(r, c)
      {
        for j := 0 to 4
          invariant forall r, c | 0 <= r < i && 0 <= c < 4 :: matrix[r, c] == IdentityEntry(r, c)
          invariant forall c | 0 <= c < j :: matrix[i, c] == IdentityEntry(i, c)
        {
          matrix[i, j] := if i == j then 1.0 else 0.0;
        }
      }
    }

    /** A fresh matrix holding this times `other`; neither operand changes. */
    method Multiply(other: MatrixOperations) returns (result: MatrixOperations)
      requires Valid() && other.Valid()
      ensures fresh(result) && fresh(result.matrix) && result.Valid()
      ensures forall i, j | 0 <= i < 4 && 0 <= j < 4 ::
                result.matrix[i, j] == RowCol(matrix, other.matrix, i, j, 4)
    {
      result := new MatrixOperations();
      var a, b, m := matrix, other.matrix, result.matrix;
      for i := 0 to 4
        modifies m
        invariant forall r, c | 0 <= r < 4 && 0 <= c < 4 ::
                    m[r, c] == if r < i then RowCol(a, b, r, c, 4) else 0.0
      {
        for j := 0 to 4
          modifies m
          invariant forall r, c | 0 <= r < 4 && 0 <= c < 4 ::
                      m[r, c] == if r < i || (r == i && c < j) then RowCol(a, b, r, c, 4) else 0.0
        {
          AccumulateEntry(m, a, b, i, j);
        }
      }
    }

    /** The innermost loop: entry (i, j) of `m` accumulates row i of `a` times column j of `b`. */
    static method AccumulateEntry(m: array2<real>, a: array2<real>, b: array2<real>, i: nat, j: nat)
      requires Is4x4(m) && Is4x4(a) && Is4x4(b) && i < 4 && j < 4
      requires m != a && m != b && m[i, j] == 0.0
      modifies m
      ensures m[i, j] == RowCol(a, b, i, j, 4)
      ensures forall r, c | 0 <= r < 4 && 0 <= c < 4 && (r != i || c != j) :: m[r, c] == old(m[r, c])
    {
      for k := 0 to 4
        invariant m[i, j] == RowCol(a, b, i, j, k)
        invariant forall r, c | 0 <= r < 4 && 0 <= c < 4 && (r != i || c != j) :: m[r, c] == old(m[r, c])
      {
        m[i, j] := m[i, j] + a[i, k] * b[k, j];
        assert Term(a, b, i, k, j) == a[i, k] * b[k, j];
      }
    }

    /** Each component of the result is the matching row dotted with `v`. */
    method MultiplyVector(v: Vector4) returns (r: Vector4)
      requires Valid()
      ensures r == Apply(matrix, v)
    {
      var result := new real[4];
      for i := 0 to 4
        invariant forall c | 0 <= c < i :: result[c] == RowDot(matrix, c, v)
      {
        result[i] := matrix[i, 0] * v.x + matrix[i, 1] * v.y + matrix[i, 2] * v.z + matrix[i, 3] * v.w;
      }
      r := Vector4(result[0], result[1], result[2], result[3]);
    }

    /**
     * Transforms a batch of vertices: each row, read as (v0, v1, v2, 1), is
     * multiplied by the matrix and the first three components are kept,
     * without dividing by w.
     */
    method MultiplyVertices(vertices: array<array<real>>) returns (out: array2<real>)
      requires Valid()
      requires forall i | 0 <= i < vertices.Length :: 3 <= vertices[i].Length
      ensures fresh(out) && out.Length0 == vertices.Length && out.Length1 == 3
      ensures forall i | 0 <= i < vertices.Length ::
                out[i, 0] == Apply(matrix, Lift(vertices[i])).x &&
                out[i, 1] == Apply(matrix, Lift(vertices[i])).y &&
                out[i, 2] == Apply(matrix, Lift(vertices[i])).z
    {
      var points := LiftAll(vertices);
      TransformAll(points, vertices);
      out := FirstThree(points);
    }

    /** First pass: every vertex row as the point (v0, v1, v2, 1). */
    static method LiftAll(vertices: array<array<real>>) returns (points: array<Vector4>)
      requires forall i | 0 <= i < vertices.Length :: 3 <= vertices[i].Length
      ensures fresh(points) && points.Length == vertices.Length
      ensures forall i | 0 <= i < vertices.Length :: points[i] == Lift(vertices[i])
    {
      points := new Vector4[vertices.Length];
      for i := 0 to vertices.Length
        modifies points
        invariant forall r | 0 <= r < i :: points[r] == Lift(vertices[r])
      {
        var v := vertices[i];
        points[i] := Vector4(v[0], v[1], v[2], 1.0);
      }
    }

    /** Second pass: every point replaced by its product with the matrix. */
    method TransformAll(points: array<Vector4>, ghost vertices: array<array<real>>)
      requires Valid() && points.Length == vertices.Length
      requires forall i | 0 <= i < vertices.Length :: 3 <= vertices[i].Length
      requires forall i | 0 <= i < points.Length :: points[i] == Lift(vertices[i])
      modifies points
      ensures forall i | 0 <= i < points.Length :: points[i] == Apply(matrix, Lift(vertices[i]))
    {
      for i := 0 to points.Length
        invariant forall r | 0 <= r < points.Length ::
                    points[r] == if r < i then Apply(matrix, Lift(vertices[r])) else Lift(vertices[r])
      {
        points[i] := MultiplyVector(points[i]);
      }
    }

    /** Third pass: the first three components of every point, one row each. */
    static method FirstThree(points: array<Vector4>) returns (out: array2<real>)
      ensures fresh(out) && out.Length0 == points.Length && out.Length1 == 3
      ensures forall i | 0 <= i < points.Length ::
                out[i, 0] == points[i].x && out[i, 1] == points[i].y && out[i, 2] == points[i].z
    {
      out := new real[points.Length, 3];
      for i := 0 to points.Length
        modifies out
        invariant forall r | 0 <= r < i ::
                    out[r, 0] == points[r].x && out[r, 1] == points[r].y && out[r, 2] == points[r].z
      {
        var v := points[i];
        out[i, 0] := v.x;
        out[i, 1] := v.y;
        out[i, 2] := v.z;
      }
    }

    /** The identity with x feeding y and z: y' = y + shearY x, z' = z + shearZ x. */
    static method CreateShearX(shearY: real, shearZ: real) returns (s: MatrixOperations)
      ensures fresh(s) && s.Valid()
      ensures IsShear(s.matrix, 1, 0, shearY, 2, 0, shearZ)
    {
      s := new MatrixOperations();
      s.SetIdentity();
      s.matrix[1, 0] := shearY;
      s.matrix[2, 0] := shearZ;
    }

    /** The identity with y feeding x and z. */
    static method CreateShearY(shearX: real, shearZ: real) returns (s: MatrixOperations)
      ensures fresh(s) && s.Valid()
      ensures IsShear(s.matrix, 0, 1, shearX, 2, 1, shearZ)
    {
      s := new MatrixOperations();
      s.SetIdentity();
      s.matrix[0, 1] := shearX;
      s.matrix[2, 1] := shearZ;
    }

    /** The identity with z feeding x and y. */
    static method CreateShearZ(shearX: real, shearY: real) returns (s: MatrixOperations)
      ensures fresh(s) && s.Valid()
      ensures IsShear(s.matrix, 0, 2, shearX, 1, 2, shearY)
    {
      s := new MatrixOperations();
      s.SetIdentity();
      s.matrix[0, 2] := shearX;
      s.matrix[1, 2] := shearY;
    }

    /** The sixteen entries in row-major order. */
    method ToFloatArray() returns (r: array<real>)
      requires Valid()
      ensures fresh(r) && r.Length == 16
      ensures forall i, j | 0 <= i < 4 && 0 <= j < 4 :: r[4 * i + j] == matrix[i, j]
      ensures forall k | 0 <= k < 16 :: r[k] == matrix[k / 4, k % 4]
    {
      r := new real[16];
      for i := 0 to 4
        invariant forall p, j | 0 <= p < i && 0 <= j < 4 :: r[4 * p + j] == matrix[p, j]
      {
        for j := 0 to 4
          invariant forall p, c | 0 <= p < i && 0 <= c < 4 :: r[4 * p + c] == matrix[p, c]
          invariant forall c | 0 <= c < j :: r[4 * i + c] == matrix[i, c]
        {
          r[4 * i + j] := matrix[i, j];
        }
      }
      forall k | 0 <= k < 16
        ensures r[k] == matrix[k / 4, k % 4]
      {
        assert k == 4 * (k / 4) + k % 4;
      }
    }
  }

  /** The identity is a unit of the product on both sides. */
  lemma IdentityIsUnit(id: array2<real>, a: array2<real>)
    requires Is4x4(id) && Is4x4(a) && IsIdentity(id)
    ensures forall i, j | 0 <= i < 4 && 0 <= j < 4 :: RowCol(id, a, i, j, 4) == a[i, j]
    ensures forall i, j | 0 <= i < 4 && 0 <= j < 4 :: RowCol(a, id, i, j, 4) == a[i, j]
  {
    forall i, j | 0 <= i < 4 && 0 <= j < 4
      ensures RowCol(id, a, i, j, 4) == a[i, j] && RowCol(a, id, i, j, 4) == a[i, j]
    {
      RowColFour(id, a, i, j);
      RowColFour(a, id, i, j);
    }
  }

  /** The identity leaves every point where it is. */
  lemma IdentityFixesPoints(id: array2<real>, v: Vector4)
    requires Is4x4(id) && IsIdentity(id)
    ensures Apply(id, v) == v
  {
    assert id[0, 0] == 1.0 && id[0, 1] == 0.0 && id[0, 2] == 0.0 && id[0, 3] == 0.0;
    assert id[1, 0] == 0.0 && id[1, 1] == 1.0 && id[1, 2] == 0.0 && id[1, 3] == 0.0;
    assert id[2, 0] == 0.0 && id[2, 1] == 0.0 && id[2, 2] == 1.0 && id[2, 3] == 0.0;
    assert id[3, 0] == 0.0 && id[3, 1] == 0.0 && id[3, 2] == 0.0 && id[3, 3] == 1.0;
  }

  /** Shearing along x keeps a point's x (and w) and moves y and z in proportion to x. */
  lemma ShearXKeepsX(s: array2<real>, shearY: real, shearZ: real, v: Vector4)
    requires Is4x4(s) && IsShear(s, 1, 0, shearY, 2, 0, shearZ)
    ensures Apply(s, v) == Vector4(v.x, v.y + shearY * v.x, v.z + shearZ * v.x, v.w)
  {
    assert s[0, 0] == 1.0 && s[0, 1] == 0.0 && s[0, 2] == 0.0 && s[0, 3] == 0.0;
    assert s[1, 0] == shearY && s[1, 1] == 1.0 && s[1, 2] == 0.0 && s[1, 3] == 0.0;
    assert s[2, 0] == shearZ && s[2, 1] == 0.0 && s[2, 2] == 1.0 && s[2, 3] == 0.0;
    assert s[3, 0] == 0.0 && s[3, 1] == 0.0 && s[3, 2] == 0.0 && s[3, 3] == 1.0;
  }

  /** Shearing along y keeps a point's y. */
  lemma ShearYKeepsY(s: array2<real>, shearX: real, shearZ: real, v: Vector4)
    requires Is4x4(s) && IsShear(s, 0, 1, shearX, 2, 1, shearZ)
    ensures Apply(s, v) == Vector4(v.x + shearX * v.y, v.y, v.z + shearZ * v.y, v.w)
  {
    assert s[0, 0] == 1.0 && s[0, 1] == shearX && s[0, 2] == 0.0 && s[0, 3] == 0.0;
    assert s[1, 0] == 0.0 && s[1, 1] == 1.0 && s[1, 2] == 0.0 && s[1, 3] == 0.0;
    assert s[2, 0] == 0.0 && s[2, 1] == shearZ && s[2, 2] == 1.0 && s[2, 3] == 0.0;
    assert s[3, 0] == 0.0 && s[3, 1] == 0.0 && s[3, 2] == 0.0 && s[3, 3] == 1.0;
  }

  /** Shearing along z keeps a point's z. */
  lemma ShearZKeepsZ(s: array2<real>, shearX: real, shearY: real, v: Vector4)
    requires Is4x4(s) && IsShear(s, 0, 2, shearX, 1, 2, shearY)
    ensures Apply(s, v) == Vector4(v.x + shearX * v.z, v.y + shearY * v.z, v.z, v.w)
  {
    assert s[0, 0] == 1.0 && s[0, 1] == 0.0 && s[0, 2] == shearX && s[0, 3] == 0.0;
    assert s[1, 0] == 0.0 && s[1, 1] == 1.0 && s[1, 2] == shearY && s[1, 3] == 0.0;
    assert s[2, 0] == 0.0 && s[2, 1] == 0.0 && s[2, 2] == 1.0 && s[2, 3] == 0.0;
    assert s[3, 0] == 0.0 && s[3, 1] == 0.0 && s[3, 2] == 0.0 && s[3, 3] == 1.0;
  }

  /** The product matrix acts as its right factor followed by its left factor. */
  lemma ProductActsInOrder(a: array2<real>, b: array2<real>, p: array2<real>, v: Vector4)
    requires Is4x4(a) && Is4x4(b) && Is4x4(p)
    requires forall i, j | 0 <= i < 4 && 0 <= j < 4 :: p[i, j] == RowCol(a, b, i, j, 4)
    ensures Apply(p, v) == Apply(a, Apply(b, v))
  {
    RowActsInOrder(a, b, p, 0, v);
    RowActsInOrder(a, b, p, 1, v);
    RowActsInOrder(a, b, p, 2, v);
    RowActsInOrder(a, b, p, 3, v);
  }

  lemma RowActsInOrder(a: array2<real>, b: array2<real>, p: array2<real>, i: nat, v: Vector4)
    requires Is4x4(a) && Is4x4(b) && Is4x4(p) && i < 4
    requires forall j | 0 <= j < 4 :: p[i, j] == RowCol(a, b, i, j, 4)
    ensures RowDot(p, i, v) == RowDot(a, i, Apply(b, v))
  {
    RowColFour(a, b, i, 0);
    RowColFour(a, b, i, 1);
    RowColFour(a, b, i, 2);
    RowColFour(a, b, i, 3);
    RowIdentity(a[i, 0], a[i, 1], a[i, 2], a[i, 3],
                b[0, 0], b[0, 1], b[0, 2], b[0, 3],
                b[1, 0], b[1, 1], b[1, 2], b[1, 3],
                b[2, 0], b[2, 1], b[2, 2], b[2, 3],
                b[3, 0], b[3, 1], b[3, 2], b[3, 3],
                p[i, 0], p[i, 1], p[i, 2], p[i, 3],
                v.x, v.y, v.z, v.w);
  }

  /** The scalar identity behind the lemma above: regrouping a double sum. */
  lemma RowIdentity(a0: real, a1: real, a2: real, a3: real,
                    b00: real, b01: real, b02: real, b03: real,
                    b10: real, b11: real, b12: real, b13: real,
                    b20: real, b21: real, b22: real, b23: real,
                    b30: real, b31: real, b32: real, b33: real,
                    p0: real, p1: real, p2: real, p3: real,
                    x: real, y: real, z: real, w: real)
    requires p0 == 0.0 + a0 * b00 + a1 * b10 + a2 * b20 + a3 * b30
    requires p1 == 0.0 + a0 * b01 + a1 * b11 + a2 * b21 + a3 * b31
    requires p2 == 0.0 + a0 * b02 + a1 * b12 + a2 * b22 + a3 * b32
    requires p3 == 0.0 + a0 * b03 + a1 * b13 + a2 * b23 + a3 * b33
    ensures p0 * x + p1 * y + p2 * z + p3 * w
         == a0 * (b00 * x + b01 * y + b02 * z + b03 * w)
          + a1 * (b10 * x + b11 * y + b12 * z + b13 * w)
          + a2 * (b20 * x + b21 * y + b22 * z + b23 * w)
          + a3 * (b30 * x + b31 * y + b32 * z + b33 * w)
  {
  }
}

=== FILE: nodes.dfy ===
/**
 * The scene-graph nodes.  Every node keeps an ordered list of children; a
 * plain node draws them between a save and a restore, a payload node
 * (transform, material, light, camera, shape, texture) hands its payload to
 * the renderer and ignores its children.  The seven Java node classes become
 * one class whose payload says which of them it is.
 */
module Nodes {
  import opened Vectors
  import opened Cameras
  import opened Rendering
  import opened Transformations
  import opened Traversal

  /** What a node holds besides its children; `Plain` is a bare partial scene. */
  datatype Payload =
    | Plain
    | TransformPayload(transform: Transform)
    | MaterialPayload(material: Material)
    | LightPayload(light: Light)
    | CameraPayload(camera: Camera)
    | ShapePayload(shape: Shape)
    | TexturePayload(fileName: string)

  // ---------------------------------------------------------------------
  // Removing a child
  // ---------------------------------------------------------------------

  /** `s` without its first occurrence of `x`, or `s` itself when `x` does not occur. */
  function Without<T(==)>(s: seq<T>, x: T): seq<T> {
    if s == [] then []
    else if s[0] == x then s[1..]
    else [s[0]] + Without(s[1..], x)
  }

  /** Removing something that is not there changes nothing. */
  lemma {:induction false} WithoutAbsent<T>(s: seq<T>, x: T)
    requires x !in s
    ensures Without(s, x) == s
  {
    if s != [] {
      WithoutAbsent(s[1..], x);
    }
  }

  /** The first occurrence, at `i`, is the one cut out. */
  lemma {:induction false} WithoutAt<T>(s: seq<T>, x: T, i: nat)
    requires i < |s| && s[i] == x && x !in s[..i]
    ensures Without(s, x) == s[..i] + s[i + 1..]
  {
    if i > 0 {
      assert s[0] == s[..i][0];
      assert s[1..][..i - 1] == s[1..i];
      WithoutAt(s[1..], x, i - 1);
      assert s == [s[0]] + s[1..];
    }
  }

  /** Exactly one copy of `x` goes, when there is one, and nothing else does. */
  lemma {:induction false} WithoutMultiset<T>(s: seq<T>, x: T)
    ensures multiset(Without(s, x)) == multiset(s) - multiset{x}
  {
    if s != [] {
      assert s == [s[0]] + s[1..];
      WithoutMultiset(s[1..], x);
    }
  }

  /** Adding a new child and removing it again gives back the children. */
  lemma AddThenRemove<T>(s: seq<T>, x: T)
    requires x !in s
    ensures Without(s + [x], x) == s
  {
    WithoutAt(s + [x], x, |s|);
    assert (s + [x])[..|s|] == s;
  }

  // ---------------------------------------------------------------------
  // Nodes
  // ---------------------------------------------------------------------

  class Node {
    var children: seq<Node>
    var payload: Payload

    /** A plain node with no children. */
    constructor ()
      ensures children == [] && payload == Plain
    {
      children := [];
      payload := Plain;
    }

    constructor TransformNode(t: Transform)
      ensures children == [] && payload == TransformPayload(t)
    {
      children := [];
      payload := TransformPayload(t);
    }

    constructor MaterialNode(m: Material)
      ensures children == [] && payload == MaterialPayload(m)
    {
      children := [];
      payload := MaterialPayload(m);
    }

    constructor LightNode(l: Light)
      ensures children == [] && payload == LightPayload(l)
    {
      children := [];
      payload := LightPayload(l);
    }

    constructor CameraNode(c: Camera)
      ensures children == [] && payload == CameraPayload(c)
    {
      children := [];
      payload := CameraPayload(c);
    }

    constructor ShapeNode(s: Shape)
      ensures children == [] && payload == ShapePayload(s)
    {
      children := [];
      payload := ShapePayload(s);
    }

    constructor TextureNode(fileName: string)
      ensures children == [] && payload == TexturePayload(fileName)
    {
      children := [];
      payload := TexturePayload(fileName);
    }

    /** `addChild`: appended last; nothing stops a node being added twice, or to itself. */
    method AddChild(child: Node)
      modifies this
      ensures children == old(children) + [child] && payload == old(payload)
    {
      children := children + [child];
    }

    /** `removeChild`: the first occurrence goes; a node that is not a child changes nothing. */
    method RemoveChild(child: Node)
      modifies this
      ensures children == Without(old(children), child) && payload == old(payload)
    {
      var i := 0;
      while i < |children| && children[i] != child
        invariant i <= |children|
        invariant child !in children[..i]
      {
        assert children[..i + 1] == children[..i] + [children[i]];
        i := i + 1;
      }
      if i < |children| {
        WithoutAt(children, child, i);
        children := children[..i] + children[i + 1..];
      } else {
        assert children[..i] == children;
        WithoutAbsent(children, child);
      }
    }

    method SetTransform(t: Transform)
      requires payload.TransformPayload?
      modifies this
      ensures payload == TransformPayload(t) && children == old(children)
    {
      payload := TransformPayload(t);
    }

    method SetMaterial(m: Material)
      requires payload.MaterialPayload?
      modifies this
      ensures payload == MaterialPayload(m) && children == old(children)
    {
      payload := MaterialPayload(m);
    }

    method SetLight(l: Light)
      requires payload.LightPayload?
      modifies this
      ensures payload == LightPayload(l) && children == old(children)
    {
      payload := LightPayload(l);
    }

    method SetCamera(c: Camera)
      requires payload.CameraPayload?
      modifies this
      ensures payload == CameraPayload(c) && children == old(children)
    {
      payload := CameraPayload(c);
    }

    method SetShape(s: Shape)
      requires payload.ShapePayload?
      modifies this
      ensures payload == ShapePayload(s) && children == old(children)
    {
      payload := ShapePayload(s);
    }

    method SetTexture(fileName: string)
      requires payload.TexturePayload?
      modifies this
      ensures payload == TexturePayload(fileName) && children == old(children)
    {
      payload := TexturePayload(fileName);
    }

    /**
     * `draw`, proved to be `Run` on the tree `t` the node graph unfolds to.
     * Cameras are the only scene objects it changes, and it keeps their
     * configurations.
     */
    method Draw(r: Renderer, ghost t: Tree<Node>, sqrt: SqrtFn, loaded: string -> bool, ghost cfg: Camera -> CameraConfig)
      returns (ok: bool)
      requires t.node == this && Models(t) && Agree(t, cfg)
      requires Defined(t, r.gl.viewport, cfg)
      modifies r, CamerasOf(t)
      ensures Outcome(r.Ctx(), ok) == Run(t, old(r.Ctx()), sqrt, loaded, cfg)
      ensures Agree(t, cfg)
      ensures r.camera == Latest(Applied(t, old(r.Ctx()), sqrt, loaded, cfg), old(r.camera))
      ensures Actuals(t) == LimitsAfter(old(Actuals(t)), Applied(t, old(r.Ctx()), sqrt, loaded, cfg), old(r.gl.viewport), cfg)
      decreases t, 3
    {
      if payload.Plain? {
        ok := DrawChildren(r, t, sqrt, loaded, cfg);
      } else {
        ok := DrawPayload(r, t, sqrt, loaded, cfg);
      }
    }

    /** A plain node's `draw`: save, the children in order, restore. */
    method DrawChildren(r: Renderer, ghost t: Tree<Node>, sqrt: SqrtFn, loaded: string -> bool, ghost cfg: Camera -> CameraConfig)
      returns (ok: bool)
      requires t.node == this && payload.Plain? && Models(t) && Agree(t, cfg)
      requires Defined(t, r.gl.viewport, cfg)
      modifies r, CamerasOf(t)
      ensures Outcome(r.Ctx(), ok) == Run(t, old(r.Ctx()), sqrt, loaded, cfg)
      ensures Agree(t, cfg)
      ensures r.camera == Latest(Applied(t, old(r.Ctx()), sqrt, loaded, cfg), old(r.camera))
      ensures Actuals(t) == LimitsAfter(old(Actuals(t)), Applied(t, old(r.Ctx()), sqrt, loaded, cfg), old(r.gl.viewport), cfg)
      decreases t, 2
    {
      Allocated(t);
      ghost var c, m := r.Ctx(), Actuals(t);
      r.SaveTransform();
      CamerasKept(t);
      ok := DrawAll(r, t, sqrt, loaded, cfg);
      assert Applied(t, c, sqrt, loaded, cfg) == AppliedAll(t.children, SaveStep(c), sqrt, loaded, cfg);
      if ok {
        label Drawn:
        r.RestoreTransform();
        CamerasKept@Drawn(t);
      }
    }

    /** The loop of a plain node's `draw`: each child in turn, stopping at a failure. */
    method DrawAll(r: Renderer, ghost t: Tree<Node>, sqrt: SqrtFn, loaded: string -> bool, ghost cfg: Camera -> CameraConfig)
      returns (ok: bool)
      requires t.node == this && payload.Plain? && Models(t) && Agree(t, cfg)
      requires Defined(t, r.gl.viewport, cfg) && t.leaf.Group?
      modifies r, CamerasOf(t)
      ensures Outcome(r.Ctx(), ok) == RunAll(t.children, old(r.Ctx()), sqrt, loaded, cfg)
      ensures Agree(t, cfg)
      ensures r.camera == Latest(AppliedAll(t.children, old(r.Ctx()), sqrt, loaded, cfg), old(r.camera))
      ensures Actuals(t) == LimitsAfter(old(Actuals(t)), AppliedAll(t.children, old(r.Ctx()), sqrt, loaded, cfg), old(r.gl.viewport), cfg)
      decreases t, 1
    {
      Allocated(t);
      ghost var c0, prev, before := r.Ctx(), r.camera, Actuals(t);
      ok := true;
      var i := 0;
      while i < |children|
        invariant i <= |children| == |t.children|
        invariant Models(t) && Agree(t, cfg)
        invariant r.gl.viewport == c0.gl.viewport
        invariant AllDefined(t.children[..i], c0.gl.viewport, cfg)
        invariant Outcome(r.Ctx(), true) == RunAll(t.children[..i], c0, sqrt, loaded, cfg)
        invariant r.camera == Latest(AppliedAll(t.children[..i], c0, sqrt, loaded, cfg), prev)
        invariant Actuals(t) == LimitsAfter(before, AppliedAll(t.children[..i], c0, sqrt, loaded, cfg), c0.gl.viewport, cfg)
      {
        ok := DrawChild(r, t, i, c0, prev, before, sqrt, loaded, cfg);
        if !ok {
          return;
        }
        i := i + 1;
      }
      assert t.children[..i] == t.children;
    }

    /**
     * The `i`th step of a plain node's loop: the children before `i` have
     * been drawn from `c0`, and child `i` is drawn next.  A failure is the
     * outcome of all the children.  `prev` is the renderer's camera and
     * `before` the cameras' actual limits when the loop started.
     */
    method DrawChild(r: Renderer, ghost t: Tree<Node>, i: nat, ghost c0: Context, ghost prev: Camera?,
                     ghost before: map<Camera, Window>, sqrt: SqrtFn, loaded: string -> bool, ghost cfg: Camera -> CameraConfig)
      returns (ok: bool)
      requires t.node == this && payload.Plain? && Models(t) && Agree(t, cfg)
      requires i < |t.children| && Defined(t, c0.gl.viewport, cfg) && t.leaf.Group?
      requires r.gl.viewport == c0.gl.viewport
      requires AllDefined(t.children[..i], c0.gl.viewport, cfg)
      requires Outcome(r.Ctx(), true) == RunAll(t.children[..i], c0, sqrt, loaded, cfg)
      requires r.camera == Latest(AppliedAll(t.children[..i], c0, sqrt, loaded, cfg), prev)
      requires Actuals(t) == LimitsAfter(before, AppliedAll(t.children[..i], c0, sqrt, loaded, cfg), c0.gl.viewport, cfg)
      modifies r, CamerasOf(t)
      ensures Agree(t, cfg) && r.gl.viewport == c0.gl.viewport
      ensures AllDefined(t.children[..i + 1], c0.gl.viewport, cfg)
      ensures Outcome(r.Ctx(), ok) == RunAll(t.children[..i + 1], c0, sqrt, loaded, cfg)
      ensures !ok ==> Outcome(r.Ctx(), ok) == RunAll(t.children, c0, sqrt, loaded, cfg)
      ensures r.camera == Latest(AppliedAll(t.children[..i + 1], c0, sqrt, loaded, cfg), prev)
      ensures Actuals(t) == LimitsAfter(before, AppliedAll(t.children[..i + 1], c0, sqrt, loaded, cfg), c0.gl.viewport, cfg)
      ensures !ok ==> AppliedAll(t.children, c0, sqrt, loaded, cfg) == AppliedAll(t.children[..i + 1], c0, sqrt, loaded, cfg)
      decreases t, 0
    {
      Allocated(t);
      RunAllPrefix(t.children, i, c0, sqrt, loaded, cfg);
      ChildOf(t, i, cfg);
      ghost var done := AppliedAll(t.children[..i], c0, sqrt, loaded, cfg);
      ghost var cams := Applied(t.children[i], r.Ctx(), sqrt, loaded, cfg);
      AppliedInTree(t.children[i], r.Ctx(), sqrt, loaded, cfg);
      ghost var p1, c1 := Actuals(t), Actuals(t.children[i]);
      label Child:
      ok := children[i].Draw(r, t.children[i], sqrt, loaded, cfg);
      ChildCameras@Child(t, i);
      LimitsLift(p1, Actuals(t), c1, Actuals(t.children[i]), cams, c0.gl.viewport, cfg);
      LimitsAfterAppend(before, done, cams, c0.gl.viewport, cfg);
      LatestAppend(done, cams, prev);
      if !ok {
        FailureSkipsSiblings(t.children, i + 1, c0, sqrt, loaded, cfg);
      }
    }

    /** A payload node's `draw`: its one renderer call. */
    method DrawPayload(r: Renderer, ghost t: Tree<Node>, sqrt: SqrtFn, loaded: string -> bool, ghost cfg: Camera -> CameraConfig)
      returns (ok: bool)
      requires t.node == this && !payload.Plain? && Models(t) && Agree(t, cfg)
      requires Defined(t, r.gl.viewport, cfg)
      modifies r, CamerasOf(t)
      ensures Outcome(r.Ctx(), ok) == Run(t, old(r.Ctx()), sqrt, loaded, cfg)
      ensures Agree(t, cfg)
      ensures r.camera == Latest(Applied(t, old(r.Ctx()), sqrt, loaded, cfg), old(r.camera))
      ensures Actuals(t) == LimitsAfter(old(Actuals(t)), Applied(t, old(r.Ctx()), sqrt, loaded, cfg), old(r.gl.viewport), cfg)
    {
      Allocated(t);
      if payload.CameraPayload? {
        ok := DrawCamera(r, t, sqrt, loaded, cfg);
      } else {
        DrawEffect(r, t, sqrt, loaded, cfg);
        ok := true;
        CamerasKept(t);
        LimitsAfterNone(old(Actuals(t)), old(r.gl.viewport), cfg);
      }
    }

    /** The renderer call of a payload node that is not a camera: it cannot fail and changes only the renderer. */
    method DrawEffect(r: Renderer, ghost t: Tree<Node>, sqrt: SqrtFn, loaded: string -> bool, ghost cfg: Camera -> CameraConfig)
      requires t.node == this && !payload.Plain? && !payload.CameraPayload? && Models(t)
      requires Defined(t, r.gl.viewport, cfg)
      modifies r
      ensures Outcome(r.Ctx(), true) == Run(t, old(r.Ctx()), sqrt, loaded, cfg)
      ensures r.camera == old(r.camera) && Applied(t, old(r.Ctx()), sqrt, loaded, cfg) == []
    {
      match payload
      case TransformPayload(tr) =>
        tr.Apply(r);
      case MaterialPayload(m) =>
        r.ApplyMaterial(m);
      case LightPayload(l) =>
        r.ApplyLight(l);
      case ShapePayload(s) =>
        r.DrawShape(s);
      case TexturePayload(f) =>
        r.ApplyTexture(f, loaded(f));
    }

    /** A camera node's `draw`: the only node that can fail, and the only one that changes a scene object. */
    method DrawCamera(r: Renderer, ghost t: Tree<Node>, sqrt: SqrtFn, loaded: string -> bool, ghost cfg: Camera -> CameraConfig)
      returns (ok: bool)
      requires t.node == this && payload.CameraPayload? && Models(t) && Agree(t, cfg)
      requires Defined(t, r.gl.viewport, cfg)
      modifies r, CamerasOf(t)
      ensures Outcome(r.Ctx(), ok) == Run(t, old(r.Ctx()), sqrt, loaded, cfg)
      ensures Agree(t, cfg)
      ensures r.camera == Latest(Applied(t, old(r.Ctx()), sqrt, loaded, cfg), old(r.camera))
      ensures Actuals(t) == LimitsAfter(old(Actuals(t)), Applied(t, old(r.Ctx()), sqrt, loaded, cfg), old(r.gl.viewport), cfg)
    {
      Allocated(t);
      var cam := payload.camera;
      assert t.leaf == CameraLeaf(cam) && cam in CamerasOf(t);
      ok := r.ApplyCamera(cam, sqrt);
      CameraWritten(t, cam);
      LimitsAfterOne(old(Actuals(t)), cam, old(r.gl.viewport), cfg);
    }
  }

  // ---------------------------------------------------------------------
  // Node graphs as trees
  // ---------------------------------------------------------------------

  /** The nodes of a tree. */
  ghost function NodesOf(t: Tree<Node>): set<Node>
    decreases t
  {
    {t.node} + set i, n | 0 <= i < |t.children| && n in NodesOf(t.children[i]) :: n
  }

  /** The transforms of a tree. */
  ghost function TransformsOf(t: Tree<Node>): set<Transform>
    decreases t
  {
    (if t.leaf.TransformLeaf? then {t.leaf.transform} else {}) +
    set i, tr | 0 <= i < |t.children| && tr in TransformsOf(t.children[i]) :: tr
  }

  /** The cameras of a tree: what drawing it may change. */
  ghost function CamerasOf(t: Tree<Node>): set<Camera>
    decreases t
  {
    (if t.leaf.CameraLeaf? then {t.leaf.camera} else {}) +
    set i, cam | 0 <= i < |t.children| && cam in CamerasOf(t.children[i]) :: cam
  }

  /** The leaf says what a node with this payload does when drawn. */
  predicate Carries(p: Payload, l: Leaf)
    reads if l.TransformLeaf? then {l.transform} else {}
  {
    match p
    case Plain => l.Group?
    case TransformPayload(tr) => l.TransformLeaf? && l.transform == tr && l.value == tr.Value()
    case MaterialPayload(m) => l == MaterialLeaf(m)
    case LightPayload(li) => l == LightLeaf(li)
    case CameraPayload(cam) => l == CameraLeaf(cam)
    case ShapePayload(s) => l == ShapeLeaf(s)
    case TexturePayload(f) => l == TextureLeaf(f)
  }

  /**
   * `t` is the unfolding of the graph below `t.node`: each tree node carries
   * its node's payload, and its children are its node's children in order.
   */
  ghost predicate Models(t: Tree<Node>)
    reads NodesOf(t), TransformsOf(t)
    decreases t
  {
    Carries(t.node.payload, t.leaf) && |t.node.children| == |t.children| &&
    forall i :: 0 <= i < |t.children| ==> t.children[i].node == t.node.children[i] && Models(t.children[i])
  }

  /** Every object a tree refers to exists. */
  lemma {:induction false} Allocated(t: Tree<Node>)
    ensures forall n :: n in NodesOf(t) ==> allocated(n)
    ensures forall tr :: tr in TransformsOf(t) ==> allocated(tr)
    ensures forall cam :: cam in CamerasOf(t) ==> allocated(cam)
    decreases t
  {
    forall i | 0 <= i < |t.children| {
      Allocated(t.children[i]);
    }
  }

  /** What a tree tells about its `i`th child. */
  lemma ChildOf(t: Tree<Node>, i: nat, cfg: Camera -> CameraConfig)
    requires i < |t.children| && Models(t) && Agree(t, cfg)
    ensures t.children[i].node == t.node.children[i] && Models(t.children[i]) && Agree(t.children[i], cfg)
    ensures CamerasOf(t.children[i]) <= CamerasOf(t)
  {
  }

  /** Every camera of the tree has the configuration `cfg` gives it. */
  ghost predicate Agree(t: Tree<Node>, cfg: Camera -> CameraConfig)
    reads CamerasOf(t)
  {
    forall cam :: cam in CamerasOf(t) ==> cam.Config() == cfg(cam)
  }

  /** The actual limits of every camera of a tree. */
  ghost function Actuals(t: Tree<Node>): map<Camera, Window>
    reads CamerasOf(t)
  {
    map cam | cam in CamerasOf(t) :: cam.Actual()
  }

  /**
   * The actual limits once `cams` have been applied in viewport `vp`: each
   * applied camera holds the actual limits of its configuration, and every
   * other camera keeps its own.
   */
  function LimitsAfter(m: map<Camera, Window>, cams: seq<Camera>, vp: Viewport, cfg: Camera -> CameraConfig): map<Camera, Window>
    requires forall cam :: cam in cams ==> CameraDefined(cfg(cam), vp)
  {
    map cam | cam in m :: if cam in cams then ActualWindow(cfg(cam), vp) else m[cam]
  }

  /** Applying two batches of cameras is applying them together. */
  lemma LimitsAfterAppend(m: map<Camera, Window>, a: seq<Camera>, b: seq<Camera>, vp: Viewport, cfg: Camera -> CameraConfig)
    requires forall cam :: cam in a + b ==> CameraDefined(cfg(cam), vp)
    ensures LimitsAfter(LimitsAfter(m, a, vp, cfg), b, vp, cfg) == LimitsAfter(m, a + b, vp, cfg)
  {
  }

  /**
   * Limits written into a part `c` of the cameras `p`, all other cameras
   * keeping theirs, are the limits written into `p`.
   */
  lemma LimitsLift(p1: map<Camera, Window>, p2: map<Camera, Window>, c1: map<Camera, Window>, c2: map<Camera, Window>,
                   cams: seq<Camera>, vp: Viewport, cfg: Camera -> CameraConfig)
    requires forall cam :: cam in cams ==> CameraDefined(cfg(cam), vp) && cam in c1
    requires c1.Keys <= p1.Keys && p2.Keys == p1.Keys
    requires forall cam :: cam in c1 ==> c1[cam] == p1[cam]
    requires c2 == LimitsAfter(c1, cams, vp, cfg)
    requires forall cam :: cam in c2 ==> p2[cam] == c2[cam]
    requires forall cam :: cam in p1 && cam !in c1 ==> p2[cam] == p1[cam]
    ensures p2 == LimitsAfter(p1, cams, vp, cfg)
  {
  }

  /** Applying no camera changes no limits. */
  lemma LimitsAfterNone(m: map<Camera, Window>, vp: Viewport, cfg: Camera -> CameraConfig)
    ensures LimitsAfter(m, [], vp, cfg) == m
  {
  }

  /** Applying one camera of `m` writes its limits and no others. */
  lemma LimitsAfterOne(m: map<Camera, Window>, cam: Camera, vp: Viewport, cfg: Camera -> CameraConfig)
    requires cam in m && CameraDefined(cfg(cam), vp)
    ensures LimitsAfter(m, [cam], vp, cfg) == m[cam := ActualWindow(cfg(cam), vp)]
  {
  }

  /** A step that changes no camera of a tree keeps their limits. */
  twostate lemma CamerasKept(t: Tree<Node>)
    requires old(allocated(CamerasOf(t))) && unchanged(CamerasOf(t))
    ensures Actuals(t) == old(Actuals(t))
  {
  }

  /** A step that changes only camera `cam` of a tree changes only its limits. */
  twostate lemma CameraWritten(t: Tree<Node>, new cam: Camera)
    requires cam in CamerasOf(t) && old(allocated(CamerasOf(t))) && unchanged(CamerasOf(t) - {cam})
    ensures Actuals(t) == old(Actuals(t))[cam := cam.Actual()]
  {
  }

  /**
   * A step that changes only the cameras of child `i` leaves the parent's
   * other cameras as they were, and the parent sees the child's limits.
   */
  twostate lemma ChildCameras(new t: Tree<Node>, i: int)
    requires 0 <= i < |t.children| && old(allocated(t)) && old(allocated(CamerasOf(t)))
    requires unchanged(CamerasOf(t) - CamerasOf(t.children[i]))
    ensures old(Actuals(t.children[i])).Keys <= old(Actuals(t)).Keys && Actuals(t).Keys == old(Actuals(t)).Keys
    ensures forall cam :: cam in old(Actuals(t.children[i])) ==> old(Actuals(t.children[i]))[cam] == old(Actuals(t))[cam]
    ensures forall cam :: cam in Actuals(t.children[i]) ==> Actuals(t)[cam] == Actuals(t.children[i])[cam]
    ensures forall cam :: cam in old(Actuals(t)) && cam !in old(Actuals(t.children[i])) ==> Actuals(t)[cam] == old(Actuals(t))[cam]
  {
  }

  /** A draw applies only cameras of its own tree. */
  lemma {:induction false} AppliedInTree(t: Tree<Node>, c: Context, sqrt: SqrtFn, loaded: string -> bool, cfg: Camera -> CameraConfig)
    requires Defined(t, c.gl.viewport, cfg)
    ensures forall cam :: cam in Applied(t, c, sqrt, loaded, cfg) ==> cam in CamerasOf(t)
    decreases t, |t.children| + 1
  {
    if t.leaf.Group? {
      assert t.children[..|t.children|] == t.children;
      AppliedAllInTree(t, |t.children|, SaveStep(c), sqrt, loaded, cfg);
    }
  }

  lemma {:induction false} AppliedAllInTree(t: Tree<Node>, k: nat, c: Context, sqrt: SqrtFn, loaded: string -> bool, cfg: Camera -> CameraConfig)
    requires k <= |t.children| && AllDefined(t.children[..k], c.gl.viewport, cfg)
    ensures forall cam :: cam in AppliedAll(t.children[..k], c, sqrt, loaded, cfg) ==> cam in CamerasOf(t)
    decreases t, k
  {
    if k > 0 {
      var ts := t.children[..k];
      assert ts[..k - 1] == t.children[..k - 1];
      AppliedAllInTree(t, k - 1, c, sqrt, loaded, cfg);
      var o := RunAll(ts[..k - 1], c, sqrt, loaded, cfg);
      if o.ok {
        AppliedInTree(t.children[k - 1], o.ctx, sqrt, loaded, cfg);
      }
    }
  }

  // ---------------------------------------------------------------------
  // The scene
  // ---------------------------------------------------------------------

  /** A root node and a background colour; neither reference ever changes. */
  class Scene {
    const rootNode: Node
    const bgColors: array<real>

    /** A fresh plain root with no children. */
    constructor (r: real, g: real, b: real, a: real)
      ensures fresh(rootNode) && rootNode.children == [] && rootNode.payload == Plain
      ensures fresh(bgColors) && bgColors[..] == [r, g, b, a]
    {
      rootNode := new Node();
      bgColors := new real[4] [r, g, b, a];
    }

    method Add(child: Node)
      modifies rootNode
      ensures rootNode.children == old(rootNode.children) + [child] && rootNode.payload == old(rootNode.payload)
    {
      rootNode.AddChild(child);
    }

    method Remove(child: Node)
      modifies rootNode
      ensures rootNode.children == Without(old(rootNode.children), child) && rootNode.payload == old(rootNode.payload)
    {
      rootNode.RemoveChild(child);
    }

    method Draw(r: Renderer, ghost t: Tree<Node>, sqrt: SqrtFn, loaded: string -> bool, ghost cfg: Camera -> CameraConfig)
      returns (ok: bool)
      requires t.node == rootNode && Models(t) && Agree(t, cfg)
      requires Defined(t, r.gl.viewport, cfg)
      modifies r, CamerasOf(t)
      ensures Outcome(r.Ctx(), ok) == Run(t, old(r.Ctx()), sqrt, loaded, cfg)
      ensures Agree(t, cfg)
      ensures r.camera == Latest(Applied(t, old(r.Ctx()), sqrt, loaded, cfg), old(r.camera))
      ensures Actuals(t) == LimitsAfter(old(Actuals(t)), Applied(t, old(r.Ctx()), sqrt, loaded, cfg), old(r.gl.viewport), cfg)
    {
      ok := rootNode.Draw(r, t, sqrt, loaded, cfg);
    }
  }
}

=== FILE: rendering.dfy ===
/**
 * The renderer over an abstract OpenGL context.  The context keeps what the
 * scene graph's correctness depends on: the current matrix mode, the three
 * matrix stacks (a matrix is the list of operations multiplied onto the
 * identity), the enabled light ids, the viewport, and a log with one event
 * per drawing, material, light, texture, save and restore call.  Each
 * renderer method is specified by a step function on `Context`.
 */
module Rendering {
  import opened Vectors
  import opened Wrappers
  import opened Cameras

  // ---------------------------------------------------------------------
  // The abstract context
  // ---------------------------------------------------------------------

  /** An operation multiplied onto the current matrix. */
  datatype MatrixOp =
    | Translate(tx: real, ty: real, tz: real)
    | Rotate(angle: real, ax: real, ay: real, az: real)
    | Scale(sx: real, sy: real, sz: real)
    | Ortho(left: real, right: real, bottom: real, top: real, near: real, far: real)
    | Frustum(left: real, right: real, bottom: real, top: real, near: real, far: real)
    | LookAt(eye: Vec3, center: Vec3, up: Vec3)

  /** A matrix, as the operations multiplied onto the identity in order. */
  type Matrix = seq<MatrixOp>

  const Identity: Matrix := []

  /** A matrix stack, top last; it always holds at least one matrix. */
  type Stack = s: seq<Matrix> | 1 <= |s| witness [Identity]

  const Fresh: Stack := [Identity]

  datatype MatrixMode = ModelView | Projection | TextureMode

  /** The kinds of drawn primitive. */
  datatype Primitive = CubePrim | SpherePrim | ConePrim | TorusPrim | CylinderPrim | PolyMeshPrim | PolyhedronPrim

  datatype Style = Textured | Wire | Solid

  datatype ShapeKind = Cube | Sphere | Cone | Torus | Cylinder | Teapot | Complex

  /** A shape, as far as the renderer looks at it: its kind and its status string. */
  datatype Shape = Shape(kind: ShapeKind, status: string)

  /** The values `applyMaterial` uploads. */
  datatype Material = Material(ambient: seq<real>, diffuse: seq<real>, specular: seq<real>,
                               emissive: seq<real>, shininess: real)

  datatype LightKind = PointLight | DirectionalLight | SpotLight

  /** A light, as far as the renderer's state goes: its kind and its GL light id. */
  datatype Light = Light(kind: LightKind, id: int)

  /** The viewport size that `glGetIntegerv(GL_VIEWPORT)` reports. */
  datatype Viewport = Viewport(width: int, height: int)

  datatype Event =
    | Saved
    | Restored
    | Transformed(op: MatrixOp, tex: bool)
    | MaterialApplied(material: Material)
    | LightApplied(light: Light)
    | TextureApplied(fileName: string, loaded: bool)
    | Drew(primitive: Primitive, style: Style)
    | Cleared(color: seq<real>)
    | Flushed

  datatype Gl = Gl(mode: MatrixMode, modelview: Stack, projection: Stack, texture: Stack,
                   lights: set<int>, viewport: Viewport, log: seq<Event>)

  /** Everything a renderer call can change: the GL context and the two animation fields. */
  datatype Context = Context(gl: Gl, animationRequired: bool, frameNumber: int)

  /** `GL_LIGHT0`, the light `setup` enables. */
  const Light0 := 0x4000

  /** The context a fresh GL drawable starts with. */
  function InitialGl(viewport: Viewport): Gl {
    Gl(ModelView, Fresh, Fresh, Fresh, {}, viewport, [])
  }

  // ---------------------------------------------------------------------
  // Matrix stacks
  // ---------------------------------------------------------------------

  function Top(s: Stack): Matrix {
    s[|s| - 1]
  }

  /** `glPushMatrix`: a copy of the top goes on the stack. */
  function Push(s: Stack): (r: Stack)
    ensures |r| == |s| + 1 && r[..|s|] == s && Top(r) == Top(s)
  {
    s + [Top(s)]
  }

  /** `glPopMatrix`: drops the top; on a one-matrix stack GL flags an underflow and changes nothing. */
  function Pop(s: Stack): (r: Stack)
    ensures 1 < |s| ==> r == s[..|s| - 1]
    ensures |s| == 1 ==> r == s
  {
    if 1 < |s| then s[..|s| - 1] else s
  }

  /** Multiplies `op` onto the top matrix. */
  function MultTop(s: Stack, op: MatrixOp): (r: Stack)
    ensures |r| == |s| && r[..|s| - 1] == s[..|s| - 1] && Top(r) == Top(s) + [op]
  {
    s[..|s| - 1] + [Top(s) + [op]]
  }

  /** `glLoadIdentity` on the top matrix. */
  function LoadTop(s: Stack): (r: Stack)
    ensures |r| == |s| && r[..|s| - 1] == s[..|s| - 1] && Top(r) == Identity
  {
    s[..|s| - 1] + [Identity]
  }

  /** The stack the current matrix mode selects. */
  function Current(g: Gl): Stack {
    match g.mode
    case ModelView => g.modelview
    case Projection => g.projection
    case TextureMode => g.texture
  }

  function WithCurrent(g: Gl, s: Stack): (r: Gl)
    ensures Current(r) == s && r.mode == g.mode && r.lights == g.lights
    ensures r.viewport == g.viewport && r.log == g.log
  {
    match g.mode
    case ModelView => g.(modelview := s)
    case Projection => g.(projection := s)
    case TextureMode => g.(texture := s)
  }

  function Log(c: Context, e: Event): Context {
    c.(gl := c.gl.(log := c.gl.log + [e]))
  }

  // ---------------------------------------------------------------------
  // Step functions: one per renderer operation
  // ---------------------------------------------------------------------

  /** `saveTransform`. */
  function SaveStep(c: Context): Context {
    Log(c.(gl := WithCurrent(c.gl, Push(Current(c.gl)))), Saved)
  }

  /** `restoreTransform`. */
  function RestoreStep(c: Context): Context {
    Log(c.(gl := WithCurrent(c.gl, Pop(Current(c.gl)))), Restored)
  }

  /**
   * `translate`, `rotate` and `scale`: a tex-flagged transform switches to
   * the texture matrix, resets it to the identity, multiplies there and
   * switches to the modelview matrix; otherwise it multiplies the current
   * matrix.
   */
  function TransformStep(c: Context, op: MatrixOp, tex: bool): Context {
    var g := c.gl;
    var g' := if tex then g.(texture := MultTop(LoadTop(g.texture), op), mode := ModelView)
              else WithCurrent(g, MultTop(Current(g), op));
    Log(c.(gl := g'), Transformed(op, tex))
  }

  /** `applyMaterial`: the values are uploaded; only the log records it. */
  function MaterialStep(c: Context, m: Material): Context {
    Log(c, MaterialApplied(m))
  }

  /** `applyPointLight`, `applyDirectionalLight`, `applySpotLight`: parameters uploaded, the id enabled. */
  function LightStep(c: Context, l: Light): Context {
    Log(c.(gl := c.gl.(lights := c.gl.lights + {l.id})), LightApplied(l))
  }

  /**
   * `applyTexture`.  Whether the file loads is outside the model (`loaded`);
   * a failure is caught and reported, and the context is otherwise unchanged.
   */
  function TextureStep(c: Context, fileName: string, loaded: bool): Context {
    Log(c, TextureApplied(fileName, loaded))
  }

  /** The `draw*` methods. */
  function ShapeStep(c: Context, s: Shape): Context {
    var d := Drawing(s);
    Log(c, Drew(d.0, d.1))
  }

  /**
   * What no draw call undoes: the viewport, the enabled lights, the frame
   * number, a set animation flag and the log written so far.
   */
  predicate Progress(c: Context, d: Context) {
    d.gl.viewport == c.gl.viewport && c.gl.lights <= d.gl.lights &&
    d.frameNumber == c.frameNumber && (c.animationRequired ==> d.animationRequired) &&
    c.gl.log <= d.gl.log
  }

  /** Every stack keeps its depth, and the modelview stack everything below its top. */
  predicate OnlyTopsChange(g: Gl, h: Gl) {
    |h.modelview| == |g.modelview| && h.modelview[..|g.modelview| - 1] == g.modelview[..|g.modelview| - 1] &&
    |h.projection| == |g.projection| && |h.texture| == |g.texture|
  }

  // ---------------------------------------------------------------------
  // Status strings and draw styles
  // ---------------------------------------------------------------------

  /** `toUpperCase` on one character, for the ASCII letters. */
  function UpperChar(ch: char): char {
    if 'a' <= ch <= 'z' then (ch as int - 32) as char else ch
  }

  function ToUpper(s: string): (r: string)
    ensures |r| == |s| && forall i | 0 <= i < |s| :: r[i] == UpperChar(s[i])
  {
    if s == [] then [] else [UpperChar(s[0])] + ToUpper(s[1..])
  }

  /** The three-way choice of the cube, sphere, cone, torus and cylinder methods. */
  function StandardStyle(status: string): Style {
    var u := ToUpper(status);
    if u == "TEXTURE" then Textured else if u == "WIRE" then Wire else Solid
  }

  /** What each `draw*` method draws, and how. */
  function Drawing(s: Shape): (Primitive, Style) {
    var u := ToUpper(s.status);
    match s.kind
    case Cube => (CubePrim, StandardStyle(s.status))
    case Sphere => (SpherePrim, StandardStyle(s.status))
    case Cone => (ConePrim, StandardStyle(s.status))
    case Torus => (TorusPrim, StandardStyle(s.status))
    case Cylinder => (CylinderPrim, StandardStyle(s.status))
    case Teapot => (CubePrim, if u == "WIRE" then Wire else Solid)
    case Complex =>
      if u == "SMOOTH" then (PolyMeshPrim, Solid)
      else (PolyhedronPrim, if u == "TEXTURE" then Textured else Solid)
  }

  // ---------------------------------------------------------------------
  // Camera: actual limits and projection
  // ---------------------------------------------------------------------

  /** The requested xy limits, which `applyCamera` first copies into the actual ones. */
  function Requested(cfg: CameraConfig): Window {
    Window(cfg.requested.xmin, cfg.requested.xmax, cfg.requested.ymin, cfg.requested.ymax)
  }

  /**
   * Where the widening divides by nonzero numbers only: a nonempty viewport
   * and a window of nonzero width and height.
   */
  predicate Widenable(w: Window, vp: Viewport) {
    0 < vp.width && 0 < vp.height && w.xmax - w.xmin != 0.0 && w.ymax - w.ymin != 0.0
  }

  /** The aspect-ratio correction: widen x or y symmetrically to the viewport's ratio. */
  function Widen(w: Window, vp: Viewport): Window
    requires Widenable(w, vp)
  {
    var aspect := vp.height as real / vp.width as real;
    var desired := (w.ymax - w.ymin) / (w.xmax - w.xmin);
    if desired > aspect then
      var extra := (desired / aspect - 1.0) * (w.xmax - w.xmin) / 2.0;
      w.(xmin := w.xmin - extra, xmax := w.xmax + extra)
    else if aspect > desired then
      var extra := (aspect / desired - 1.0) * (w.ymax - w.ymin) / 2.0;
      w.(ymin := w.ymin - extra, ymax := w.ymax + extra)
    else
      w
  }

  /** What `applyCamera` may compute without dividing by zero. */
  predicate CameraDefined(cfg: CameraConfig, vp: Viewport) {
    cfg.preserveAspect ==> Widenable(Requested(cfg), vp)
  }

  /** The actual limits `applyCamera` writes back into the camera. */
  function ActualWindow(cfg: CameraConfig, vp: Viewport): Window
    requires CameraDefined(cfg, vp)
  {
    if cfg.preserveAspect then Widen(Requested(cfg), vp) else Requested(cfg)
  }

  /** The projection `applyCamera` multiplies onto the projection matrix. */
  function ProjectionOf(cfg: CameraConfig, w: Window, viewDistance: real): MatrixOp
    requires viewDistance != 0.0
  {
    if cfg.orthographic then
      Ortho(w.xmin, w.xmax, w.ymin, w.ymax,
            viewDistance - cfg.requested.zmax, viewDistance - cfg.requested.zmin)
    else
      var near := if viewDistance - cfg.requested.zmax < 0.1 then 0.1 else viewDistance - cfg.requested.zmax;
      var centerX := (w.xmin + w.xmax) / 2.0;
      var centerY := (w.ymin + w.ymax) / 2.0;
      var newWidth := (near / viewDistance) * (w.xmax - w.xmin);
      var newHeight := (near / viewDistance) * (w.ymax - w.ymin);
      Frustum(centerX - newWidth / 2.0, centerX + newWidth / 2.0,
              centerY - newHeight / 2.0, centerY + newHeight / 2.0,
              near, viewDistance - cfg.requested.zmin)
  }

  datatype Outcome = Outcome(ctx: Context, ok: bool)

  /**
   * `applyCamera`: projection mode and identity, then the view distance,
   * whose `norm` throws when eye and view centre coincide (the context is
   * then left in projection mode); otherwise the projection, modelview
   * mode, identity and the look-at transform.
   */
  function CameraStep(c: Context, cfg: CameraConfig, sqrt: SqrtFn): Outcome
    requires CameraDefined(cfg, c.gl.viewport)
  {
    var w := ActualWindow(cfg, c.gl.viewport);
    var g := Projecting(c.gl);
    var viewDistance := Camera.Norm(Sub(cfg.center, cfg.eye), sqrt);
    if viewDistance.None? then Outcome(c.(gl := g), false)
    else Outcome(c.(gl := Viewing(g, cfg, w, viewDistance.value)), true)
  }

  /** Projection mode, with an identity on top of the projection stack. */
  function Projecting(g: Gl): Gl {
    g.(mode := Projection, projection := LoadTop(g.projection))
  }

  /** The projection multiplied on, then modelview mode, an identity, and the look-at transform. */
  function Viewing(g: Gl, cfg: CameraConfig, w: Window, viewDistance: real): Gl
    requires viewDistance != 0.0
  {
    g.(projection := MultTop(g.projection, ProjectionOf(cfg, w, viewDistance)),
       mode := ModelView,
       modelview := MultTop(LoadTop(g.modelview), LookAt(cfg.eye, cfg.center, cfg.up)))
  }

  // ---------------------------------------------------------------------
  // Animation
  // ---------------------------------------------------------------------

  /** Truncation towards zero, as a float-to-int conversion does. */
  function Trunc(x: real): int {
    if 0.0 <= x then x.Floor else -((-x).Floor)
  }

  /** Java's `%` on floating-point numbers: the remainder of the truncated quotient. */
  function Rem(a: real, b: real): real
    requires b != 0.0
  {
    a - b * Trunc(a / b) as real
  }

  function Min3(x: real, y: real, z: real): real {
    var m := if x <= y then x else y;
    if m <= z then m else z
  }

  /**
   * Where the animated translation and scale are defined over the reals:
   * each nonzero amplitude is divided by the smallest one, so that must be
   * nonzero unless every amplitude is zero.
   */
  predicate AmplitudesDefined(x: real, y: real, z: real) {
    (x != 0.0 || y != 0.0 || z != 0.0) ==> Min3(x, y, z) != 0.0
  }

  /** Unary minus on a Java `int`: the most negative value is its own negation. */
  function Neg32(n: int): int {
    if n == -0x8000_0000 then n else -n
  }

  /**
   * The offset `animateTranslate` computes for the x amplitude.  For a
   * negative amplitude the `int` frame number is negated first, which
   * (`Neg32`) leaves the most negative value as it is.
   */
  function OffsetX(f: int, x: real, smallest: real): real
    requires x != 0.0 ==> smallest != 0.0
  {
    if x > 0.0 then Rem(f as real * (x / smallest), x)
    else if x < 0.0 then
      if f == -0x8000_0000 then Rem(f as real * (x / smallest), x) else Rem(-f as real * (x / smallest), x)
    else 0.0
  }

  /** The offset for the y and z amplitudes: the frame number keeps its sign in both branches. */
  function OffsetYZ(f: int, y: real, smallest: real): real
    requires y != 0.0 ==> smallest != 0.0
  {
    if y > 0.0 then Rem(f as real * (y / smallest), y)
    else if y < 0.0 then Rem(f as real * (y / smallest), y)
    else 0.0
  }

  /** The angle `animateRotate` computes; the `int` frame number is negated before the float remainder. */
  function AnimatedAngle(f: int, angle: real): real {
    if angle > 0.0 then Rem(f as real, angle)
    else if angle < 0.0 then Rem(Neg32(f) as real, angle)
    else 0.0
  }

  /** The factor `animateScale` computes for one amplitude. */
  function Factor(f: int, x: real, smallest: real): real
    requires x != 0.0 ==> smallest != 0.0
  {
    if x != 0.0 then Rem(f as real * (x / smallest), x) + 1.0 else 1.0
  }

  /** The translation `animateTranslate` multiplies on at frame `f`. */
  function AnimatedTranslateOp(f: int, x: real, y: real, z: real): MatrixOp
    requires AmplitudesDefined(x, y, z)
  {
    var s := Min3(x, y, z);
    Translate(OffsetX(f, x, s), OffsetYZ(f, y, s), OffsetYZ(f, z, s))
  }

  function AnimateTranslateStep(c: Context, x: real, y: real, z: real, tex: bool): Context
    requires AmplitudesDefined(x, y, z)
  {
    TransformStep(c.(animationRequired := true), AnimatedTranslateOp(c.frameNumber, x, y, z), tex)
  }

  /** The rotation `animateRotate` multiplies on at frame `f`: the axis passes through. */
  function AnimatedRotateOp(f: int, angle: real, x: real, y: real, z: real): MatrixOp {
    Rotate(AnimatedAngle(f, angle), x, y, z)
  }

  function AnimateRotateStep(c: Context, angle: real, x: real, y: real, z: real, tex: bool): Context {
    TransformStep(c.(animationRequired := true), AnimatedRotateOp(c.frameNumber, angle, x, y, z), tex)
  }

  /** The scale `animateScale` multiplies on at frame `f`. */
  function AnimatedScaleOp(f: int, x: real, y: real, z: real): MatrixOp
    requires AmplitudesDefined(x, y, z)
  {
    var s := Min3(x, y, z);
    Scale(Factor(f, x, s), Factor(f, y, s), Factor(f, z, s))
  }

  function AnimateScaleStep(c: Context, x: real, y: real, z: real, tex: bool): Context
    requires AmplitudesDefined(x, y, z)
  {
    TransformStep(c.(animationRequired := true), AnimatedScaleOp(c.frameNumber, x, y, z), tex)
  }

  /** `frameNumber++` on a Java `int`, which wraps around. */
  function Inc32(n: int): int {
    if n == 0x7fff_ffff then -0x8000_0000 else n + 1
  }

  /** The end of `display`: one more frame when an animated transform ran, then a flush. */
  function FinishStep(c: Context): Context {
    Log(c.(frameNumber := if c.animationRequired then Inc32(c.frameNumber) else c.frameNumber), Flushed)
  }

  // ---------------------------------------------------------------------
  // Row-major flattening
  // ---------------------------------------------------------------------

  /** The rows of `a` before row `n`, concatenated. */
  function Flat<T>(a: array<array<T>>, n: nat): seq<T>
    requires n <= a.Length
    reads a, set i | 0 <= i < a.Length :: a[i]
  {
    if n == 0 then [] else Flat(a, n - 1) + a[n - 1][..]
  }

  /** The total length of the rows before row `n`. */
  function Offset<T>(a: array<array<T>>, n: nat): nat
    requires n <= a.Length
    reads a
  {
    if n == 0 then 0 else Offset(a, n - 1) + a[n - 1].Length
  }

  // ---------------------------------------------------------------------
  // The renderer
  // ---------------------------------------------------------------------

  class Renderer {
    var gl: Gl
    var animationRequired: bool
    var frameNumber: int
    /** The camera the trackball turns: the one most recently applied. */
    var camera: Camera?

    function Ctx(): Context
      reads this
    {
      Context(gl, animationRequired, frameNumber)
    }

    /** A new renderer: no animation yet, frame 0. */
    constructor (viewport: Viewport)
      ensures Ctx() == Context(InitialGl(viewport), false, 0)
      ensures camera == null
    {
      gl := InitialGl(viewport);
      animationRequired := false;
      frameNumber := 0;
      camera := null;
    }

    method SaveTransform()
      modifies this
      ensures Ctx() == SaveStep(old(Ctx())) && camera == old(camera)
    {
      gl := SaveStep(Ctx()).gl;
    }

    method RestoreTransform()
      modifies this
      ensures Ctx() == RestoreStep(old(Ctx())) && camera == old(camera)
    {
      gl := RestoreStep(Ctx()).gl;
    }

    /** `drawCube`, `drawSphere`, `drawCone`, `drawTorus`, `drawCylinder`, `drawTeapot`, `drawComplexShape`. */
    method DrawShape(s: Shape)
      modifies this
      ensures Ctx() == ShapeStep(old(Ctx()), s) && camera == old(camera)
    {
      var d := Drawing(s);
      gl := gl.(log := gl.log + [Drew(d.0, d.1)]);
    }

    method ApplyMaterial(m: Material)
      modifies this
      ensures Ctx() == MaterialStep(old(Ctx()), m) && camera == old(camera)
    {
      gl := gl.(log := gl.log + [MaterialApplied(m)]);
    }

    /** The three light methods: upload the parameters, then enable the light's id. */
    method ApplyLight(l: Light)
      modifies this
      ensures Ctx() == LightStep(old(Ctx()), l) && camera == old(camera)
    {
      gl := gl.(lights := gl.lights + {l.id}, log := gl.log + [LightApplied(l)]);
    }

    method ApplyTexture(fileName: string, loaded: bool)
      modifies this
      ensures Ctx() == TextureStep(old(Ctx()), fileName, loaded) && camera == old(camera)
    {
      gl := gl.(log := gl.log + [TextureApplied(fileName, loaded)]);
    }

    /** `setup`: among the capabilities it enables is light 0. */
    method Setup()
      modifies this
      ensures Ctx() == old(Ctx()).(gl := old(gl).(lights := old(gl.lights) + {Light0}))
      ensures camera == old(camera)
    {
      gl := gl.(lights := gl.lights + {Light0});
    }

    method Translate(x: real, y: real, z: real, tex: bool)
      modifies this
      ensures Ctx() == TransformStep(old(Ctx()), MatrixOp.Translate(x, y, z), tex) && camera == old(camera)
    {
      Multiply(MatrixOp.Translate(x, y, z), tex);
    }

    method Rotate(angle: real, x: real, y: real, z: real, tex: bool)
      modifies this
      ensures Ctx() == TransformStep(old(Ctx()), MatrixOp.Rotate(angle, x, y, z), tex) && camera == old(camera)
    {
      Multiply(MatrixOp.Rotate(angle, x, y, z), tex);
    }

    method Scale(x: real, y: real, z: real, tex: bool)
      modifies this
      ensures Ctx() == TransformStep(old(Ctx()), MatrixOp.Scale(x, y, z), tex) && camera == old(camera)
    {
      Multiply(MatrixOp.Scale(x, y, z), tex);
    }

    /** The branch the three transform methods share. */
    method Multiply(op: MatrixOp, tex: bool)
      modifies this
      ensures Ctx() == TransformStep(old(Ctx()), op, tex) && camera == old(camera)
    {
      if tex {
        gl := gl.(mode := TextureMode);
        gl := gl.(texture := LoadTop(gl.texture));
        gl := gl.(texture := MultTop(gl.texture, op));
        gl := gl.(mode := ModelView);
      } else {
        gl := WithCurrent(gl, MultTop(Current(gl), op));
      }
      gl := gl.(log := gl.log + [Transformed(op, tex)]);
    }

    method AnimateTranslate(x: real, y: real, z: real, tex: bool)
      requires AmplitudesDefined(x, y, z)
      modifies this
      ensures Ctx() == AnimateTranslateStep(old(Ctx()), x, y, z, tex) && camera == old(camera)
    {
      animationRequired := true;
      var smallest := Min3(x, y, z);
      Translate(OffsetX(frameNumber, x, smallest), OffsetYZ(frameNumber, y, smallest),
                OffsetYZ(frameNumber, z, smallest), tex);
    }

    method AnimateRotate(angle: real, x: real, y: real, z: real, tex: bool)
      modifies this
      ensures Ctx() == AnimateRotateStep(old(Ctx()), angle, x, y, z, tex) && camera == old(camera)
    {
      animationRequired := true;
      var newAngle := 0.0;
      if angle > 0.0 {
        newAngle := Rem(frameNumber as real, angle);
      } else if angle < 0.0 {
        newAngle := Rem(Neg32(frameNumber) as real, angle);
      }
      Rotate(newAngle, x, y, z, tex);
    }

    method AnimateScale(x: real, y: real, z: real, tex: bool)
      requires AmplitudesDefined(x, y, z)
      modifies this
      ensures Ctx() == AnimateScaleStep(old(Ctx()), x, y, z, tex) && camera == old(camera)
    {
      animationRequired := true;
      var smallest := Min3(x, y, z);
      Scale(Factor(frameNumber, x, smallest), Factor(frameNumber, y, smallest),
            Factor(frameNumber, z, smallest), tex);
    }

    /**
     * `applyCamera`: records the camera for the trackball, writes its actual
     * limits, and sets up the projection and modelview matrices.  `ok` is
     * false where the view-distance `norm` throws.
     */
    method ApplyCamera(c: Camera, sqrt: SqrtFn) returns (ok: bool)
      requires CameraDefined(c.Config(), gl.viewport)
      modifies this, c
      ensures camera == c
      ensures c.Config() == old(c.Config())
      ensures c.Actual() == ActualWindow(old(c.Config()), old(gl.viewport))
      ensures Outcome(Ctx(), ok) == CameraStep(old(Ctx()), old(c.Config()), sqrt)
    {
      camera := c;
      WriteActualLimits(c, gl.viewport);
      gl := Projecting(gl);
      var cfg := c.Config();
      var viewDistance := Camera.Norm(Sub(cfg.center, cfg.eye), sqrt);
      if viewDistance.None? {
        return false;
      }
      gl := Viewing(gl, cfg, c.Actual(), viewDistance.value);
      ok := true;
    }

    /**
     * The first part of `applyCamera`: the actual limits start as the
     * requested ones and, when the aspect ratio is preserved, are widened.
     */
    static method WriteActualLimits(c: Camera, viewport: Viewport)
      requires CameraDefined(c.Config(), viewport)
      modifies c
      ensures c.Config() == old(c.Config())
      ensures c.Actual() == ActualWindow(old(c.Config()), viewport)
    {
      var limits := c.GetLimits();
      c.xminActual, c.xmaxActual, c.yminActual, c.ymaxActual := limits[0], limits[1], limits[2], limits[3];
      if c.GetPreserveAspect() {
        c.SetActual(Widen(c.Actual(), viewport));
      }
    }

    /** `clearDisplay`: the background colour is the first four entries of the scene's array. */
    method ClearDisplay(color: array<real>)
      requires 4 <= color.Length
      modifies this
      ensures Ctx() == Log(old(Ctx()), Cleared(color[..4])) && camera == old(camera)
    {
      assert color[..4] == [color[0], color[1], color[2], color[3]];
      gl := gl.(log := gl.log + [Cleared([color[0], color[1], color[2], color[3]])]);
    }

    /** The start of `display`: modelview mode and an identity top. */
    method BeginFrame()
      modifies this
      ensures Ctx() == old(Ctx()).(gl := old(gl).(mode := ModelView, modelview := LoadTop(old(gl.modelview))))
      ensures camera == old(camera)
    {
      gl := gl.(mode := ModelView);
      gl := gl.(modelview := LoadTop(gl.modelview));
    }

    /** The end of `display`. */
    method FinishFrame()
      modifies this
      ensures Ctx() == FinishStep(old(Ctx())) && camera == old(camera)
    {
      if animationRequired {
        frameNumber := Inc32(frameNumber);
      }
      gl := gl.(log := gl.log + [Flushed]);
    }

    /**
     * `flatten`, for all three element types: the rows one after another, in
     * a fresh array; the input is not changed.
     */
    static method Flatten<T(0)>(a: array<array<T>>) returns (r: array<T>)
      ensures fresh(r) && r[..] == Flat(a, a.Length)
      ensures r.Length == Offset(a, a.Length)
    {
      var n := 0;
      for i := 0 to a.Length
        invariant n == Offset(a, i)
      {
        n := n + a[i].Length;
      }
      r := new T[n];
      var k := 0;
      for i := 0 to a.Length
        invariant k == Offset(a, i) && k <= n
        invariant r[..k] == Flat(a, i)
      {
        OffsetGrows(a, i + 1, a.Length);
        CopyRow(r, k, a[i]);
        k := k + a[i].Length;
      }
      FlatLength(a, a.Length);
      assert r[..] == r[..k];
    }

    /** The inner loop of the flattening: one row copied to position `k`. */
    static method CopyRow<T>(r: array<T>, k: nat, row: array<T>)
      requires k + row.Length <= r.Length && r != row
      modifies r
      ensures r[..k + row.Length] == old(r[..k]) + row[..]
    {
      for j := 0 to row.Length
        invariant r[..k + j] == old(r[..k]) + row[..j]
      {
        r[k + j] := row[j];
        assert row[..j + 1] == row[..j] + [row[j]];
      }
      assert row[..row.Length] == row[..];
    }
  }

  // ---------------------------------------------------------------------
  // The trackball
  // ---------------------------------------------------------------------

  /**
   * The mouse handler behind the trackball.  The rays are parameters: turning
   * a mouse point into a ray reads the component's size, which is not part of
   * this model.
   */
  class TrackballMouser {
    var dragging: bool
    var prevRay: array?<real>

    /** While dragging, the previous ray is a three-component array. */
    predicate Valid()
      reads this
    {
      dragging ==> prevRay != null && prevRay.Length == 3
    }

    constructor ()
      ensures Valid() && !dragging && prevRay == null
    {
      dragging := false;
      prevRay := null;
    }

    /** Starts a drag at `ray`; a press during a drag is ignored. */
    method MousePressed(ray: array<real>)
      requires Valid() && ray.Length == 3
      modifies this
      ensures Valid() && dragging
      ensures prevRay == if old(dragging) then old(prevRay) else ray
    {
      if dragging {
        return;
      }
      dragging := true;
      prevRay := ray;
    }

    /** Ends a drag; the previous ray is kept. */
    method MouseReleased()
      requires Valid()
      modifies this
      ensures Valid() && !dragging && prevRay == old(prevRay)
    {
      if !dragging {
        return;
      }
      dragging := false;
    }

    /**
     * Rotates the renderer's camera from the previous ray to `ray`.  The
     * result is false where the source throws: no camera yet, or a
     * transvection that fails; then the previous ray is kept.
     */
    method MouseDragged(r: Renderer, ray: array<real>, sqrt: SqrtFn) returns (ok: bool)
      requires Valid() && ray.Length == 3
      modifies this, r.camera
      ensures Valid() && dragging == old(dragging)
      ensures !old(dragging) ==> ok && prevRay == old(prevRay)
      ensures old(dragging) && old(r.camera) == null ==> !ok && prevRay == old(prevRay)
      ensures old(dragging) && old(r.camera) != null ==>
                var t := Transvection(old(r.camera.Config()), old(AsVec(prevRay)), AsVec(ray), sqrt);
                (ok <==> t.Some?) &&
                (ok ==> r.camera.Config() == old(r.camera.Config()).(eye := t.value.eye, up := t.value.up) && prevRay == ray) &&
                (!ok ==> r.camera.Config() == old(r.camera.Config()) && prevRay == old(prevRay))
    ensures !old(dragging) && old(r.camera) != null ==> r.camera.Config() == old(r.camera.Config())
    ensures old(r.camera) != null ==> r.camera.Actual() == old(r.camera.Actual())
    {
      if !dragging {
        return true;
      }
      var camera := r.camera;
      if camera == null {
        return false;
      }
      ok := camera.ApplyTransvection(prevRay, ray, sqrt);
      if ok {
        prevRay := ray;
      }
    }
  }

  // ---------------------------------------------------------------------
  // Lemmas about flattening
  // ---------------------------------------------------------------------

  /** The flattened rows are as long as the rows together. */
  lemma {:induction false} FlatLength<T>(a: array<array<T>>, n: nat)
    requires n <= a.Length
    ensures |Flat(a, n)| == Offset(a, n)
  {
    if n > 0 {
      FlatLength(a, n - 1);
    }
  }

  /** Offsets never decrease. */
  lemma {:induction false} OffsetGrows<T>(a: array<array<T>>, m: nat, n: nat)
    requires m <= n <= a.Length
    ensures Offset(a, m) <= Offset(a, n)
  {
    if m < n {
      OffsetGrows(a, m, n - 1);
    }
  }

  /** Row `i`, element `j` sits at the row's offset plus `j`: the order is row-major. */
  lemma {:induction false} FlatIndex<T>(a: array<array<T>>, n: nat, i: nat, j: nat)
    requires n <= a.Length && i < n && j < a[i].Length
    ensures Offset(a, i) + j < |Flat(a, n)|
    ensures Flat(a, n)[Offset(a, i) + j] == a[i][j]
  {
    FlatLength(a, n);
    FlatLength(a, n - 1);
    if i < n - 1 {
      FlatIndex(a, n - 1, i, j);
      assert Flat(a, n) == Flat(a, n - 1) + a[n - 1][..];
    } else {
      assert Flat(a, n) == Flat(a, n - 1) + a[n - 1][..];
    }
  }

  // ---------------------------------------------------------------------
  // Lemmas about the style dispatch
  // ---------------------------------------------------------------------

  lemma {:induction false} ToUpperIdempotent(s: string)
    ensures ToUpper(ToUpper(s)) == ToUpper(s)
  {
    if s != [] {
      ToUpperIdempotent(s[1..]);
      assert ToUpper(s)[1..] == ToUpper(s[1..]);
    }
  }

  /** The choice ignores case: a status and its upper-case form draw alike. */
  lemma DrawingIgnoresCase(s: Shape)
    ensures Drawing(s) == Drawing(s.(status := ToUpper(s.status)))
  {
    ToUpperIdempotent(s.status);
  }

  /** For the five ordinary shapes: TEXTURE, WIRE, and anything else, in any case. */
  lemma StandardStyleCases(status: string)
    ensures StandardStyle(status) == Textured <==> ToUpper(status) == "TEXTURE"
    ensures StandardStyle(status) == Wire <==> ToUpper(status) == "WIRE"
    ensures StandardStyle(status) == Solid <==> ToUpper(status) != "TEXTURE" && ToUpper(status) != "WIRE"
  {
  }

  /** The teapot is drawn as a cube, and never textured. */
  lemma TeapotIsUntexturedCube(status: string)
    ensures Drawing(Shape(Teapot, status)).0 == CubePrim
    ensures Drawing(Shape(Teapot, status)).1 != Textured
    ensures Drawing(Shape(Teapot, status)).1 == Wire <==> ToUpper(status) == "WIRE"
  {
  }

  /** A complex shape uses the mesh exactly for SMOOTH, and the polyhedron otherwise. */
  lemma ComplexShapeMesh(status: string)
    ensures Drawing(Shape(Complex, status)).0 == PolyMeshPrim <==> ToUpper(status) == "SMOOTH"
    ensures Drawing(Shape(Complex, status)).0 in {PolyMeshPrim, PolyhedronPrim}
    ensures Drawing(Shape(Complex, status)).1 == Textured <==> ToUpper(status) == "TEXTURE"
  {
  }

  // ---------------------------------------------------------------------
  // Lemmas about scoping: what a pop undoes and what it does not
  // ---------------------------------------------------------------------

  /** A save followed by a restore gives back every stack; only the log grows. */
  lemma SaveRestoreRoundTrip(c: Context)
    ensures RestoreStep(SaveStep(c)) == c.(gl := c.gl.(log := c.gl.log + [Saved, Restored]))
  {
    var p := Current(c.gl);
    assert Pop(Push(p)) == p;
  }

  /** A restore in modelview mode pops the modelview stack and nothing else. */
  lemma RestorePopsOnlyModelView(c: Context)
    requires c.gl.mode == ModelView
    ensures var r := RestoreStep(c).gl;
            r.modelview == Pop(c.gl.modelview) && r.projection == c.gl.projection &&
            r.texture == c.gl.texture && r.lights == c.gl.lights && r.mode == ModelView
  {
  }

  /** A transform without the tex flag, between a save and a restore, is undone. */
  lemma ModelTransformIsScoped(c: Context, op: MatrixOp)
    requires c.gl.mode == ModelView
    ensures var r := RestoreStep(TransformStep(SaveStep(c), op, false)).gl;
            r.modelview == c.gl.modelview && r.texture == c.gl.texture && r.mode == ModelView
  {
    var s := Push(c.gl.modelview);
    assert Pop(MultTop(s, op)) == c.gl.modelview;
  }

  /**
   * A tex-flagged transform between a save and a restore is not undone: the
   * texture matrix is the identity times the operation, the modelview stack is
   * back as it was.
   */
  lemma TextureTransformSurvivesRestore(c: Context, op: MatrixOp)
    requires c.gl.mode == ModelView
    ensures var r := RestoreStep(TransformStep(SaveStep(c), op, true)).gl;
            r.texture == MultTop(LoadTop(c.gl.texture), op) && Top(r.texture) == [op] &&
            r.modelview == c.gl.modelview && r.mode == ModelView
  {
    assert Pop(Push(c.gl.modelview)) == c.gl.modelview;
  }

  /** A light enabled between a save and a restore stays enabled. */
  lemma LightSurvivesRestore(c: Context, l: Light)
    requires c.gl.mode == ModelView
    ensures var r := RestoreStep(LightStep(SaveStep(c), l)).gl;
            r.lights == c.gl.lights + {l.id} && r.modelview == c.gl.modelview
  {
    assert Pop(Push(c.gl.modelview)) == c.gl.modelview;
  }

  // ---------------------------------------------------------------------
  // Lemmas about the camera's actual limits and projection
  // ---------------------------------------------------------------------

  function Width(w: Window): real { w.xmax - w.xmin }

  function Height(w: Window): real { w.ymax - w.ymin }

  /**
   * The widening changes at most one axis, keeps the centre, and leaves the
   * window's height-to-width ratio equal to the viewport's.
   */
  lemma WidenMatchesViewport(w: Window, vp: Viewport)
    requires Widenable(w, vp)
    ensures var r := Widen(w, vp);
            (r.ymin == w.ymin && r.ymax == w.ymax) || (r.xmin == w.xmin && r.xmax == w.xmax)
    ensures var r := Widen(w, vp);
            r.xmin + r.xmax == w.xmin + w.xmax && r.ymin + r.ymax == w.ymin + w.ymax
    ensures var r := Widen(w, vp);
            Width(r) != 0.0 && Height(r) / Width(r) == vp.height as real / vp.width as real
    ensures Height(w) / Width(w) == vp.height as real / vp.width as real ==> Widen(w, vp) == w
  {
    var aspect := vp.height as real / vp.width as real;
    var desired := (w.ymax - w.ymin) / (w.xmax - w.xmin);
    if desired > aspect {
      WidenWider(w, vp);
    } else if aspect > desired {
      WidenTaller(w, vp);
    }
  }

  /** The branch that widens x, with the ratio stated on the window. */
  lemma WidenWider(w: Window, vp: Viewport)
    requires Widenable(w, vp)
    requires (w.ymax - w.ymin) / (w.xmax - w.xmin) > vp.height as real / vp.width as real
    ensures var r := Widen(w, vp);
            r.ymin == w.ymin && r.ymax == w.ymax && r.xmin + r.xmax == w.xmin + w.xmax &&
            Width(r) != 0.0 && Height(r) / Width(r) == vp.height as real / vp.width as real
  {
    var aspect := vp.height as real / vp.width as real;
    var desired := (w.ymax - w.ymin) / (w.xmax - w.xmin);
    var extra := (desired / aspect - 1.0) * (w.xmax - w.xmin) / 2.0;
    WidenX(w.xmin, w.xmax, w.ymax - w.ymin, aspect);
    assert Widen(w, vp) == w.(xmin := w.xmin - extra, xmax := w.xmax + extra);
  }

  /** The branch that widens y, with the ratio stated on the window. */
  lemma WidenTaller(w: Window, vp: Viewport)
    requires Widenable(w, vp)
    requires vp.height as real / vp.width as real > (w.ymax - w.ymin) / (w.xmax - w.xmin)
    ensures var r := Widen(w, vp);
            r.xmin == w.xmin && r.xmax == w.xmax && r.ymin + r.ymax == w.ymin + w.ymax &&
            Height(r) / Width(r) == vp.height as real / vp.width as real
  {
    var aspect := vp.height as real / vp.width as real;
    var desired := (w.ymax - w.ymin) / (w.xmax - w.xmin);
    var extra := (aspect / desired - 1.0) * (w.ymax - w.ymin) / 2.0;
    WidenY(w.ymin, w.ymax, w.xmax - w.xmin, aspect);
    assert Widen(w, vp) == w.(ymin := w.ymin - extra, ymax := w.ymax + extra);
  }

  /** The scalar fact behind widening x: the new width is height / aspect. */
  lemma WidenX(xmin: real, xmax: real, height: real, aspect: real)
    requires xmax - xmin != 0.0 && height != 0.0 && aspect != 0.0
    ensures var extra := (height / (xmax - xmin) / aspect - 1.0) * (xmax - xmin) / 2.0;
            (xmax + extra) - (xmin - extra) != 0.0 &&
            height / ((xmax + extra) - (xmin - extra)) == aspect
  {
    var extra := (height / (xmax - xmin) / aspect - 1.0) * (xmax - xmin) / 2.0;
    assert (xmax + extra) - (xmin - extra) == height / aspect;
  }

  /** The scalar fact behind widening y: the new height is aspect times the width. */
  lemma WidenY(ymin: real, ymax: real, width: real, aspect: real)
    requires ymax - ymin != 0.0 && width != 0.0
    ensures var extra := (aspect / ((ymax - ymin) / width) - 1.0) * (ymax - ymin) / 2.0;
            ((ymax + extra) - (ymin - extra)) / width == aspect
  {
    var extra := (aspect / ((ymax - ymin) / width) - 1.0) * (ymax - ymin) / 2.0;
    assert (ymax + extra) - (ymin - extra) == aspect * width;
  }

  /** With positive extents, the widened axis only grows. */
  lemma WidenNeverNarrows(w: Window, vp: Viewport)
    requires Widenable(w, vp) && 0.0 < Width(w) && 0.0 < Height(w)
    ensures Width(w) <= Width(Widen(w, vp)) && Height(w) <= Height(Widen(w, vp))
  {
    var aspect := vp.height as real / vp.width as real;
    var desired := Height(w) / Width(w);
    assert 0.0 < aspect && 0.0 < desired;
    if desired > aspect {
      MulPositive(desired / aspect - 1.0, Width(w));
      assert 1.0 < desired / aspect;
    } else if aspect > desired {
      MulPositive(aspect / desired - 1.0, Height(w));
      assert 1.0 < aspect / desired;
    }
  }

  /** Without aspect preservation the actual limits are the requested ones. */
  lemma ActualIsRequestedWithoutAspect(cfg: CameraConfig, vp: Viewport)
    requires !cfg.preserveAspect
    ensures ActualWindow(cfg, vp) == Requested(cfg)
  {
  }

  /**
   * The orthographic depth range is the view distance minus the z limits; the
   * perspective near plane is that, but at least 0.1, and the frustum is the
   * actual window about its centre, scaled by near / view distance.
   */
  lemma ProjectionDepths(cfg: CameraConfig, w: Window, d: real)
    requires 0.0 < d
    ensures var p := ProjectionOf(cfg, w, d);
            cfg.orthographic ==> p == Ortho(w.xmin, w.xmax, w.ymin, w.ymax, d - cfg.requested.zmax, d - cfg.requested.zmin)
    ensures var p := ProjectionOf(cfg, w, d);
            !cfg.orthographic ==>
              p.Frustum? && 0.1 <= p.near && d - cfg.requested.zmax <= p.near &&
              (p.near == 0.1 || p.near == d - cfg.requested.zmax) &&
              p.far == d - cfg.requested.zmin &&
              p.left + p.right == w.xmin + w.xmax && p.bottom + p.top == w.ymin + w.ymax &&
              p.right - p.left == (p.near / d) * Width(w) && p.top - p.bottom == (p.near / d) * Height(w)
  {
  }

  /** `applyCamera` fails exactly when eye and view centre coincide, and then stays in projection mode. */
  lemma CameraStepFails(c: Context, cfg: CameraConfig, sqrt: SqrtFn)
    requires CameraDefined(cfg, c.gl.viewport)
    ensures !CameraStep(c, cfg, sqrt).ok <==> cfg.eye == cfg.center
    ensures !CameraStep(c, cfg, sqrt).ok ==> CameraStep(c, cfg, sqrt).ctx.gl.mode == Projection
    ensures CameraStep(c, cfg, sqrt).ok ==>
              var g := CameraStep(c, cfg, sqrt).ctx.gl;
              g.mode == ModelView && |g.modelview| == |c.gl.modelview| &&
              Top(g.modelview) == [LookAt(cfg.eye, cfg.center, cfg.up)]
  {
    assert Sub(cfg.center, cfg.eye) == Zero <==> cfg.eye == cfg.center;
  }

  // ---------------------------------------------------------------------
  // Lemmas about the animation formulas
  // ---------------------------------------------------------------------

  function Abs(x: real): real { if x < 0.0 then -x else x }

  /** Java's float remainder has the sign of the dividend and is smaller than the divisor in size. */
  lemma RemBounds(a: real, b: real)
    requires b != 0.0
    ensures 0.0 <= a ==> 0.0 <= Rem(a, b) < Abs(b)
    ensures a <= 0.0 ==> -Abs(b) < Rem(a, b) <= 0.0
  {
    var q := a / b;
    var t := Trunc(q) as real;
    assert a == b * q;
    assert Rem(a, b) == b * (q - t);
    if 0.0 <= q {
      assert 0.0 <= q - t < 1.0;
    } else {
      assert -1.0 < q - t <= 0.0;
    }
    FractionTimes(b, q - t, a);
  }

  /** The sign and size of b * f for a fraction -1 < f < 1 whose product has the sign of `a`. */
  lemma FractionTimes(b: real, f: real, a: real)
    requires b != 0.0 && -1.0 < f < 1.0 && a == b * (f + (a / b - f))
    requires (0.0 <= a / b ==> 0.0 <= f) && (a / b <= 0.0 ==> f <= 0.0)
    ensures 0.0 <= a ==> 0.0 <= b * f < Abs(b)
    ensures a <= 0.0 ==> -Abs(b) < b * f <= 0.0
  {
    if 0.0 < b {
      assert Mul(b, 1.0 - f) == b - b * f;
      assert Mul(b, 1.0 + f) == b + b * f;
      MulPositive(b, 1.0 - f);
      MulPositive(b, 1.0 + f);
      if 0.0 < f { MulPositive(b, f); } else if f < 0.0 { MulPositive(b, -f); }
    } else {
      assert Mul(-b, 1.0 - f) == -b + b * f;
      assert Mul(-b, 1.0 + f) == -b - b * f;
      MulPositive(-b, 1.0 - f);
      MulPositive(-b, 1.0 + f);
      if 0.0 < f { MulPositive(-b, f); } else if f < 0.0 { MulPositive(-b, -f); }
    }
  }

  /**
   * From a non-negative frame number: a positive angle gives a value in
   * [0, angle), a negative one a value in (angle, 0], and 0 gives 0.
   */
  lemma AnimatedAngleRange(f: int, angle: real)
    requires 0 <= f
    ensures 0.0 < angle ==> 0.0 <= AnimatedAngle(f, angle) < angle
    ensures angle < 0.0 ==> angle < AnimatedAngle(f, angle) <= 0.0
    ensures angle == 0.0 ==> AnimatedAngle(f, angle) == 0.0
  {
    if angle > 0.0 {
      RemBounds(f as real, angle);
    } else if angle < 0.0 {
      RemBounds(-f as real, angle);
    }
  }

  /**
   * From a negative frame number, as the wrapped counter gives: the signs
   * flip, except that the most negative `int` is its own negation, so a
   * negative angle then stays in (angle, 0].
   */
  lemma AnimatedAngleNegativeFrames(f: int, angle: real)
    requires -0x8000_0000 <= f < 0
    ensures 0.0 < angle ==> -angle < AnimatedAngle(f, angle) <= 0.0
    ensures angle < 0.0 && f != -0x8000_0000 ==> 0.0 <= AnimatedAngle(f, angle) < -angle
    ensures angle < 0.0 && f == -0x8000_0000 ==> angle < AnimatedAngle(f, angle) <= 0.0
    ensures angle == 0.0 ==> AnimatedAngle(f, angle) == 0.0
  {
    if angle > 0.0 {
      RemBounds(f as real, angle);
    } else if angle < 0.0 {
      RemBounds(Neg32(f) as real, angle);
    }
  }

  /**
   * From a non-negative frame number: a negative x amplitude moves within
   * (x, 0], but a negative y or z amplitude moves within [0, -y), because
   * only the x branch negates the frame number.  A zero amplitude stays at 0.
   */
  lemma AnimatedOffsetSigns(f: int, x: real, y: real, smallest: real)
    requires 0 <= f && smallest < 0.0
    ensures x < 0.0 ==> x < OffsetX(f, x, smallest) <= 0.0
    ensures y < 0.0 ==> 0.0 <= OffsetYZ(f, y, smallest) < -y
    ensures OffsetX(f, 0.0, smallest) == 0.0 && OffsetYZ(f, 0.0, smallest) == 0.0
  {
    if x < 0.0 {
      NegativeOffsetX(f, x, smallest);
    }
    if y < 0.0 {
      NegativeOffsetYZ(f, y, smallest);
    }
  }

  /** The x half of the lemma above. */
  lemma NegativeOffsetX(f: int, x: real, smallest: real)
    requires 0 <= f && smallest < 0.0 && x < 0.0
    ensures x < OffsetX(f, x, smallest) <= 0.0
  {
    QuotientPositive(x, smallest);
    ScaledRem(f, x, smallest);
    OffsetsAreRems(f, x, smallest);
  }

  /** The y and z half of the lemma above. */
  lemma NegativeOffsetYZ(f: int, y: real, smallest: real)
    requires 0 <= f && smallest < 0.0 && y < 0.0
    ensures 0.0 <= OffsetYZ(f, y, smallest) < -y
  {
    QuotientPositive(y, smallest);
    ScaledRem(f, y, smallest);
    OffsetsAreRems(f, y, smallest);
  }

  /** The offsets and the factor for a nonzero amplitude, as remainders. */
  lemma OffsetsAreRems(f: int, x: real, smallest: real)
    requires x != 0.0 && smallest != 0.0
    ensures x < 0.0 && f != -0x8000_0000 ==> OffsetX(f, x, smallest) == Rem(-f as real * (x / smallest), x)
    ensures x < 0.0 && f == -0x8000_0000 ==> OffsetX(f, x, smallest) == Rem(f as real * (x / smallest), x)
    ensures OffsetYZ(f, x, smallest) == Rem(f as real * (x / smallest), x)
    ensures Factor(f, x, smallest) == Rem(f as real * (x / smallest), x) + 1.0
  {
    if x > 0.0 {
      assert OffsetYZ(f, x, smallest) == Rem(f as real * (x / smallest), x);
    } else {
      assert OffsetYZ(f, x, smallest) == Rem(f as real * (x / smallest), x);
    }
  }

  /**
   * With an amplitude of the same sign as the divisor, the frame-scaled
   * remainder has the sign the frame number gives it.
   */
  lemma ScaledRem(f: int, x: real, smallest: real)
    requires 0 <= f && x != 0.0 && smallest != 0.0 && 0.0 < x / smallest
    ensures 0.0 <= Rem(f as real * (x / smallest), x) < Abs(x)
    ensures -Abs(x) < Rem(-f as real * (x / smallest), x) <= 0.0
  {
    MulNonNegative(f as real, x / smallest);
    RemBounds(f as real * (x / smallest), x);
    RemBounds(-f as real * (x / smallest), x);
  }

  lemma MulNonNegative(a: real, b: real)
    requires 0.0 <= a && 0.0 <= b
    ensures 0.0 <= a * b && -a * b <= 0.0
  {
    if 0.0 < a && 0.0 < b { MulPositive(a, b); }
  }

  /** A zero scale amplitude gives the factor 1; a positive one, with a positive minimum, stays in [1, 1 + x). */
  lemma AnimatedFactorRange(f: int, x: real, smallest: real)
    requires 0 <= f && 0.0 < smallest && 0.0 < x
    ensures Factor(f, 0.0, smallest) == 1.0
    ensures 1.0 <= Factor(f, x, smallest) < 1.0 + x
  {
    QuotientPositive(x, smallest);
    ScaledRem(f, x, smallest);
    OffsetsAreRems(f, x, smallest);
  }

  lemma QuotientPositive(a: real, b: real)
    requires (a < 0.0 && b < 0.0) || (0.0 < a && 0.0 < b)
    ensures 0.0 < a / b
  {
  }

  /**
   * Every animated transform sets the animation flag and leaves the frame
   * number alone; only `display` advances it.  The translation and the scale
   * are defined where their amplitudes are (`AmplitudesDefined`).
   */
  lemma AnimationFlagSet(c: Context, angle: real, x: real, y: real, z: real, tex: bool)
    ensures var d := AnimateRotateStep(c, angle, x, y, z, tex);
            d.animationRequired && d.frameNumber == c.frameNumber
    ensures AmplitudesDefined(x, y, z) ==>
              var d := AnimateTranslateStep(c, x, y, z, tex);
              d.animationRequired && d.frameNumber == c.frameNumber
    ensures AmplitudesDefined(x, y, z) ==>
              var d := AnimateScaleStep(c, x, y, z, tex);
              d.animationRequired && d.frameNumber == c.frameNumber
  {
  }

  /** `display` counts a frame exactly when the flag is set; the counter wraps at the int limit. */
  lemma FrameCounter(c: Context)
    requires -0x8000_0000 <= c.frameNumber <= 0x7fff_ffff
    ensures FinishStep(c).animationRequired == c.animationRequired
    ensures !c.animationRequired ==> FinishStep(c).frameNumber == c.frameNumber
    ensures c.animationRequired && c.frameNumber < 0x7fff_ffff ==> FinishStep(c).frameNumber == c.frameNumber + 1
    ensures c.animationRequired && c.frameNumber == 0x7fff_ffff ==> FinishStep(c).frameNumber == -0x8000_0000
    ensures -0x8000_0000 <= FinishStep(c).frameNumber <= 0x7fff_ffff
  {
  }
}

=== FILE: transformations.dfy ===
/**
 * The transform payloads: translations, rotations and scales, plain and
 * animated.  Each stores x, y, z and a tex flag (and rotations an angle), and
 * `apply` hands itself to one renderer operation.  The six Java subclasses
 * become one class with a constant kind.
 */
module Transformations {
  import opened Rendering

  datatype Kind =
    | Translation
    | Rotation
    | Scaling
    | AnimatedTranslation
    | AnimatedRotation
    | AnimatedScaling

  predicate IsRotation(k: Kind) {
    k == Rotation || k == AnimatedRotation
  }

  predicate IsAnimated(k: Kind) {
    k == AnimatedTranslation || k == AnimatedRotation || k == AnimatedScaling
  }

  /** The stored values of a transform; `angle` is 0 for kinds other than rotations. */
  datatype TransformValue = TransformValue(kind: Kind, angle: real, x: real, y: real, z: real, tex: bool)

  /**
   * Where `apply` is defined over the reals: the animated translation and
   * scale divide each nonzero amplitude by the smallest one.
   */
  predicate Applicable(v: TransformValue) {
    (v.kind == AnimatedTranslation || v.kind == AnimatedScaling) ==> AmplitudesDefined(v.x, v.y, v.z)
  }

  /** The operation a transform multiplies on at frame `f`. */
  function OpOf(v: TransformValue, f: int): MatrixOp
    requires Applicable(v)
  {
    match v.kind
    case Translation => MatrixOp.Translate(v.x, v.y, v.z)
    case Rotation => MatrixOp.Rotate(v.angle, v.x, v.y, v.z)
    case Scaling => MatrixOp.Scale(v.x, v.y, v.z)
    case AnimatedTranslation => AnimatedTranslateOp(f, v.x, v.y, v.z)
    case AnimatedRotation => AnimatedRotateOp(f, v.angle, v.x, v.y, v.z)
    case AnimatedScaling => AnimatedScaleOp(f, v.x, v.y, v.z)
  }

  /**
   * `apply` on the render context: one transformation step, which an
   * animated kind precedes by setting the animation flag.
   */
  function ApplyStep(v: TransformValue, c: Context): (r: Context)
    requires Applicable(v)
    ensures Progress(c, r)
    ensures |r.gl.log| == |c.gl.log| + 1 && r.gl.log[|c.gl.log|] == Transformed(OpOf(v, c.frameNumber), v.tex)
    ensures c.gl.mode == ModelView ==> r.gl.mode == ModelView && OnlyTopsChange(c.gl, r.gl)
  {
    TransformStep(c.(animationRequired := c.animationRequired || IsAnimated(v.kind)), OpOf(v, c.frameNumber), v.tex)
  }

  /** Each kind's `apply` is exactly one call of its renderer operation. */
  lemma ApplyCallsRenderer(v: TransformValue, c: Context)
    requires Applicable(v)
    ensures match v.kind
            case Translation => ApplyStep(v, c) == TransformStep(c, MatrixOp.Translate(v.x, v.y, v.z), v.tex)
            case Rotation => ApplyStep(v, c) == TransformStep(c, MatrixOp.Rotate(v.angle, v.x, v.y, v.z), v.tex)
            case Scaling => ApplyStep(v, c) == TransformStep(c, MatrixOp.Scale(v.x, v.y, v.z), v.tex)
            case AnimatedTranslation => ApplyStep(v, c) == AnimateTranslateStep(c, v.x, v.y, v.z, v.tex)
            case AnimatedRotation => ApplyStep(v, c) == AnimateRotateStep(c, v.angle, v.x, v.y, v.z, v.tex)
            case AnimatedScaling => ApplyStep(v, c) == AnimateScaleStep(c, v.x, v.y, v.z, v.tex)
  {
    assert !IsAnimated(v.kind) ==> c.(animationRequired := c.animationRequired) == c;
  }

  class Transform {
    const kind: Kind
    var angle: real
    var x: real
    var y: real
    var z: real
    var tex: bool

    function Value(): TransformValue
      reads this
    {
      TransformValue(kind, angle, x, y, z, tex)
    }

    constructor Translation(x: real, y: real, z: real, tex: bool)
      ensures Value() == TransformValue(Kind.Translation, 0.0, x, y, z, tex)
    {
      kind := Kind.Translation;
      angle, this.x, this.y, this.z, this.tex := 0.0, x, y, z, tex;
    }

    constructor Rotation(angle: real, x: real, y: real, z: real, tex: bool)
      ensures Value() == TransformValue(Kind.Rotation, angle, x, y, z, tex)
    {
      kind := Kind.Rotation;
      this.angle, this.x, this.y, this.z, this.tex := angle, x, y, z, tex;
    }

    constructor Scale(x: real, y: real, z: real, tex: bool)
      ensures Value() == TransformValue(Scaling, 0.0, x, y, z, tex)
    {
      kind := Scaling;
      angle, this.x, this.y, this.z, this.tex := 0.0, x, y, z, tex;
    }

    constructor AnimatedTranslation(x: real, y: real, z: real, tex: bool)
      ensures Value() == TransformValue(Kind.AnimatedTranslation, 0.0, x, y, z, tex)
    {
      kind := Kind.AnimatedTranslation;
      angle, this.x, this.y, this.z, this.tex := 0.0, x, y, z, tex;
    }

    constructor AnimatedRotation(angle: real, x: real, y: real, z: real, tex: bool)
      ensures Value() == TransformValue(Kind.AnimatedRotation, angle, x, y, z, tex)
    {
      kind := Kind.AnimatedRotation;
      this.angle, this.x, this.y, this.z, this.tex := angle, x, y, z, tex;
    }

    constructor AnimatedScale(x: real, y: real, z: real, tex: bool)
      ensures Value() == TransformValue(AnimatedScaling, 0.0, x, y, z, tex)
    {
      kind := AnimatedScaling;
      angle, this.x, this.y, this.z, this.tex := 0.0, x, y, z, tex;
    }

    method SetX(x: real)
      modifies this
      ensures Value() == old(Value()).(x := x)
    {
      this.x := x;
    }

    method SetY(y: real)
      modifies this
      ensures Value() == old(Value()).(y := y)
    {
      this.y := y;
    }

    method SetZ(z: real)
      modifies this
      ensures Value() == old(Value()).(z := z)
    {
      this.z := z;
    }

    method SetTex(tex: bool)
      modifies this
      ensures Value() == old(Value()).(tex := tex)
    {
      this.tex := tex;
    }

    /** Only rotations have an angle to set. */
    method SetAngle(angle: real)
      requires IsRotation(kind)
      modifies this
      ensures Value() == old(Value()).(angle := angle)
    {
      this.angle := angle;
    }

    /** `apply`: exactly one renderer call, chosen by the kind; the transform itself is left alone. */
    method Apply(r: Renderer)
      requires Applicable(Value())
      modifies r
      ensures r.Ctx() == ApplyStep(Value(), old(r.Ctx())) && r.camera == old(r.camera)
    {
      ApplyCallsRenderer(Value(), r.Ctx());
      match kind
      case Translation => r.Translate(x, y, z, tex);
      case Rotation => r.Rotate(angle, x, y, z, tex);
      case Scaling => r.Scale(x, y, z, tex);
      case AnimatedTranslation => r.AnimateTranslate(x, y, z, tex);
      case AnimatedRotation => r.AnimateRotate(angle, x, y, z, tex);
      case AnimatedScaling => r.AnimateScale(x, y, z, tex);
    }
  }

  /**
   * Each kind multiplies on an operation of its own family; the plain kinds
   * pass their stored values through unchanged, and only the animated kinds
   * set the animation flag.
   */
  lemma ApplyDispatch(v: TransformValue, c: Context)
    requires Applicable(v)
    ensures var op := OpOf(v, c.frameNumber);
            (op.Translate? <==> v.kind in {Translation, AnimatedTranslation}) &&
            (op.Rotate? <==> IsRotation(v.kind)) &&
            (op.Scale? <==> v.kind in {Scaling, AnimatedScaling})
    ensures v.kind == Translation ==> OpOf(v, c.frameNumber) == MatrixOp.Translate(v.x, v.y, v.z)
    ensures v.kind == Rotation ==> OpOf(v, c.frameNumber) == MatrixOp.Rotate(v.angle, v.x, v.y, v.z)
    ensures v.kind == Scaling ==> OpOf(v, c.frameNumber) == MatrixOp.Scale(v.x, v.y, v.z)
    ensures IsRotation(v.kind) ==> var op := OpOf(v, c.frameNumber); op.ax == v.x && op.ay == v.y && op.az == v.z
    ensures ApplyStep(v, c).animationRequired == (c.animationRequired || IsAnimated(v.kind))
    ensures ApplyStep(v, c).frameNumber == c.frameNumber
  {
  }

  /**
   * At frame 0 an animated transform is at rest: no offset, no angle, unit
   * factors.
   */
  lemma AnimationStartsAtRest(v: TransformValue)
    requires Applicable(v) && IsAnimated(v.kind)
    ensures match v.kind
            case AnimatedTranslation => OpOf(v, 0) == MatrixOp.Translate(0.0, 0.0, 0.0)
            case AnimatedRotation => OpOf(v, 0) == MatrixOp.Rotate(0.0, v.x, v.y, v.z)
            case _ => OpOf(v, 0) == MatrixOp.Scale(1.0, 1.0, 1.0)
  {
    if v.kind == AnimatedRotation {
      if v.angle != 0.0 { RemOfZero(v.angle); }
    } else {
      var s := Min3(v.x, v.y, v.z);
      if v.x != 0.0 {
        RemOfZero(v.x);
        assert 0 as real * (v.x / s) == 0.0 && -0 as real * (v.x / s) == 0.0;
      }
      if v.y != 0.0 {
        RemOfZero(v.y);
        assert 0 as real * (v.y / s) == 0.0;
      }
      if v.z != 0.0 {
        RemOfZero(v.z);
        assert 0 as real * (v.z / s) == 0.0;
      }
    }
  }

  lemma RemOfZero(b: real)
    requires b != 0.0
    ensures Rem(0.0, b) == 0.0 && Rem(-0 as real, b) == 0.0
  {
  }
}

=== FILE: traversal.dfy ===
/**
 * What drawing a scene graph does to the render context.  A node graph is
 * read as a tree (a node shared by several parents appears once per parent);
 * `Run` is the meaning of `draw` on such a tree: a plain node brackets its
 * children with a save and a restore, a payload node applies its payload once
 * and visits nothing.  A failing camera aborts the traversal, and there is no
 * `finally`: the restores of the enclosing groups are skipped.
 */
module Traversal {
  import opened Vectors
  import opened Cameras
  import opened Rendering
  import opened Transformations

  /** What a node does when drawn. */
  datatype Leaf =
    | Group
    | TransformLeaf(transform: Transform, value: TransformValue)
    | MaterialLeaf(material: Material)
    | LightLeaf(light: Light)
    | CameraLeaf(camera: Camera)
    | ShapeLeaf(shape: Shape)
    | TextureLeaf(fileName: string)

  /** One node of the graph, `node` being whatever identifies it, with its children in order. */
  datatype Tree<N> = Tree(node: N, leaf: Leaf, children: seq<Tree<N>>)

  /**
   * Every transform that will be applied can be computed, and every camera
   * that will be applied can compute its limits for the viewport.  Only a
   * plain node's children are ever drawn.
   */
  predicate Defined<N>(t: Tree<N>, vp: Viewport, cfg: Camera -> CameraConfig) {
    match t.leaf
    case Group => forall i :: 0 <= i < |t.children| ==> Defined(t.children[i], vp, cfg)
    case TransformLeaf(_, v) => Applicable(v)
    case CameraLeaf(cam) => CameraDefined(cfg(cam), vp)
    case _ => true
  }

  predicate AllDefined<N>(ts: seq<Tree<N>>, vp: Viewport, cfg: Camera -> CameraConfig) {
    forall i :: 0 <= i < |ts| ==> Defined(ts[i], vp, cfg)
  }

  /**
   * `draw` on a tree; `cfg` gives each camera's configuration and `loaded`
   * says which texture files load.
   */
  function Run<N>(t: Tree<N>, c: Context, sqrt: SqrtFn, loaded: string -> bool, cfg: Camera -> CameraConfig): (o: Outcome)
    requires Defined(t, c.gl.viewport, cfg)
    ensures Progress(c, o.ctx)
    decreases t
  {
    match t.leaf
    case Group =>
      var o := RunAll(t.children, SaveStep(c), sqrt, loaded, cfg);
      if o.ok then Outcome(RestoreStep(o.ctx), true) else o
    case TransformLeaf(_, v) => Outcome(ApplyStep(v, c), true)
    case MaterialLeaf(m) => Outcome(MaterialStep(c, m), true)
    case LightLeaf(l) => Outcome(LightStep(c, l), true)
    case CameraLeaf(cam) => CameraStep(c, cfg(cam), sqrt)
    case ShapeLeaf(s) => Outcome(ShapeStep(c, s), true)
    case TextureLeaf(f) => Outcome(TextureStep(c, f, loaded(f)), true)
  }

  /** The children in order, stopping at the first failure. */
  function RunAll<N>(ts: seq<Tree<N>>, c: Context, sqrt: SqrtFn, loaded: string -> bool, cfg: Camera -> CameraConfig): (o: Outcome)
    requires AllDefined(ts, c.gl.viewport, cfg)
    ensures Progress(c, o.ctx)
    decreases ts
  {
    if ts == [] then Outcome(c, true)
    else
      var o := RunAll(ts[..|ts| - 1], c, sqrt, loaded, cfg);
      if !o.ok then o else Run(ts[|ts| - 1], o.ctx, sqrt, loaded, cfg)
  }

  /**
   * The cameras `draw` applies, in order.  A camera whose `norm` throws is
   * among them: `applyCamera` records the camera and writes its actual limits
   * before it computes the view distance.
   */
  function Applied<N>(t: Tree<N>, c: Context, sqrt: SqrtFn, loaded: string -> bool, cfg: Camera -> CameraConfig): (cams: seq<Camera>)
    requires Defined(t, c.gl.viewport, cfg)
    ensures forall cam :: cam in cams ==> CameraDefined(cfg(cam), c.gl.viewport)
    decreases t
  {
    match t.leaf
    case Group => AppliedAll(t.children, SaveStep(c), sqrt, loaded, cfg)
    case CameraLeaf(cam) => [cam]
    case _ => []
  }

  /** The cameras the children apply, stopping with the first failure. */
  function AppliedAll<N>(ts: seq<Tree<N>>, c: Context, sqrt: SqrtFn, loaded: string -> bool, cfg: Camera -> CameraConfig): (cams: seq<Camera>)
    requires AllDefined(ts, c.gl.viewport, cfg)
    ensures forall cam :: cam in cams ==> CameraDefined(cfg(cam), c.gl.viewport)
    decreases ts
  {
    if ts == [] then []
    else
      var o := RunAll(ts[..|ts| - 1], c, sqrt, loaded, cfg);
      AppliedAll(ts[..|ts| - 1], c, sqrt, loaded, cfg) + if o.ok then Applied(ts[|ts| - 1], o.ctx, sqrt, loaded, cfg) else []
  }

  /** The renderer's camera after `cams` were applied to it, `prev` before. */
  function Latest(cams: seq<Camera>, prev: Camera?): Camera? {
    if cams == [] then prev else cams[|cams| - 1]
  }

  /**
   * A draw fails only at a camera, and that camera has been applied: after a
   * failed draw the trackball turns the camera that failed.
   */
  lemma {:induction false} FailedDrawAppliedCamera<N>(t: Tree<N>, c: Context, sqrt: SqrtFn, loaded: string -> bool, cfg: Camera -> CameraConfig)
    requires Defined(t, c.gl.viewport, cfg)
    ensures !Run(t, c, sqrt, loaded, cfg).ok ==> Applied(t, c, sqrt, loaded, cfg) != []
    decreases t
  {
    if t.leaf.Group? {
      FailedDrawsAppliedCamera(t.children, SaveStep(c), sqrt, loaded, cfg);
    }
  }

  lemma {:induction false} FailedDrawsAppliedCamera<N>(ts: seq<Tree<N>>, c: Context, sqrt: SqrtFn, loaded: string -> bool, cfg: Camera -> CameraConfig)
    requires AllDefined(ts, c.gl.viewport, cfg)
    ensures !RunAll(ts, c, sqrt, loaded, cfg).ok ==> AppliedAll(ts, c, sqrt, loaded, cfg) != []
    decreases ts
  {
    if ts != [] {
      var o := RunAll(ts[..|ts| - 1], c, sqrt, loaded, cfg);
      if o.ok {
        FailedDrawAppliedCamera(ts[|ts| - 1], o.ctx, sqrt, loaded, cfg);
      } else {
        FailedDrawsAppliedCamera(ts[..|ts| - 1], c, sqrt, loaded, cfg);
      }
    }
  }

  /** Latest of two batches of cameras is the latest of the second, after the first. */
  lemma LatestAppend(a: seq<Camera>, b: seq<Camera>, prev: Camera?)
    ensures Latest(a + b, prev) == Latest(b, Latest(a, prev))
  {
  }

  /**
   * Drawing a list of siblings in two parts is drawing it in one: the second
   * part starts where the first stopped, and is not drawn after a failure.
   */
  lemma {:induction false} RunAllAppend<N>(a: seq<Tree<N>>, b: seq<Tree<N>>, c: Context, sqrt: SqrtFn, loaded: string -> bool, cfg: Camera -> CameraConfig)
    requires AllDefined(a, c.gl.viewport, cfg) && AllDefined(b, c.gl.viewport, cfg)
    ensures AllDefined(a + b, c.gl.viewport, cfg)
    ensures var o := RunAll(a, c, sqrt, loaded, cfg);
            RunAll(a + b, c, sqrt, loaded, cfg) == if o.ok then RunAll(b, o.ctx, sqrt, loaded, cfg) else o
    decreases b
  {
    var o := RunAll(a, c, sqrt, loaded, cfg);
    if b == [] {
      assert a + b == a;
    } else {
      var b' := b[..|b| - 1];
      RunAllAppend(a, b', c, sqrt, loaded, cfg);
      assert (a + b)[..|a + b| - 1] == a + b';
      assert (a + b)[|a + b| - 1] == b[|b| - 1];
    }
  }

  /** The children up to `i`, then child `i`. */
  lemma RunAllPrefix<N>(ts: seq<Tree<N>>, i: nat, c: Context, sqrt: SqrtFn, loaded: string -> bool, cfg: Camera -> CameraConfig)
    requires i < |ts| && AllDefined(ts, c.gl.viewport, cfg)
    ensures AllDefined(ts[..i], c.gl.viewport, cfg) && AllDefined(ts[..i + 1], c.gl.viewport, cfg)
    ensures var o := RunAll(ts[..i], c, sqrt, loaded, cfg);
            RunAll(ts[..i + 1], c, sqrt, loaded, cfg) == if o.ok then Run(ts[i], o.ctx, sqrt, loaded, cfg) else o
    ensures var o := RunAll(ts[..i], c, sqrt, loaded, cfg);
            AppliedAll(ts[..i + 1], c, sqrt, loaded, cfg) ==
            AppliedAll(ts[..i], c, sqrt, loaded, cfg) + if o.ok then Applied(ts[i], o.ctx, sqrt, loaded, cfg) else []
  {
    PrefixDefined(ts, i, c.gl.viewport, cfg);
    PrefixDefined(ts, i + 1, c.gl.viewport, cfg);
    assert ts[..i + 1][..i] == ts[..i];
  }

  /** Once a child fails, the children after it are not drawn. */
  lemma {:induction false} FailureSkipsSiblings<N>(ts: seq<Tree<N>>, k: nat, c: Context, sqrt: SqrtFn, loaded: string -> bool, cfg: Camera -> CameraConfig)
    requires k <= |ts| && AllDefined(ts, c.gl.viewport, cfg) && AllDefined(ts[..k], c.gl.viewport, cfg)
    requires !RunAll(ts[..k], c, sqrt, loaded, cfg).ok
    ensures RunAll(ts, c, sqrt, loaded, cfg) == RunAll(ts[..k], c, sqrt, loaded, cfg)
    ensures AppliedAll(ts, c, sqrt, loaded, cfg) == AppliedAll(ts[..k], c, sqrt, loaded, cfg)
    decreases |ts|
  {
    if k < |ts| {
      var ts' := ts[..|ts| - 1];
      PrefixDefined(ts, |ts| - 1, c.gl.viewport, cfg);
      assert ts'[..k] == ts[..k];
      FailureSkipsSiblings(ts', k, c, sqrt, loaded, cfg);
    } else {
      assert ts[..k] == ts;
    }
  }

  lemma PrefixDefined<N>(ts: seq<Tree<N>>, k: nat, vp: Viewport, cfg: Camera -> CameraConfig)
    requires k <= |ts| && AllDefined(ts, vp, cfg)
    ensures AllDefined(ts[..k], vp, cfg)
  {
    var p := ts[..k];
    forall j | 0 <= j < |p| ensures Defined(p[j], vp, cfg) {
      assert p[j] == ts[j];
    }
  }

  /** A payload node's own children are never drawn. */
  lemma PayloadIgnoresChildren<N>(t: Tree<N>, kids: seq<Tree<N>>, c: Context, sqrt: SqrtFn, loaded: string -> bool, cfg: Camera -> CameraConfig)
    requires !t.leaf.Group? && Defined(t, c.gl.viewport, cfg)
    ensures Defined(t.(children := kids), c.gl.viewport, cfg)
    ensures Run(t.(children := kids), c, sqrt, loaded, cfg) == Run(t, c, sqrt, loaded, cfg)
  {
  }

  /**
   * A transform node is not scoped to itself: the sibling drawn after it is
   * drawn under the transform's operation, multiplied onto the modelview top.
   */
  lemma TransformReachesNextSibling<N>(x: Tree<N>, y: Tree<N>, c: Context, sqrt: SqrtFn, loaded: string -> bool, cfg: Camera -> CameraConfig)
    requires x.leaf.TransformLeaf? && !x.leaf.value.tex && c.gl.mode == ModelView
    requires Defined(x, c.gl.viewport, cfg) && Defined(y, c.gl.viewport, cfg)
    ensures AllDefined([x, y], c.gl.viewport, cfg)
    ensures var d := ApplyStep(x.leaf.value, c);
            RunAll([x, y], c, sqrt, loaded, cfg) == Run(y, d, sqrt, loaded, cfg) &&
            Top(d.gl.modelview) == Top(c.gl.modelview) + [OpOf(x.leaf.value, c.frameNumber)] &&
            |d.gl.modelview| == |c.gl.modelview|
  {
    var v := x.leaf.value;
    RunPair(x, y, c, sqrt, loaded, cfg);
    assert Run(x, c, sqrt, loaded, cfg) == Outcome(ApplyStep(v, c), true);
    MultTopModelView(c.gl, OpOf(v, c.frameNumber));
  }

  /** Two siblings: the second is drawn from where the first stopped, if it finished. */
  lemma RunPair<N>(x: Tree<N>, y: Tree<N>, c: Context, sqrt: SqrtFn, loaded: string -> bool, cfg: Camera -> CameraConfig)
    requires Defined(x, c.gl.viewport, cfg) && Defined(y, c.gl.viewport, cfg)
    ensures AllDefined([x, y], c.gl.viewport, cfg)
    ensures var o := Run(x, c, sqrt, loaded, cfg);
            RunAll([x, y], c, sqrt, loaded, cfg) == if o.ok then Run(y, o.ctx, sqrt, loaded, cfg) else o
  {
    var p := [x, y];
    var q := [x];
    assert q[..|q| - 1] == [] && q[|q| - 1] == x;
    assert AllDefined(q, c.gl.viewport, cfg);
    assert RunAll(q, c, sqrt, loaded, cfg) == Run(x, c, sqrt, loaded, cfg);
    assert p[..|p| - 1] == q && p[|p| - 1] == y;
  }

  lemma MultTopModelView(g: Gl, op: MatrixOp)
    requires g.mode == ModelView
    ensures WithCurrent(g, MultTop(Current(g), op)).modelview == MultTop(g.modelview, op)
  {
  }

  // ---------------------------------------------------------------------
  // Saves and restores in the log
  // ---------------------------------------------------------------------

  function Weight(e: Event): int {
    match e
    case Saved => 1
    case Restored => -1
    case _ => 0
  }

  /** Saves minus restores. */
  function Net(log: seq<Event>): int {
    if log == [] then 0 else Net(log[..|log| - 1]) + Weight(log[|log| - 1])
  }

  /** No prefix restores more than it saved. */
  predicate Nested(log: seq<Event>) {
    forall k :: 0 <= k <= |log| ==> 0 <= Net(log[..k])
  }

  /** Every save is matched by a later restore, and no restore comes before its save. */
  predicate Balanced(log: seq<Event>) {
    Nested(log) && Net(log) == 0
  }

  lemma {:induction false} NetAppend(a: seq<Event>, b: seq<Event>)
    ensures Net(a + b) == Net(a) + Net(b)
  {
    if b != [] {
      var b' := b[..|b| - 1];
      NetAppend(a, b');
      assert (a + b)[..|a + b| - 1] == a + b';
    } else {
      assert a + b == a;
    }
  }

  lemma NestedAppend(a: seq<Event>, b: seq<Event>)
    requires Nested(a) && Nested(b)
    ensures Nested(a + b)
  {
    forall k | 0 <= k <= |a + b|
      ensures 0 <= Net((a + b)[..k])
    {
      if k <= |a| {
        assert (a + b)[..k] == a[..k];
      } else {
        assert (a + b)[..k] == a + b[..k - |a|];
        NetAppend(a, b[..k - |a|]);
        assert a[..|a|] == a;
      }
    }
  }

  /** A segment opened by a save is nested, one level deeper. */
  lemma NestedOpen(s: seq<Event>)
    requires Nested(s)
    ensures Nested([Saved] + s) && Net([Saved] + s) == 1 + Net(s)
  {
    NetAppend([Saved], s);
    assert [Saved][..1] == [Saved];
    assert Net([Saved]) == 1 by { assert [Saved][..0] == []; }
    NestedAppend([Saved], s);
  }

  /** A balanced segment between a save and a restore is balanced. */
  lemma BalancedWrap(s: seq<Event>)
    requires Balanced(s)
    ensures Balanced([Saved] + s + [Restored])
  {
    NestedOpen(s);
    var w := [Saved] + s + [Restored];
    forall k | 0 <= k <= |w|
      ensures 0 <= Net(w[..k])
    {
      if k <= |s| + 1 {
        assert w[..k] == ([Saved] + s)[..k];
      } else {
        assert w[..k] == w;
        assert w[..|w| - 1] == [Saved] + s;
      }
    }
    assert w[..|w|] == w;
    assert w[..|w| - 1] == [Saved] + s;
  }

  lemma BalancedAppend(a: seq<Event>, b: seq<Event>)
    requires Balanced(a) && Balanced(b)
    ensures Balanced(a + b)
  {
    NestedAppend(a, b);
    NetAppend(a, b);
  }

  lemma BalancedEmpty()
    ensures Balanced([])
  {
    var e: seq<Event> := [];
    assert e[..0] == e;
  }

  /** A single event that is neither a save nor a restore. */
  lemma BalancedSingle(e: Event)
    requires !e.Saved? && !e.Restored?
    ensures Balanced([e])
  {
    assert [e][..0] == [];
    assert [e][..1] == [e];
  }

  // ---------------------------------------------------------------------
  // The stacks after a draw
  // ---------------------------------------------------------------------

  /** The log a draw appended. */
  function Segment(c: Context, d: Context): seq<Event>
    requires |c.gl.log| <= |d.gl.log|
  {
    d.gl.log[|c.gl.log|..]
  }

  /**
   * The stack discipline of a draw that starts in modelview mode: the
   * modelview stack keeps everything below its top and is deeper by the saves
   * left open, the other stacks keep their depth, the appended log is nested,
   * and a draw that succeeds ends balanced and back in modelview mode.
   */
  predicate Disciplined(c: Context, o: Outcome) {
    var m := c.gl.modelview;
    var m' := o.ctx.gl.modelview;
    c.gl.log <= o.ctx.gl.log &&
    |m'| == |m| + Net(Segment(c, o.ctx)) && |m| <= |m'| && m'[..|m| - 1] == m[..|m| - 1] &&
    |o.ctx.gl.projection| == |c.gl.projection| && |o.ctx.gl.texture| == |c.gl.texture| &&
    Nested(Segment(c, o.ctx)) &&
    (o.ok ==> o.ctx.gl.mode == ModelView && Balanced(Segment(c, o.ctx)))
  }

  /**
   * The stack discipline of `draw`.  A plain node that succeeds gives back
   * the modelview stack it found; one whose child fails leaves it deeper,
   * because its restore is skipped.
   */
  lemma {:induction false} RunDisciplined<N>(t: Tree<N>, c: Context, sqrt: SqrtFn, loaded: string -> bool, cfg: Camera -> CameraConfig)
    requires Defined(t, c.gl.viewport, cfg) && c.gl.mode == ModelView
    ensures Disciplined(c, Run(t, c, sqrt, loaded, cfg))
    ensures t.leaf.Group? && Run(t, c, sqrt, loaded, cfg).ok ==>
              Run(t, c, sqrt, loaded, cfg).ctx.gl.modelview == c.gl.modelview
    ensures t.leaf.Group? && !Run(t, c, sqrt, loaded, cfg).ok ==>
              |Run(t, c, sqrt, loaded, cfg).ctx.gl.modelview| > |c.gl.modelview|
    decreases t, 1
  {
    if t.leaf.Group? {
      GroupDisciplined(t, c, sqrt, loaded, cfg);
    } else {
      LeafDisciplined(t, c, sqrt, loaded, cfg);
    }
  }

  lemma {:induction false} GroupDisciplined<N>(t: Tree<N>, c: Context, sqrt: SqrtFn, loaded: string -> bool, cfg: Camera -> CameraConfig)
    requires t.leaf.Group? && Defined(t, c.gl.viewport, cfg) && c.gl.mode == ModelView
    ensures Disciplined(c, Run(t, c, sqrt, loaded, cfg))
    ensures Run(t, c, sqrt, loaded, cfg).ok ==> Run(t, c, sqrt, loaded, cfg).ctx.gl.modelview == c.gl.modelview
    ensures !Run(t, c, sqrt, loaded, cfg).ok ==> |Run(t, c, sqrt, loaded, cfg).ctx.gl.modelview| > |c.gl.modelview|
    decreases t, 0
  {
    var c0 := SaveStep(c);
    var o' := RunAll(t.children, c0, sqrt, loaded, cfg);
    RunAllDisciplined(t.children, c0, sqrt, loaded, cfg);
    if o'.ok {
      GroupFinished(c, o'.ctx);
    } else {
      GroupAborted(c, o');
    }
  }

  /** The children of a plain node finished: the restore closes the bracket. */
  lemma GroupFinished(c: Context, e: Context)
    requires c.gl.mode == ModelView && Disciplined(SaveStep(c), Outcome(e, true))
    ensures Disciplined(c, Outcome(RestoreStep(e), true))
    ensures RestoreStep(e).gl.modelview == c.gl.modelview
  {
    var c0 := SaveStep(c);
    var s' := Segment(c0, e);
    assert e.gl.log == c.gl.log + [Saved] + s';
    assert s'[..|s'|] == s';
    NestedOpen(s');
    assert c0.gl.modelview[..|c0.gl.modelview| - 1] == c.gl.modelview;
    BalancedWrap(s');
    SegmentCompose(c, c0, e);
    assert Segment(c, c0) == [Saved];
    SegmentCompose(c, e, RestoreStep(e));
    assert Segment(e, RestoreStep(e)) == [Restored];
    assert Segment(c, RestoreStep(e)) == [Saved] + s' + [Restored];
    assert RestoreStep(e).gl.modelview == e.gl.modelview[..|c.gl.modelview|];
  }

  /** A child of a plain node failed: the restore is skipped and the save stays open. */
  lemma GroupAborted(c: Context, o: Outcome)
    requires c.gl.mode == ModelView && !o.ok && Disciplined(SaveStep(c), o)
    ensures Disciplined(c, o)
    ensures |o.ctx.gl.modelview| > |c.gl.modelview|
  {
    var c0 := SaveStep(c);
    var s' := Segment(c0, o.ctx);
    assert o.ctx.gl.log == c.gl.log + [Saved] + s';
    assert s'[..|s'|] == s';
    NestedOpen(s');
    assert c0.gl.modelview[..|c0.gl.modelview| - 1] == c.gl.modelview;
    SegmentCompose(c, c0, o.ctx);
    assert Segment(c, c0) == [Saved];
    assert Segment(c, o.ctx) == [Saved] + s';
    assert o.ctx.gl.modelview[..|c.gl.modelview|] == c.gl.modelview;
  }

  /** A payload node appends one event, or none for a camera, and touches only the tops of the stacks. */
  lemma LeafDisciplined<N>(t: Tree<N>, c: Context, sqrt: SqrtFn, loaded: string -> bool, cfg: Camera -> CameraConfig)
    requires !t.leaf.Group? && Defined(t, c.gl.viewport, cfg) && c.gl.mode == ModelView
    ensures Disciplined(c, Run(t, c, sqrt, loaded, cfg))
    ensures var s := Segment(c, Run(t, c, sqrt, loaded, cfg).ctx);
            |s| == (if t.leaf.CameraLeaf? then 0 else 1) && Saved !in s && Restored !in s
  {
    var o := Run(t, c, sqrt, loaded, cfg);
    match t.leaf
    case TransformLeaf(_, v) =>
      BalancedSingle(Transformed(OpOf(v, c.frameNumber), v.tex));
      assert Segment(c, o.ctx) == [Transformed(OpOf(v, c.frameNumber), v.tex)];
    case MaterialLeaf(m) =>
      BalancedSingle(MaterialApplied(m));
      assert Segment(c, o.ctx) == [MaterialApplied(m)];
    case LightLeaf(l) =>
      BalancedSingle(LightApplied(l));
      assert Segment(c, o.ctx) == [LightApplied(l)];
    case CameraLeaf(cam) =>
      BalancedEmpty();
      assert Segment(c, o.ctx) == [];
    case ShapeLeaf(sh) =>
      var d := Drawing(sh);
      BalancedSingle(Drew(d.0, d.1));
      assert Segment(c, o.ctx) == [Drew(d.0, d.1)];
    case TextureLeaf(f) =>
      BalancedSingle(TextureApplied(f, loaded(f)));
      assert Segment(c, o.ctx) == [TextureApplied(f, loaded(f))];
  }

  lemma {:induction false} RunAllDisciplined<N>(ts: seq<Tree<N>>, c: Context, sqrt: SqrtFn, loaded: string -> bool, cfg: Camera -> CameraConfig)
    requires AllDefined(ts, c.gl.viewport, cfg) && c.gl.mode == ModelView
    ensures Disciplined(c, RunAll(ts, c, sqrt, loaded, cfg))
    decreases ts
  {
    if ts == [] {
      BalancedEmpty();
      assert Segment(c, c) == [];
    } else {
      var o1 := RunAll(ts[..|ts| - 1], c, sqrt, loaded, cfg);
      RunAllDisciplined(ts[..|ts| - 1], c, sqrt, loaded, cfg);
      if o1.ok {
        RunDisciplined(ts[|ts| - 1], o1.ctx, sqrt, loaded, cfg);
        DisciplinedCompose(c, o1.ctx, Run(ts[|ts| - 1], o1.ctx, sqrt, loaded, cfg));
      }
    }
  }

  /** A successful draw followed by another is as disciplined as each. */
  lemma DisciplinedCompose(c: Context, d: Context, o: Outcome)
    requires Disciplined(c, Outcome(d, true)) && Disciplined(d, o)
    ensures Disciplined(c, o)
  {
    var s1 := Segment(c, d);
    var s2 := Segment(d, o.ctx);
    assert d.gl.log == c.gl.log + s1;
    assert o.ctx.gl.log == d.gl.log + s2;
    assert Segment(c, o.ctx) == s1 + s2;
    NestedAppend(s1, s2);
    NetAppend(s1, s2);
    if o.ok {
      BalancedAppend(s1, s2);
    }
    var m := c.gl.modelview;
    assert o.ctx.gl.modelview[..|m| - 1] == o.ctx.gl.modelview[..|m| - 1][..|m| - 1];
  }

  // ---------------------------------------------------------------------
  // What a draw does not do
  // ---------------------------------------------------------------------

  /** No clear and no flush: those belong to the frame around the draw. */
  predicate Quiet(log: seq<Event>) {
    forall e :: e in log ==> !e.Cleared? && !e.Flushed?
  }

  /** Drawing a tree neither clears the window nor flushes it. */
  lemma {:induction false} RunQuiet<N>(t: Tree<N>, c: Context, sqrt: SqrtFn, loaded: string -> bool, cfg: Camera -> CameraConfig)
    requires Defined(t, c.gl.viewport, cfg)
    ensures Quiet(Segment(c, Run(t, c, sqrt, loaded, cfg).ctx))
    decreases t, 1
  {
    if t.leaf.Group? {
      GroupQuiet(t, c, sqrt, loaded, cfg);
    } else {
      LeafQuiet(t, c, sqrt, loaded, cfg);
    }
  }

  lemma {:induction false} GroupQuiet<N>(t: Tree<N>, c: Context, sqrt: SqrtFn, loaded: string -> bool, cfg: Camera -> CameraConfig)
    requires t.leaf.Group? && Defined(t, c.gl.viewport, cfg)
    ensures Quiet(Segment(c, Run(t, c, sqrt, loaded, cfg).ctx))
    decreases t, 0
  {
    var o := Run(t, c, sqrt, loaded, cfg);
    var c0 := SaveStep(c);
    var o' := RunAll(t.children, c0, sqrt, loaded, cfg);
    RunAllQuiet(t.children, c0, sqrt, loaded, cfg);
    SegmentCompose(c, c0, o'.ctx);
    assert Segment(c, c0) == [Saved];
    if o'.ok {
      SegmentCompose(c, o'.ctx, o.ctx);
      assert Segment(o'.ctx, o.ctx) == [Restored];
    }
  }

  lemma LeafQuiet<N>(t: Tree<N>, c: Context, sqrt: SqrtFn, loaded: string -> bool, cfg: Camera -> CameraConfig)
    requires !t.leaf.Group? && Defined(t, c.gl.viewport, cfg)
    ensures Quiet(Segment(c, Run(t, c, sqrt, loaded, cfg).ctx))
  {
    var o := Run(t, c, sqrt, loaded, cfg);
    var seg := Segment(c, o.ctx);
    match t.leaf
    case TransformLeaf(_, v) => assert seg == [Transformed(OpOf(v, c.frameNumber), v.tex)];
    case MaterialLeaf(m) => assert seg == [MaterialApplied(m)];
    case LightLeaf(l) => assert seg == [LightApplied(l)];
    case CameraLeaf(cam) => assert seg == [];
    case ShapeLeaf(sh) => var d := Drawing(sh); assert seg == [Drew(d.0, d.1)];
    case TextureLeaf(f) => assert seg == [TextureApplied(f, loaded(f))];
  }

  lemma {:induction false} RunAllQuiet<N>(ts: seq<Tree<N>>, c: Context, sqrt: SqrtFn, loaded: string -> bool, cfg: Camera -> CameraConfig)
    requires AllDefined(ts, c.gl.viewport, cfg)
    ensures Quiet(Segment(c, RunAll(ts, c, sqrt, loaded, cfg).ctx))
    decreases ts, 2
  {
    if ts == [] {
      assert Segment(c, c) == [];
    } else {
      var o1 := RunAll(ts[..|ts| - 1], c, sqrt, loaded, cfg);
      RunAllQuiet(ts[..|ts| - 1], c, sqrt, loaded, cfg);
      if o1.ok {
        var o2 := Run(ts[|ts| - 1], o1.ctx, sqrt, loaded, cfg);
        RunQuiet(ts[|ts| - 1], o1.ctx, sqrt, loaded, cfg);
        SegmentCompose(c, o1.ctx, o2.ctx);
      }
    }
  }

  /** The log appended over two draws is the two appended logs. */
  lemma SegmentCompose(c: Context, d: Context, e: Context)
    requires c.gl.log <= d.gl.log <= e.gl.log
    ensures Segment(c, e) == Segment(c, d) + Segment(d, e)
  {
  }
}

=== FILE: vectors.dfy ===
/**
 * Three-component vectors over the reals.  The camera code keeps points and
 * directions in `double[3]` arrays; the specifications speak about them as
 * `Vec3` values.
 */
module Vectors {

  datatype Vec3 = Vec3(x: real, y: real, z: real)

  const Zero := Vec3(0.0, 0.0, 0.0)

  function Add(a: Vec3, b: Vec3): Vec3 { Vec3(a.x + b.x, a.y + b.y, a.z + b.z) }

  function Sub(a: Vec3, b: Vec3): Vec3 { Vec3(a.x - b.x, a.y - b.y, a.z - b.z) }

  function Scale(k: real, a: Vec3): Vec3 { Vec3(k * a.x, k * a.y, k * a.z) }

  /** Component-wise division, as `v[i] /= norm` does. */
  function Div(a: Vec3, k: real): Vec3
    requires k != 0.0
  {
    Vec3(a.x / k, a.y / k, a.z / k)
  }

  function Dot(a: Vec3, b: Vec3): real { a.x * b.x + a.y * b.y + a.z * b.z }

  /** Squared length. */
  function Len2(a: Vec3): real { Dot(a, a) }

  function Cross(a: Vec3, b: Vec3): Vec3 {
    Vec3(a.y * b.z - a.z * b.y, a.z * b.x - a.x * b.z, a.x * b.y - a.y * b.x)
  }

  predicate Unit(a: Vec3) { Len2(a) == 1.0 }

  predicate Orthonormal(x: Vec3, y: Vec3, z: Vec3) {
    Unit(x) && Unit(y) && Unit(z) && Dot(x, y) == 0.0 && Dot(y, z) == 0.0 && Dot(x, z) == 0.0
  }

  /**
   * Products and squares as functions: sign facts about them are proved once,
   * below, and used through these names.
   */
  function Mul(a: real, b: real): real { a * b }

  function Sq(a: real): real { Mul(a, a) }

  lemma MulPositive(a: real, b: real)
    requires 0.0 < a && 0.0 < b
    ensures 0.0 < Mul(a, b)
  {
  }

  lemma SquarePositive(a: real)
    requires a != 0.0
    ensures 0.0 < Sq(a)
  {
    if 0.0 < a {
      MulPositive(a, a);
    } else {
      MulPositive(-a, -a);
      assert Mul(-a, -a) == Sq(a);
    }
  }

  /**
   * A square-root routine: positive on positive arguments.  `Math.sqrt` is a
   * library call; the model takes it as a parameter of this type, and the
   * lemmas that need it to be an exact root say so with `IsSqrt`.
   */
  type SqrtFn = f: real -> real | forall x: real :: 0.0 < x ==> 0.0 < f(x) witness (x: real) => x

  ghost predicate IsSqrt(sqrt: SqrtFn) {
    forall x: real :: 0.0 < x ==> Sq(sqrt(x)) == x
  }

  /** A squared length is never negative, and is zero only for the zero vector. */
  lemma Len2Zero(a: Vec3)
    ensures 0.0 <= Len2(a)
    ensures Len2(a) == 0.0 <==> a == Zero
  {
    if a.x != 0.0 { SquarePositive(a.x); } else { assert Sq(a.x) == 0.0; }
    if a.y != 0.0 { SquarePositive(a.y); } else { assert Sq(a.y) == 0.0; }
    if a.z != 0.0 { SquarePositive(a.z); } else { assert Sq(a.z) == 0.0; }
    assert Len2(a) == Sq(a.x) + Sq(a.y) + Sq(a.z);
  }

  /** Exactly the nonzero vectors have a positive squared length. */
  lemma Len2Positive(a: Vec3)
    ensures a != Zero <==> 0.0 < Len2(a)
  {
    Len2Zero(a);
  }

  lemma DotSymmetric(a: Vec3, b: Vec3)
    ensures Dot(a, b) == Dot(b, a)
  {
  }

  lemma DotScale(a: Vec3, k: real, b: Vec3)
    ensures Dot(a, Scale(k, b)) == k * Dot(a, b)
    ensures Dot(Scale(k, b), a) == k * Dot(a, b)
  {
  }

  lemma DotDiv(a: Vec3, b: Vec3, k: real)
    requires k != 0.0
    ensures Dot(a, Div(b, k)) == Dot(a, b) / k
    ensures Dot(Div(b, k), a) == Dot(a, b) / k
  {
    DotDivLeft(a, b, k);
    assert Dot(Div(b, k), a) == Dot(a, Div(b, k));
  }

  lemma DotDivLeft(a: Vec3, b: Vec3, k: real)
    requires k != 0.0
    ensures Dot(a, Div(b, k)) == Dot(a, b) / k
  {
    DivDistributes(a.x, a.y, a.z, b.x, b.y, b.z, k);
  }

  lemma DivDistributes(a1: real, a2: real, a3: real, b1: real, b2: real, b3: real, k: real)
    requires k != 0.0
    ensures a1 * (b1 / k) + a2 * (b2 / k) + a3 * (b3 / k) == (a1 * b1 + a2 * b2 + a3 * b3) / k
  {
  }

  /** Scaling undoes dividing. */
  lemma ScaleDiv(a: Vec3, k: real)
    requires k != 0.0
    ensures Scale(k, Div(a, k)) == a
  {
  }

  /** Dividing a vector by an exact root of its squared length gives a unit vector. */
  lemma DivByLengthIsUnit(a: Vec3, s: real)
    requires 0.0 < s && Sq(s) == Len2(a)
    ensures Unit(Div(a, s))
  {
    DotDiv(a, a, s);
    DotDiv(Div(a, s), a, s);
    assert Len2(Div(a, s)) == Len2(a) / s / s;
    assert Sq(s) / s == s;
  }

  /** Lagrange's identity, specialised to two unit, orthogonal vectors. */
  lemma CrossOfOrthonormal(y: Vec3, z: Vec3)
    requires Unit(y) && Unit(z) && Dot(y, z) == 0.0
    ensures Orthonormal(Cross(y, z), y, z)
  {
    var x := Cross(y, z);
    assert Len2(x) == Len2(y) * Len2(z) - Dot(y, z) * Dot(y, z);
  }

  /** Scaling twice is scaling by the product. */
  lemma ScaleScale(k: real, m: real, a: Vec3)
    ensures Scale(k, Scale(m, a)) == Scale(k * m, a)
  {
  }

  lemma ScaleZero(k: real, a: Vec3)
    requires k != 0.0
    ensures Scale(k, a) == Zero <==> a == Zero
  {
    if Scale(k, a) == Zero {
      ScaleDiv(a, 1.0 / k);
      assert Div(Scale(k, a), k) == a;
    }
  }
}

=== FILE: wrappers.dfy ===
/** Optional values, standing for the source's exceptions where an operation can fail. */
module Wrappers {

  datatype Option<T> = None | Some(value: T)
}
